=== FILE: README.md ===
# packer-plugin-aws, modelled in Dafny

This project models the core of the `packer-plugin-aws` Packer plugin:

- **AMI helpers**: locate exactly one AMI; decide whether it is shared with an account; share it
  (launch permission, then create-volume permission on every EBS snapshot).
- **`ami-copy` post-processor**:
  - parse the Amazon artifact id;
  - build one copy operation per target account (explicit targets resolved through STS, then
    `ami_users`, optionally through an assumed role);
  - run every operation: copy, tag with a bounded retry, optionally wait for `available`;
  - collect errors and manifests.
- **`ami-delete` post-processor**: deregister every AMI of the artifact, then delete its
  snapshots.
- **AppStream image builder**:
  - the builder's `Run`, its artifact and the artifact's rendering;
  - the create step with its strict wait for `RUNNING` and its teardown loop;
  - the snapshot step's poll loop.
- **`appstream-share` post-processor**: wait for the image with a deadline, share it with every
  account, then copy, wait and share in each destination region.
- **Data sources**:
  - `subnet`: filters, the request, and selection among several matches by most free addresses
    or at random;
  - `security-group`: filters, the group-name rule, and exactly one match;
  - `appstream-image`: the paginated listing, pattern matching, the latest image, and lookup by
    name.

How the world outside the plugin is represented:

- **Provider calls.** No provider is ever called. Each API call gets a scripted answer: an
  `Aws.Reply` (payload or structured error) or an `Aws.Ack` (the payload is ignored).
- **Traces.** The calls a run issues are recorded in order, as `Ec2.Call` or `AppStream.Call`
  values.
- **Poll loops.** Unbounded loops consume a finite sequence of observations. When the
  observations run out, the loop ends in an explicit "still polling" outcome.
- **Bounded loops.** Retries and availability polls read their k-th answer from a function of k.
- **Go map order.** Go's map iteration order is an input sequence, constrained by
  `Seqs.EnumeratesMap`. Lemmas prove that the results do not depend on that order.
- **Panics.** A Go runtime panic becomes the error `Panicked`.

Module layout:

| area | modules |
|---|---|
| shared | `Wrappers`, `Aws` (replies and the plugin's error messages), `Seqs`, `Strings`, `Ec2`, `AppStream` |
| AMI helpers | `AmiHelpers` |
| artifact id | `ArtifactId` |
| `ami-copy` | `CopyTask` (`copyOperation`), `CopyEngine` (`executeCopies`), `AmiCopy` |
| `ami-delete` | `AmiDelete` |
| AppStream builder | `ImageBuilderStep`, `ImageSnapshotStep`, `AppStreamBuilder` |
| `appstream-share` | `AppStreamShare` |
| data sources | `DataSources` (shared parts), `SubnetSource`, `SecurityGroupSource`, `AppStreamImageSource` |

Behaviour of the code that the model keeps, and the one place where it departs:

- **Snapshot step, empty listing.** `builder/appstream/step_image_builder_snapshot.go:63` reads
  the first image of the listing without checking that there is one, so an empty listing
  panics. The model keeps the panic (`Panicked`). This is the first finding below.
- **Snapshot step, failure message.** When the image reaches `FAILED`, the snapshot step
  reports only "ImageBuilder failed" (`step_image_builder_snapshot.go:67`), without the
  provider's reason. The model does the same.
- **Builder wait.** The create step (`step_image_builder_create.go:85-94`) and `Builder.Run`
  (`builder/appstream/builder.go:175`) poll only while the builder is `PENDING`. Any state
  other than `RUNNING` halts with "bad imagebuilder state". The model does the same.
- **`ami-copy` worker pool.** When copy_concurrency is 0, `post-processor/ami-copy/copy.go:169-174`
  sizes the pool by the number of copy operations. With no operations that size is 0, and the
  pool rejects it with a panic. This is the second finding below. `CopyEngine.ExecuteCopies`
  models the pool as written. The rest of the model (`AmiCopy.RunCopies`, `AmiCopy.CopyAmis`,
  `AmiCopy.PostProcess`) uses `CopyEngine.ExecuteCopiesCorrected`, which reports no error and no
  manifest in that case. `CopyEngine.ExecuteCopiesCorrects` states that this is the only case
  where the two differ.

## Model

| member | source | states |
|---|---|---|
| AmiHelpers.LocateSingleAmi | helpers/ami.go:15-30 | Succeeds exactly when the describe call answers with exactly one image, and returns that image. A provider error passes through unchanged. Any other count fails with "single source image not located" and the count found. |
| AmiHelpers.AnyGrants | helpers/ami.go:46-55 | True exactly when some launch permission names the account or the group `all`. |
| AmiHelpers.IsImageSharedWith | helpers/ami.go:35-56 | A describe error passes through. Otherwise the image counts as shared exactly when some permission entry grants the account or the public group. |
| AmiHelpers.VolumePermissionCalls | helpers/ami.go:82-94 | Issues one create-volume-permission call per snapshot, in snapshot order, each adding the account. |
| AmiHelpers.VolumePermissionErrors | helpers/ami.go:82-102 | Attempts every snapshot even after a failure. No error is collected exactly when every snapshot call succeeded. |
| AmiHelpers.EnsureImageSharedWith | helpers/ami.go:60-104 | Describes the launch permissions first. If the image is already shared or public, nothing is modified. Otherwise it adds one launch permission, then one volume permission per EBS snapshot in mapping order, and only if the launch permission succeeded. It fails exactly when some snapshot call failed. |
| Ec2.SnapshotIds | helpers/ami.go:82-83 | Every mapping with an EBS snapshot contributes its snapshot id. |
| Ec2.SnapshotIdsFromMappings | post-processor/ami-delete/post-processor.go:114-115 | Every id listed is the snapshot id of a mapping that has one. |
| Ec2.SnapshotIdsAppend | post-processor/ami-delete/post-processor.go:114-123 | Snapshot ids follow mapping order: the ids of a concatenation are the ids of the first part followed by those of the second. |
| ArtifactId.ParseSegments | post-processor/ami-copy/post-processor.go:263-266 | Succeeds exactly when every segment holds a colon, and then splits each segment at its first colon into region and id. A segment without a colon panics. |
| ArtifactId.ParseArtifactId | post-processor/ami-copy/post-processor.go:262-268 | Produces one AMI per comma-separated segment, in order and at least one. A segment without a colon panics. |
| ArtifactId.FormatParse | post-processor/ami-delete/post-processor.go:135-141 | Round trip: parsing an artifact id and writing the AMIs back gives the same id. |
| ArtifactId.ParseFormat | post-processor/ami-copy/post-processor.go:262-268 | Round trip: writing AMIs as `region:id,...` and parsing gives them back, when regions hold no colon or comma and ids no comma. |
| ArtifactId.ParseSegmentsRendered | post-processor/ami-copy/post-processor.go:264-265 | Splitting rendered segments at the first colon recovers every AMI whose region has no colon. |
| CopyTask.CopyInput | post-processor/ami-copy/copy.go:54-64 | The copy request names the source image and region, and carries a KMS key exactly when one is configured. |
| CopyTask.TagList | post-processor/ami-copy/copy.go:93-109 | Tags are the source image's tags in order, followed by one tag per configured extra tag in map order. |
| CopyTask.ClassifyTagReply | post-processor/ami-copy/copy.go:120-133 | Success or a not-found code counts as tagged. Only `UnauthorizedOperation` is retried. Every other error is fatal. |
| CopyTask.RetryTags | post-processor/ami-copy/copy.go:118-124 | Makes at most 11 attempts, retrying only on retryable answers. Succeeds exactly when the last attempt tagged. A fatal error passes through. Exhausting the tries wraps the last error. |
| CopyTask.RetryUntilAuthorized | post-processor/ami-copy/copy.go:118-122 | Unauthorized answers followed by success end in success after exactly that many attempts plus one. |
| CopyTask.RetryExhaustsOnUnauthorized | post-processor/ami-copy/copy.go:118-122 | A never-clearing unauthorized error exhausts the retries after exactly 11 attempts. |
| CopyTask.TagImage | post-processor/ami-copy/copy.go:92-137 | Makes no call when there is nothing to tag. Otherwise makes between 1 and 11 CreateTags calls, each on the copied image with the full tag list. Its verdict and its number of calls are exactly those of the retry over the scripted tag answers (`CopyTask.RetryTags`). |
| CopyTask.WaitForAvailable | post-processor/ami-copy/copy.go:140-162 | Makes at most 30 polls and stops at the first deciding poll (`CopyTask.FirstDecided`), after exactly that many polls plus one. That poll decides the result: `available` succeeds; `failed` reports that the copy of that image failed on the target account; a lookup error is returned unchanged. Times out exactly when all 30 polls were undecided, after 30 polls. |
| CopyTask.FirstDecided | post-processor/ami-copy/copy.go:143-157 | Finds the first poll, from a given one on, that decides the wait, or 30 when none does. Every poll before it is undecided. |
| CopyTask.TagAndWait | post-processor/ami-copy/copy.go:76-88 | Tagging comes first. A tagging failure is returned with exactly the tag calls and no describe after them. Describes follow only when a wait is requested. Succeeds exactly when tagging succeeded and, if requested, the wait succeeded (`CopyTask.TaggedAndWaited`); it then yields the image id. A failed wait's error is returned. |
| CopyTask.Execute | post-processor/ami-copy/copy.go:43-89 | With tags_only, makes no copy call and uses the source image id. Otherwise the copy call comes first, exactly once, and its error stops the run. A tagging failure is returned and no describe is issued. On success the id returned is the copied (or source) id, and success holds exactly when tagging and the requested wait succeeded on that id. |
| CopyTask.TagsOnlyUntagged | post-processor/ami-copy/copy.go:71-74 | A tags-only operation with no tags and no wait issues no call at all and yields the source id. |
| CopyEngine.WorkerCapAsWritten | post-processor/ami-copy/copy.go:169-172 | Concurrency 0 means one worker per copy; any other value is used as is. |
| CopyEngine.NoCopiesPanicAsWritten | post-processor/ami-copy/copy.go:169-174 | With concurrency 0 and no copies, the cap is 0, which the pool refuses. |
| CopyEngine.WorkerCap | post-processor/ami-copy/copy.go:169-174 | Corrected cap: for every non-negative concurrency the pool accepts it. With 0 it allows every copy to run at once. |
| CopyEngine.WorkerCapCorrects | post-processor/ami-copy/copy.go:169-174 | The corrected cap equals the written one whenever there is a copy or concurrency is set, and is always acceptable. |
| CopyEngine.Outcomes | post-processor/ami-copy/copy.go:175-188 | Holds one outcome per operation, each that operation's own run. |
| CopyEngine.Collect | post-processor/ami-copy/copy.go:188-199 | Collects exactly one error per failed operation, their number being `CopyEngine.FailedCount`, and one manifest per successful one. Every failed operation's error is among the errors and every error comes from a failed operation. The same holds both ways for manifests and successes. |
| CopyEngine.FailedCount | post-processor/ami-copy/copy.go:188-199 | Counts the failed outcomes. It is zero exactly when every outcome succeeded. |
| CopyEngine.RunAll | post-processor/ami-copy/copy.go:175-211 | Running every operation yields as many errors as failed operations and as many manifests as successes. There are no errors exactly when all succeeded. A manifest file exists exactly when manifest_output is set. |
| CopyEngine.ExecuteCopies | post-processor/ami-copy/copy.go:165-233 | As written: fails with the pool's panic exactly when concurrency is negative, or is 0 with no copies. Otherwise the result is the run of every operation (`CopyEngine.RunAll`). |
| CopyEngine.ExecuteCopiesCorrected | post-processor/ami-copy/copy.go:165-233 | With the corrected cap: fails exactly when concurrency is negative. Otherwise the result is the run of every operation. |
| CopyEngine.ExecuteCopiesCorrects | post-processor/ami-copy/copy.go:169-174 | The written and corrected runs agree, except with concurrency 0 and no copies. There the written one panics and the corrected one succeeds with no error and no manifest. |
| CopyEngine.TagsOnlyBatch | post-processor/ami-copy/copy.go:175-211 | A lone provider-free operation yields no error and exactly its manifest. |
| AmiCopy.Configure | post-processor/ami-copy/post-processor.go:94-100 | Fails exactly when neither ami_users nor targets is set. keep_artifact defaults to "true". |
| AmiCopy.RoleArn | post-processor/ami-copy/post-processor.go:209 | The role ARN is `arn:aws:iam::`, then the user's account, then `:role/`, then the role name, and nothing else. |
| AmiCopy.MakeOp | post-processor/ami-copy/post-processor.go:189-201 | An operation carries the source image, the AMI's region and id, the account, and the configured tags, flags and key. |
| AmiCopy.TargetStep | post-processor/ami-copy/post-processor.go:158-202 | A target yields an operation exactly when its credentials, both identity lookups and the share step succeed. The calls come in that order. The operation goes to the resolved account. |
| AmiCopy.TargetCopies | post-processor/ami-copy/post-processor.go:158-203 | Yields at most one operation per target, and exactly one each when every target is accepted. A failed target is skipped, not fatal. |
| AmiCopy.TargetCopiesComplete | post-processor/ami-copy/post-processor.go:158-203 | Every accepted target contributes its operation for the resolved account. |
| AmiCopy.TargetCopiesSound | post-processor/ami-copy/post-processor.go:158-203 | Only accepted targets contribute operations. Each operation belongs to the account that some accepted target resolved. |
| AmiCopy.UserCopies | post-processor/ami-copy/post-processor.go:206-242 | Without a role name every user gets an operation, in order. With one, users whose assumed-role configuration fails are skipped. |
| AmiCopy.PrependUser | post-processor/ami-copy/post-processor.go:206-242 | Without a role name, prepending a user's operation keeps every operation at its user's position. |
| AmiCopy.AmiCopies | post-processor/ami-copy/post-processor.go:144-242 | Locates the source image first; its failure ends the plan. Otherwise target operations come before user operations, all for this AMI. |
| AmiCopy.AmiPlans | post-processor/ami-copy/post-processor.go:144 | Holds one plan per AMI of the artifact. |
| AmiCopy.Concat | post-processor/ami-copy/post-processor.go:143-243 | Succeeds exactly when every AMI's plan succeeded. It then yields every plan's operations concatenated in AMI order. Otherwise the first failure is reported. |
| AmiCopy.PlanCopies | post-processor/ami-copy/post-processor.go:140-243 | Succeeds exactly when every AMI is located. The operations are then each AMI's operations, concatenated in the artifact's order, and each belongs to one of the artifact's AMIs. |
| AmiCopy.PlanCopiesPerAmi | post-processor/ami-copy/post-processor.go:143-243 | In a successful plan, each AMI's part is its target operations followed by its user operations. |
| AmiCopy.RunCopies | post-processor/ami-copy/post-processor.go:245-253 | Runs exactly the built copies and never forces an override. A negative concurrency panics. Otherwise, with k failed copies out of n, it reports "k/n failed" and keeps the artifact; with none it reports no error and keeps as configured. The manifest file exists exactly when configured. It lists the manifests of the successful copies as the batch collects them (`AmiCopy.CopiesRan`). |
| AmiCopy.CopyAmis | post-processor/ami-copy/post-processor.go:140-253 | Once the artifact id has parsed: a planning failure is reported with its calls and nothing runs. Otherwise exactly the planned operations run, with the outcome `AmiCopy.CopiesRan` describes. |
| AmiCopy.PostProcess | post-processor/ami-copy/post-processor.go:112-253 | keep_artifact is parsed first; a parse failure returns keep false. Every later early failure returns the parsed keep flag, the error and no calls or copies: a non-Amazon builder, a credential error, or an artifact id that does not parse. Once the ids parse, the result is that of copying those AMIs (`AmiCopy.CopyAmis`). If the copies cannot be planned (`AmiCopy.Planned`), an error is reported and nothing runs. Otherwise exactly the planned operations run, with "k/n failed" for k failed operations and keep forced, or no error and keep as configured (`AmiCopy.CopiesRan`). On success every operation succeeded. |
| AmiDelete.DeleteSnapshots | post-processor/ami-delete/post-processor.go:114-123 | Deletes snapshots in order and stops at the first failure. Succeeds exactly when every deletion succeeded. |
| AmiDelete.DeleteImage | post-processor/ami-delete/post-processor.go:108-123 | Deregisters the located image first. A failed deregistration returns its error with no snapshot call. Otherwise the remaining calls are only the snapshot deletions, and the error is theirs. |
| AmiDelete.DescribeThenImage | post-processor/ami-delete/post-processor.go:105-123 | A lookup, then the deregistration, then snapshot deletions: the AMI is looked up once, first, and every snapshot deletion follows the deregistration. |
| AmiDelete.DescribesOwn | post-processor/ami-delete/post-processor.go:105 | Deleting one AMI looks up that AMI only. |
| AmiDelete.FailedAmongStep | post-processor/ami-delete/post-processor.go:100-124 | Once an AMI is deleted without error, the first failing AMI after it is the first failing AMI from it on, and the lookups made are among the AMIs up to that one. |
| AmiDelete.DeleteAmi | post-processor/ami-delete/post-processor.go:100-123 | Locates the AMI, deregisters it, then deletes its snapshots. No snapshot is touched before the deregistration succeeds. |
| AmiDelete.DeleteAll | post-processor/ami-delete/post-processor.go:100-124 | Handles AMIs in order and stops at the first failure. Succeeds exactly when every AMI was deleted. Every snapshot deletion follows a deregistration. |
| AmiDelete.FirstFailedAmi | post-processor/ami-delete/post-processor.go:100-123 | Finds the first AMI, from a given one on, whose deletion fails, or the end when none does. Every AMI before it is deleted. |
| AmiDelete.AmiCalls | post-processor/ami-delete/post-processor.go:100-123 | The calls for a run of AMIs are their deletions' calls, one after the other. Each AMI's calls start by describing it. |
| AmiDelete.Processed | post-processor/ami-delete/post-processor.go:100-123 | The AMIs the loop reaches: up to and including the first whose deletion fails. |
| AmiDelete.FirstError | post-processor/ami-delete/post-processor.go:105-121 | There is an error exactly when some AMI's deletion fails; it is the first such AMI's error. |
| AmiDelete.DeleteAllStep | post-processor/ami-delete/post-processor.go:100-124 | After an AMI deleted without error, the loop goes on with the next one: its calls come first, and the error is the rest's. |
| AmiDelete.DeleteAllTrace | post-processor/ami-delete/post-processor.go:100-124 | The loop's calls are exactly those of each AMI's deletion, in order, up to and including the first that fails; no AMI after it is touched. |
| AmiDelete.DeleteAllError | post-processor/ami-delete/post-processor.go:100-124 | The loop's error is the error of the first AMI whose deletion fails, and none when all succeed. |
| AmiDelete.PostProcess | post-processor/ami-delete/post-processor.go:81-127 | Only Amazon builders are accepted. A credential error passes through. An artifact id that does not parse fails before any call. Otherwise the error and the calls are those of the delete loop over the parsed AMIs. No error exactly when every AMI was deleted, and then keep and force-override are both set; both are set exactly on success. |
| AppStream.Address | builder/appstream/step_image_builder_create.go:100-105 | The ENI private address is present exactly when the builder's network configuration carries one. |
| AppStream.AwaitRunning | builder/appstream/step_image_builder_create.go:68-98 | Polls again only while the first builder is pending. Ends ready on running with that builder. Any other answer halts: a provider error, no builder, or another state. |
| ImageBuilderStep.CreateStep | builder/appstream/step_image_builder_create.go:36-110 | A create error halts with no builder name. Otherwise only describes follow, with 5 s counted per pending poll. The step continues exactly when the builder runs with an address, and then records it. |
| ImageBuilderStep.TeardownAction | builder/appstream/step_image_builder_create.go:128-160 | Finishes on a describe error or no builder. Deletes when stopped or failed. Waits when pending, stopping or snapshotting. Stops when running. |
| ImageBuilderStep.CleanupFrom | builder/appstream/step_image_builder_create.go:124-164 | The loop ends exactly when some answer neither stops nor waits. It deletes exactly when that first answer is stopped or failed, and the delete then follows a describe as the last call. Every turn begins with a describe. |
| ImageBuilderStep.TurnCalls | builder/appstream/step_image_builder_create.go:125-160 | Each turn describes the builder first. A stop follows exactly when the builder is running or in an unknown state; a delete follows exactly when it is stopped or failed. |
| ImageBuilderStep.TurnsCalls | builder/appstream/step_image_builder_create.go:124-164 | A run of turns issues each turn's calls one after the other, each starting with a describe. |
| ImageBuilderStep.Turns | builder/appstream/step_image_builder_create.go:124-164 | The turns the loop takes: up to and including the first answer that ends it. |
| ImageBuilderStep.TurnsStep | builder/appstream/step_image_builder_create.go:124-164 | A turn that keeps the loop going is followed by the turns from the next answer; one that ends it is the last. |
| ImageBuilderStep.CleanupStep | builder/appstream/step_image_builder_create.go:124-164 | A turn that keeps the loop going issues its own calls, then the loop goes on with the next answer. A turn that ends the loop issues only its own calls. |
| ImageBuilderStep.CleanupTrace | builder/appstream/step_image_builder_create.go:124-164 | The loop's calls are exactly each turn's calls, in order, up to and including the turn that ends it. A running or unknown builder is stopped on its turn. |
| ImageBuilderStep.CleanupOutcome | builder/appstream/step_image_builder_create.go:124-164 | The loop deletes exactly when the first answer that ends it is stopped or failed. It runs out exactly when every answer keeps it going. |
| ImageBuilderStep.CleanupShape | builder/appstream/step_image_builder_create.go:124-164 | Cleanup issues only describes, stops and deletes. Each stop directly follows a describe. A delete is only the last call and only when the run deleted. |
| ImageBuilderStep.Cleanup | builder/appstream/step_image_builder_create.go:112-165 | Does nothing when no builder was created. Otherwise it deletes exactly when some answer reached a deletable state with nothing ending the loop first. Its calls are exactly each turn's calls up to the turn that ends the loop; a running or unknown builder is stopped. |
| ImageBuilderStep.CreateFailureCleansNothing | builder/appstream/step_image_builder_create.go:112-120 | When creation failed, teardown issues no call. |
| ImageBuilderStep.TeardownOfRunningBuilder | builder/appstream/step_image_builder_create.go:140-153 | A running builder is stopped, waited for while stopping, then deleted once stopped. |
| ImageSnapshotStep.SnapshotStepAsWritten | builder/appstream/step_image_builder_snapshot.go:51-76 | The loop as written: continues only on an available first image. An empty listing reached before any decision panics. |
| ImageSnapshotStep.EmptyListingPanicsAsWritten | builder/appstream/step_image_builder_snapshot.go:63 | An empty DescribeImages answer crashes the step. The corrected step keeps polling. |
| ImageSnapshotStep.SnapshotStep | builder/appstream/step_image_builder_snapshot.go:51-76 | The corrected loop never panics. It is still polling exactly when no answer decided. A describe error or a failed image halts with its error. Elapsed time counts 5 s per sleeping poll. |
| ImageSnapshotStep.CorrectedAgreesWhenListed | builder/appstream/step_image_builder_snapshot.go:63-75 | When no answer is an empty listing, the corrected loop behaves exactly as written. |
| AppStreamBuilder.State | builder/appstream/builder.go:230-235 | Returns a value exactly when the key is in the state data, and then returns that value. |
| AppStreamBuilder.ImageLines | builder/appstream/builder.go:238-244 | The lines are sorted, one `region: id` line per image, and no other lines. |
| AppStreamBuilder.ImageLinesOrderIndependent | builder/appstream/builder.go:239-244 | The lines do not depend on the map's iteration order. |
| AppStreamBuilder.ArtifactString | builder/appstream/builder.go:237-246 | Consists of the header `Images were created:\n`, then the sorted lines joined by newlines, then a final newline. |
| AppStreamBuilder.ArtifactStringOrderIndependent | builder/appstream/builder.go:237-246 | The rendered artifact is the same for every map iteration order. |
| AppStreamBuilder.Run | builder/appstream/builder.go:94-194 | An SDK-config or earlier-step error stops before any call. Otherwise the create call comes first, followed by exactly one describe per observation the wait consumed. A builder still pending when the observations run out leaves Run waiting. Built exactly when the builder runs with an address. The artifact carries the builder id, no images, and the address under `eni_private_ip_address` in its generated data. |
| AppStreamBuilder.PendingThenRunning | builder/appstream/builder.go:153-193 | A builder pending for n polls and then running yields the artifact after n+1 describes. |
| AppStreamShare.Configure | post-processor/appstream-share/post-processor.go:85-92 | Accepted exactly when the image name and at least one account are set. The name is checked first. |
| AppStreamShare.Timeout | post-processor/appstream-share/post-processor.go:108-116 | An empty text means 30 minutes. Otherwise the parsed duration is used, or the run fails with "invalid timeout format". |
| AppStreamShare.WaitForImage | post-processor/appstream-share/post-processor.go:193-233 | The deadline is checked before each describe. Available succeeds. Failed reports the provider reason or "unknown reason". An empty listing or a pending image waits for the next tick. Cancellation ends the wait. |
| AppStreamShare.WaitDescribesBounded | post-processor/appstream-share/post-processor.go:194-203 | With ticks 30 s apart, the number of describes n satisfies (n-1)·30 s ≤ timeout. |
| AppStreamShare.ShareImage | post-processor/appstream-share/post-processor.go:176-191 | Grants fleet and image-builder use to each account in order and stops at the first failure, naming that account. Succeeds exactly when every grant succeeded. |
| AppStreamShare.DescribesThenGrants | post-processor/appstream-share/post-processor.go:121-131 | Describes of the image followed by permission updates in the same region share only after a describe. |
| AppStreamShare.SharesAfterDescribeAppend | post-processor/appstream-share/post-processor.go:120-171 | Two traces that each share only after a describe still do so one after the other. |
| AppStreamShare.SharedInAppend | post-processor/appstream-share/post-processor.go:127-131 | Sharing with every account in a region survives calls before or after. |
| AppStreamShare.GrantsShare | post-processor/appstream-share/post-processor.go:176-191 | Granting every account in turn shares the image with each of them, whatever calls came before. |
| AppStreamShare.Stage | post-processor/appstream-share/post-processor.go:155-169 | The calls are the wait's calls, then the grants only once the image is ready; a failed or unfinished wait issues no grant. A failed wait or grant ends the stage with that error. On success every account is granted in that region. |
| AppStreamShare.Destinations | post-processor/appstream-share/post-processor.go:136-171 | Visits destination regions in order with copy, wait, then share. Succeeds exactly when every region completes, and then every region was copied to and shared in. Otherwise the first destination that does not complete decides the result (`AppStreamShare.FailureEnd`). Its calls are exactly those of each destination it reaches, in order, so nothing is copied past the first destination that does not complete. |
| AppStreamShare.DestinationsAgree | post-processor/appstream-share/post-processor.go:136-171 | A destination completes exactly when its copy is accepted and its stage (wait, then share) finishes. |
| AppStreamShare.FirstIncomplete | post-processor/appstream-share/post-processor.go:137-170 | Finds the first destination, from a given one on, that does not complete, or the end when all do. Every destination before it completes. |
| AppStreamShare.Reached | post-processor/appstream-share/post-processor.go:137-170 | The destinations the loop reaches: up to and including the first that does not complete. |
| AppStreamShare.DestinationCalls | post-processor/appstream-share/post-processor.go:141-168 | A destination's calls start with the copy request through the source region's client. |
| AppStreamShare.DestinationsCalls | post-processor/appstream-share/post-processor.go:137-170 | A run of destinations issues their calls one after the other, starting with the first one's copy. |
| AppStreamShare.ReachedCallsStep | post-processor/appstream-share/post-processor.go:137-170 | The calls of the destinations reached from a completing one are its own, then those reached from the next. |
| AppStreamShare.StopCalls | post-processor/appstream-share/post-processor.go:141-168 | The destinations reached from one that does not complete are that one alone. |
| AppStreamShare.FailureEnd | post-processor/appstream-share/post-processor.go:146-168 | A destination that does not complete ends the run as the source does: a refused copy is "error copying image to" its region, a failed wait "error waiting for image in" it, a failed share "error sharing image in" it, each keeping nothing; a wait whose turns ran out is still waiting. |
| AppStreamShare.CompletedShared | post-processor/appstream-share/post-processor.go:141-168 | A completed destination's own calls copy to it and grant every account there, and destinations already shared stay shared behind them. |
| AppStreamShare.DestinationSharedAppend | post-processor/appstream-share/post-processor.go:137-170 | A destination copied to and shared in stays so when more calls come before. |
| AppStreamShare.SourceStage | post-processor/appstream-share/post-processor.go:120-133 | The source region's wait-and-share only shares after a describe, and grants every account when it finishes. |
| AppStreamShare.PostProcess | post-processor/appstream-share/post-processor.go:95-174 | An SDK-config or timeout error stops before any call. Never forces an override. Keeps the artifact exactly on success. A failed wait or share in the source region is returned unchanged after that region's calls, with no copy. Otherwise the result and calls are the source region's calls followed by the destination loop's. On success every account is shared in the source region and in every destination, and each destination copy was issued. |
| DataSources.TagFilters | datasource/subnet/datasource.go:329-334 | Holds one `tag:<key>` filter per configured tag with that tag's value, and nothing else. |
| DataSources.TagFiltersOrderIndependent | datasource/security-group/datasource.go:214-219 | Two iteration orders of the tag map give the same filters, permuted. |
| DataSources.LastValue | datasource/subnet/datasource.go:222-227 | Gives the value of the last complete tag with the key, or none when no complete tag has it. |
| DataSources.ExtractTags | datasource/security-group/datasource.go:178-183 | The tag map maps each key exactly to the value of the last complete tag with that key. Tags lacking a key or a value are dropped. |
| DataSources.Collect | datasource/subnet/datasource.go:162-166 | No error exactly when none was collected. Otherwise all errors are reported together. |
| DataSources.CheckCriteria | datasource/subnet/datasource.go:143-167 | The configuration check shared by the data sources (security-group datasource.go:93-111 and appstream-image datasource.go:61-78 follow it too). It succeeds exactly when the credentials are valid and some criterion is set. Otherwise the error list is the credential errors, then one missing-criterion error exactly when no criterion is set, and nothing else. |
| SubnetSource.Configure | datasource/subnet/datasource.go:143-167 | The error list is exactly the credential errors, followed by "at least one search criterion must be provided (id, vpc_id, cidr_block, filters, tags, etc.)" when none of the ten criteria is set. |
| SubnetSource.ScalarFilters | datasource/subnet/datasource.go:279-326 | One single-value filter per set criterion and none for unset ones, in criteria order: the filter of criterion j comes after those of the set criteria before it. |
| SubnetSource.BuildFilters | datasource/subnet/datasource.go:275-345 | The scalar filters come first. Then comes one filter per tag, exactly the tag filters in the map's iteration order. Then the custom filters follow unchanged. |
| SubnetSource.VpcFilter | datasource/subnet/datasource.go:279-284 | A vpc-id filter is present exactly when the VPC id is set. |
| SubnetSource.UniqueCriterion | datasource/subnet/datasource.go:279-326 | When only one criterion has a given name, a filter with that name and a non-empty value is present exactly when the criterion holds that value. |
| SubnetSource.DefaultForAzFilter | datasource/subnet/datasource.go:314-319 | A `default-for-az` filter with value "true"/"false" is present exactly when that value is configured. |
| SubnetSource.TagCount | datasource/subnet/datasource.go:329-334 | An enumeration of the tag map has one entry per tag. |
| SubnetSource.FiltersIgnoreId | datasource/subnet/datasource.go:180-190 | The id does not change the filters; it only selects the subnet id list. |
| SubnetSource.SubnetQuery | datasource/subnet/datasource.go:180-190 | The request carries the built filters, and the id as its only subnet id exactly when set. |
| SubnetSource.MostFree | datasource/subnet/datasource.go:348-367 | Returns a listed subnet with no other having more free addresses (absent counts as 0). An empty list gives the zero subnet. |
| SubnetSource.RandomSubnet | datasource/subnet/datasource.go:370-377 | Returns a listed subnet. An empty list gives the zero subnet. |
| SubnetSource.EverySubnetDrawable | datasource/subnet/datasource.go:376 | Every listed subnet is the outcome of some draw. |
| SubnetSource.Select | datasource/subnet/datasource.go:197-213 | No match is an error, and one match is taken. Several matches need most_free (which wins) or random, or fail with the count. |
| SubnetSource.Output | datasource/subnet/datasource.go:221-269 | The output carries the subnet id (empty if absent), the region, and the extracted tags. |
| SubnetSource.Execute | datasource/subnet/datasource.go:170-272 | A credential error is wrapped as "unable to load SDK config". The request is as built. A describe error is wrapped. Otherwise the outcome is the selection's. |
| SecurityGroupSource.Configure | datasource/security-group/datasource.go:93-111 | The error list is exactly the credential errors, followed by "at least one search criterion must be provided (id, name, vpc_id, tags, or filters)" when none of the five criteria is set. |
| SecurityGroupSource.BuildFilters | datasource/security-group/datasource.go:202-230 | The vpc-id filter comes first when set. Then comes one filter per tag, exactly the tag filters in the map's iteration order. Then the custom filters follow unchanged. |
| SecurityGroupSource.GroupQuery | datasource/security-group/datasource.go:128-154 | The id is the only group id when set. A group-name filter is present exactly when one was configured or the name is used without an id. |
| SecurityGroupSource.IdOverridesName | datasource/security-group/datasource.go:133-138 | With an id set, the name does not change the request. |
| SecurityGroupSource.SelectOne | datasource/security-group/datasource.go:161-169 | Succeeds exactly with one match. Otherwise fails with "none found" or with the count. |
| SecurityGroupSource.Output | datasource/security-group/datasource.go:177-196 | The output carries the group id, the region, and the extracted tags. |
| SecurityGroupSource.Execute | datasource/security-group/datasource.go:115-199 | A credential error passes through unchanged. Succeeds exactly when the describe call answers with exactly one group. |
| AppStreamImageSource.Configure | datasource/appstream-image/datasource.go:61-78 | The error list is exactly the credential errors, followed by the name-or-pattern error when neither a name nor a name pattern is set. |
| AppStreamImageSource.AllPages | datasource/appstream-image/datasource.go:91-99 | Succeeds exactly when every page answered. It then returns every page's images concatenated in page order. The first failing page is reported. |
| AppStreamImageSource.PlacedCons | datasource/appstream-image/datasource.go:101-110 | Listing one more image in front keeps every candidate at its place, behind the candidates listed before it. |
| AppStreamImageSource.Candidates | datasource/appstream-image/datasource.go:101-110 | Keeps exactly the available images whose name matches, in listing order: image j comes after the candidates listed before it. The first candidate is the first such image listed. |
| AppStreamImageSource.LatestFrom | datasource/appstream-image/datasource.go:117-123 | Finds the first position holding the latest creation time. |
| AppStreamImageSource.Latest | datasource/appstream-image/datasource.go:116-124 | Returns the first candidate with the latest creation time. |
| AppStreamImageSource.FirstLatestUnique | datasource/appstream-image/datasource.go:116-124 | Only one position is the first latest, so the choice is determined. |
| AppStreamImageSource.LatestIsCandidate | datasource/appstream-image/datasource.go:101-124 | With `latest`, the chosen image is a listed candidate, and no candidate was created later. |
| AppStreamImageSource.Output | datasource/appstream-image/datasource.go:131-135 | The id and the ARN are both the image ARN. The output also carries the name and the region. |
| AppStreamImageSource.Execute | datasource/appstream-image/datasource.go:80-174 | A pattern takes precedence over a name. The pattern path lists every page before compiling, panics on a bad pattern, fails when nothing matches, and otherwise returns the chosen candidate. The name path fails when nothing is found and otherwise takes the first image. |

## Left out

- **Plugin wiring.** Configuration decoding (`config.Decode`, HCL2 specs, interpolation),
  `main.go` and plugin registration are out, because none of them holds core logic. The
  credential configuration's own validation (`AccessConfig.Prepare`) is an input list of errors.
- **External services.** Credential loading, role assumption (`stscreds`) and STS are scripted
  answers (`Ack`/`Reply`). The provider SDKs are not part of this model.
- **Concurrency.** `executeCopies`' worker pool is a sequential fold in submission order. Each
  operation touches only its own target, so the per-operation outcomes are the same under any
  interleaving. Manifest order follows submission order, whereas the source order is completion
  order.
- **UI and logging.** UI messages and logging are out (`ui.Say`, `ui.Error`, `log.Printf`),
  because they do not affect results.
- **Manifest file.** Writing the manifest file (JSON marshalling, `os.WriteFile`) is reduced to
  its contents. A write failure is only reported in the source and never changes the result.
- **Clocks and sleeps.** The appstream-share wait gets one `Tick` per iteration: the elapsed time
  and whether the context was cancelled. `time.ParseDuration` is a parameter of
  `AppStreamShare.Timeout`.
- **Randomness.** `rand.Intn` becomes a draw `pick` given as input.
- **Regular expressions.** The regular-expression engine is out. A compiled pattern is an input
  predicate, or absent when it does not compile.
- **Data-source outputs.** Raw JSON of the outputs, RFC 822 formatting of `CreatedTime`, and
  output fields the model does not read (platform, visibility, IPv6, DNS options, owner, ...)
  are out. One case is not modelled: `datasource/subnet/datasource.go:259-261` dereferences
  `PrivateDnsNameOptionsOnLaunch` without a nil check, which panics when the provider omits it.
- **AppStream builder configuration.** The `Prepare` checks, `step_credentials.go` and
  `step_set_generated_data.go` are out. The generated data other steps leave is an input of
  `AppStreamBuilder.Run`. The provisioning steps run by the step runner are external; their
  error is an input.
- **Snapshot step communicator.** The communicator command the snapshot step starts is not
  modelled. The step polls the placeholder name `TODO-IMPLEMENT-NAME` as written.
- **`appstream-image-builder` data source.** It is context, not core, and is not part of this
  model.
- SubnetSource.MostFree: the source sorts with an unstable sort, so among subnets with equal free
  counts any may be chosen. The model takes the first one, and its contract states only that no
  listed subnet has more free addresses.
- AppStreamImageSource.Execute: the panic message of a pattern that does not compile is abridged
  to `regexp: Compile`. An image with no `CreatedTime`, which dereferences nil in the source, is
  not modelled: every image has a creation time.
- AppStreamImageSource.Output: only the ARN, name, region and creation time are kept.
- AppStreamShare.WaitDescribesBounded: states the bound only for tick scripts that are 30 s
  apart; the ticker's real-time spacing is not modelled.
- CopyTask.RetryTags: the context cancellation `retry.Config.Run` watches is not modelled; on
  cancellation the source returns the last retryable error unwrapped, which the model never does.
  The backoff sleeps between attempts (200 ms growing to at most 30 s, `copy.go:123`) are not
  modelled either; only the number of attempts is.
- CopyTask.WaitForAvailable: the one-minute sleep between polls (`copy.go:158`) is not modelled;
  each poll is the next scripted answer.
- AmiCopy.RunCopies: runs the copies through the corrected pool
  (`CopyEngine.ExecuteCopiesCorrected`), so with copy_concurrency 0 and no copy operations it
  reports no error, where `copy.go:169-174` panics. The as-written pool is
  `CopyEngine.ExecuteCopies`; see the second finding.
- AmiCopy.CopyAmis: inherits the corrected pool from `AmiCopy.RunCopies`, and does not report
  the panic for copy_concurrency 0 with no copy operations.
- AmiCopy.PostProcess: inherits the corrected pool from `AmiCopy.RunCopies`, and does not report
  the panic for copy_concurrency 0 with no copy operations.
- Ec2.SnapshotIds: states membership in both directions (the converse in
  `Ec2.SnapshotIdsFromMappings`), and order through `Ec2.SnapshotIdsAppend`, but not
  multiplicity.

## Findings

| source | as written | input that shows it | evidently intended | confidence | as-written member | corrected member |
|---|---|---|---|---|---|---|
| builder/appstream/step_image_builder_snapshot.go:63 | `images.Images[0].State` is read without checking that the listing is non-empty | a DescribeImages answer with no images, e.g. before the new image is listed | an image not yet listed is treated like a pending one and polled again | high; not executed | ImageSnapshotStep.EmptyListingPanicsAsWritten | ImageSnapshotStep.SnapshotStep |
| post-processor/ami-copy/copy.go:169-174 | a copy_concurrency of 0 becomes the number of copies, which is 0 when no copy operation was built | copy_concurrency 0, no ami_users, and every target skipped (e.g. its identity lookup fails); the pool is created with a cap of 0 | "unlimited" never yields a cap the pool refuses; at least one worker | medium (the pool's rejection of a cap below one is library behaviour outside this source); not executed | CopyEngine.ExecuteCopies | CopyEngine.ExecuteCopiesCorrected |

=== FILE: ami_copy.dfy ===
/** post-processor/ami-copy/post-processor.go: validate the configuration, then for each AMI of
    the artifact build one copy operation per usable target and one per `ami_users` entry, run
    them, and summarise the failures. */
module AmiCopy {
  import opened Wrappers
  import opened Aws
  import opened Ec2
  import Strings
  import Seqs
  import AmiHelpers
  import opened ArtifactId
  import opened CopyTask
  import CopyEngine

  /** The configuration fields the post-processor reads. A target's credentials are opaque; it
      is known by its position and name. `amiTags` are the entries of the tag map in iteration
      order. */
  datatype Config = Config(
    amiUsers: seq<string>,
    targets: seq<string>,
    roleName: string,
    copyConcurrency: int,
    ensureAvailable: bool,
    keepArtifact: string,
    manifestOutput: string,
    tagsOnly: bool,
    amiTags: seq<(string, string)>,
    encryptBoot: bool,
    kmsKeyId: string)

  /** Configure's checks after decoding: at least one of ami_users and targets, and
      keep_artifact defaulting to "true". */
  function Configure(c: Config): (r: Result<Config, Error>)
    ensures r.Failure? <==> |c.amiUsers| == 0 && |c.targets| == 0
    ensures r.Failure? ==> r.error == NoCopyTargets
    ensures r.Success? && c.keepArtifact == "" ==> r.value == c.(keepArtifact := "true")
    ensures r.Success? && c.keepArtifact != "" ==> r.value == c
  {
    if |c.amiUsers| == 0 && |c.targets| == 0 then Failure(NoCopyTargets)
    else if c.keepArtifact == "" then Success(c.(keepArtifact := "true"))
    else Success(c)
  }

  /** The scripted environment of one PostProcess call: loading the source credentials, the
      source image of each AMI, each target's credentials, the account each target's
      credentials resolve to in a region, the source credentials' identity lookup in a region,
      the sharing calls for an AMI and an account, loading an assumed role's credentials for a
      role ARN and a region, and the replies each built copy operation sees, by position. */
  datatype CopyEnv = CopyEnv(
    sourceConfig: Ack,
    locate: Ami -> Reply<seq<Image>>,
    targetConfig: nat -> Ack,
    targetIdentity: (nat, string) -> Reply<string>,
    sourceIdentity: string -> Ack,
    share: (Ami, string) -> AmiHelpers.ShareReplies,
    roleConfig: (string, string) -> Ack,
    task: nat -> TaskReplies)

  /** The role assumed for a user when role_name is set: an IAM role ARN whose account field
      is the user and whose resource is `role/<role>`. */
  function RoleArn(user: string, role: string): (arn: string)
    ensures |arn| == 13 + |user| + 6 + |role|
    ensures arn[..13] == "arn:aws:iam::" && arn[13..13 + |user|] == user
    ensures arn[13 + |user|..19 + |user|] == ":role/" && arn[19 + |user|..] == role
  {
    "arn:aws:iam::" + user + ":role/" + role
  }

  /** The copy operation of `ami` for `account`, with every copy setting from the
      configuration. */
  function MakeOp(c: Config, ami: Ami, source: Image, account: string): (op: CopyOperation)
    ensures op.sourceImage == source && op.sourceRegion == ami.region && op.sourceImageId == ami.id
    ensures op.targetAccountId == account
    ensures op.tags == c.amiTags && op.tagsOnly == c.tagsOnly && op.ensureAvailable == c.ensureAvailable
    ensures op.encrypted == c.encryptBoot && op.kmsKeyId == c.kmsKeyId
  {
    CopyOperation(source, ami.region, ami.id, c.ensureAvailable, c.tagsOnly, c.amiTags,
                  c.encryptBoot, c.kmsKeyId, account)
  }

  /** Whether target `k` yields a copy operation for `ami`: its credentials load, they resolve
      to an account, the source credentials' identity lookup succeeds, and the source image is
      shared with that account. */
  predicate TargetAccepted(env: CopyEnv, ami: Ami, source: Image, k: nat) {
    env.targetConfig(k).Ack? &&
    env.targetIdentity(k, ami.region).Answer? &&
    env.sourceIdentity(ami.region).Ack? &&
    var account := env.targetIdentity(k, ami.region).value;
    AmiHelpers.EnsureImageSharedWith(source, account, env.share(ami, account)).result.Success?
  }

  /** One target: a copy operation or a skip, and the calls made on the way. */
  function TargetStep(c: Config, env: CopyEnv, ami: Ami, source: Image, k: nat)
    : (r: (Option<CopyOperation>, seq<Call>))
    ensures r.0.Some? <==> TargetAccepted(env, ami, source, k)
    ensures r.0.Some? ==> r.0.value == MakeOp(c, ami, source, env.targetIdentity(k, ami.region).value)
    ensures env.targetConfig(k).Nack? ==> r.1 == []
    ensures env.targetConfig(k).Ack? ==> |r.1| >= 1 && r.1[0] == GetCallerIdentity(TargetPrincipal(k))
    ensures env.targetConfig(k).Ack? && env.targetIdentity(k, ami.region).Answer? ==>
      |r.1| >= 2 && r.1[1] == GetCallerIdentity(SourcePrincipal)
  {
    if env.targetConfig(k).Nack? then (None, [])
    else
      var identity := [GetCallerIdentity(TargetPrincipal(k))];
      match env.targetIdentity(k, ami.region)
      case Refused(_) => (None, identity)
      case Answer(account) =>
        var lookups := identity + [GetCallerIdentity(SourcePrincipal)];
        if env.sourceIdentity(ami.region).Nack? then (None, lookups)
        else
          var shared := AmiHelpers.EnsureImageSharedWith(source, account, env.share(ami, account));
          (if shared.result.Success? then Some(MakeOp(c, ami, source, account)) else None,
           lookups + shared.trace)
  }

  /** Each target's step, by position. */
  function TargetSteps(c: Config, env: CopyEnv, ami: Ami, source: Image): (steps: seq<(Option<CopyOperation>, seq<Call>)>)
    ensures |steps| == |c.targets|
    ensures forall k :: 0 <= k < |c.targets| ==> steps[k] == TargetStep(c, env, ami, source, k)
  {
    seq(|c.targets|, k requires 0 <= k < |c.targets| => TargetStep(c, env, ami, source, k))
  }

  /** The steps from position `k` on, in order: the operations of those that yielded one, and
      all their calls. */
  function Gather(steps: seq<(Option<CopyOperation>, seq<Call>)>, k: nat): (r: (seq<CopyOperation>, seq<Call>))
    requires k <= |steps|
    ensures |r.0| <= |steps| - k
    ensures (forall j :: k <= j < |steps| ==> steps[j].0.Some?) ==> |r.0| == |steps| - k
    decreases |steps| - k
  {
    if k == |steps| then ([], [])
    else
      var (ops, calls) := Gather(steps, k + 1);
      match steps[k].0
      case None => (ops, steps[k].1 + calls)
      case Some(o) => ([o] + ops, steps[k].1 + calls)
  }

  /** Every step that yields an operation contributes it. */
  lemma {:induction false} GatherComplete(steps: seq<(Option<CopyOperation>, seq<Call>)>, k: nat, j: nat)
    requires k <= j < |steps| && steps[j].0.Some?
    ensures steps[j].0.value in Gather(steps, k).0
    decreases j - k
  {
    var ops := Gather(steps, k + 1).0;
    var front := if steps[k].0.Some? then [steps[k].0.value] else [];
    assert Gather(steps, k).0 == front + ops;
    if j == k {
      assert (front + ops)[0] == steps[j].0.value;
    } else {
      GatherComplete(steps, k + 1, j);
      var i :| 0 <= i < |ops| && ops[i] == steps[j].0.value;
      assert (front + ops)[|front| + i] == ops[i];
    }
  }

  /** Only steps that yield an operation contribute one. */
  lemma {:induction false} GatherSound(steps: seq<(Option<CopyOperation>, seq<Call>)>, k: nat, op: CopyOperation)
    requires k <= |steps| && op in Gather(steps, k).0
    ensures exists j :: k <= j < |steps| && steps[j].0 == Some(op)
    decreases |steps| - k
  {
    var ops := Gather(steps, k + 1).0;
    var front := if steps[k].0.Some? then [steps[k].0.value] else [];
    assert Gather(steps, k).0 == front + ops;
    if !(steps[k].0.Some? && op == steps[k].0.value) {
      assert op in ops;
      GatherSound(steps, k + 1, op);
    }
  }

  /** The targets, in order; skipped targets contribute nothing. */
  function TargetCopies(c: Config, env: CopyEnv, ami: Ami, source: Image): (r: (seq<CopyOperation>, seq<Call>))
    ensures |r.0| <= |c.targets|
    ensures (forall j :: 0 <= j < |c.targets| ==> TargetAccepted(env, ami, source, j)) ==> |r.0| == |c.targets|
  {
    var steps := TargetSteps(c, env, ami, source);
    assert (forall j :: 0 <= j < |c.targets| ==> TargetAccepted(env, ami, source, j)) ==>
      forall j :: 0 <= j < |steps| ==> steps[j].0.Some?;
    Gather(steps, 0)
  }

  /** Every accepted target contributes its copy operation. */
  lemma TargetCopiesComplete(c: Config, env: CopyEnv, ami: Ami, source: Image, j: nat)
    requires j < |c.targets| && TargetAccepted(env, ami, source, j)
    ensures MakeOp(c, ami, source, env.targetIdentity(j, ami.region).value) in TargetCopies(c, env, ami, source).0
  {
    GatherComplete(TargetSteps(c, env, ami, source), 0, j);
  }

  /** Only accepted targets contribute copy operations. */
  lemma TargetCopiesSound(c: Config, env: CopyEnv, ami: Ami, source: Image, op: CopyOperation)
    requires op in TargetCopies(c, env, ami, source).0
    ensures exists j ::
      0 <= j < |c.targets| && TargetAccepted(env, ami, source, j) &&
      op == MakeOp(c, ami, source, env.targetIdentity(j, ami.region).value)
  {
    var steps := TargetSteps(c, env, ami, source);
    GatherSound(steps, 0, op);
    var j :| 0 <= j < |steps| && steps[j].0 == Some(op);
    assert TargetStep(c, env, ami, source, j).0 == Some(op);
  }

  /** Whether the user at position `i` yields a copy operation for `ami`: always without a
      role, and with one only when the assumed role's credentials load. */
  predicate UserAccepted(c: Config, env: CopyEnv, ami: Ami, i: nat)
    requires i < |c.amiUsers|
  {
    c.roleName == "" || env.roleConfig(RoleArn(c.amiUsers[i], c.roleName), ami.region).Ack?
  }

  /** The users from position `i` on, in order, each copying into its own account. */
  function UserCopies(c: Config, env: CopyEnv, ami: Ami, source: Image, i: nat): (ops: seq<CopyOperation>)
    requires i <= |c.amiUsers|
    ensures |ops| <= |c.amiUsers| - i
    ensures c.roleName == "" ==> |ops| == |c.amiUsers| - i
    ensures c.roleName == "" ==> forall j :: 0 <= j < |ops| ==> ops[j] == MakeOp(c, ami, source, c.amiUsers[i + j])
    ensures forall j :: i <= j < |c.amiUsers| && UserAccepted(c, env, ami, j) ==>
      MakeOp(c, ami, source, c.amiUsers[j]) in ops
    ensures forall op :: op in ops ==>
      exists j :: i <= j < |c.amiUsers| && UserAccepted(c, env, ami, j) && op == MakeOp(c, ami, source, c.amiUsers[j])
    decreases |c.amiUsers| - i
  {
    if i == |c.amiUsers| then []
    else
      var rest := UserCopies(c, env, ami, source, i + 1);
      if UserAccepted(c, env, ami, i) then
        var op := MakeOp(c, ami, source, c.amiUsers[i]);
        var r := [op] + rest;
        PrependUser(c, ami, source, i, rest);
        assert forall x :: x in r <==> x == op || x in rest;
        r
      else rest
  }

  /** Prepending user `i`'s operation to the operations of users `i + 1` onwards keeps every
      operation at its user's offset. */
  lemma PrependUser(c: Config, ami: Ami, source: Image, i: nat, rest: seq<CopyOperation>)
    requires i < |c.amiUsers| && |rest| <= |c.amiUsers| - i - 1
    requires c.roleName == "" ==> forall j :: 0 <= j < |rest| ==> rest[j] == MakeOp(c, ami, source, c.amiUsers[i + 1 + j])
    ensures c.roleName == "" ==> forall j :: 0 <= j < |rest| + 1 ==>
      ([MakeOp(c, ami, source, c.amiUsers[i])] + rest)[j] == MakeOp(c, ami, source, c.amiUsers[i + j])
  {
    var r := [MakeOp(c, ami, source, c.amiUsers[i])] + rest;
    if c.roleName == "" {
      forall j | 0 < j < |rest| + 1
        ensures r[j] == MakeOp(c, ami, source, c.amiUsers[i + j])
      {
        assert r[j] == rest[j - 1];
        assert i + 1 + (j - 1) == i + j;
      }
    }
  }

  /** The planning outcome: the copy operations, or the error that ended planning, and the
      calls made. */
  datatype PlanRun = PlanRun(result: Result<seq<CopyOperation>, Error>, trace: seq<Call>)

  /** The operations of one AMI: its source image is located first (a failure ends the whole
      post-processing), then the targets' operations, then the users'. */
  function AmiCopies(c: Config, env: CopyEnv, ami: Ami): (r: PlanRun)
    ensures |r.trace| >= 1 && r.trace[0] == DescribeImages(ami.id)
    ensures r.result.Failure? <==> AmiHelpers.LocateSingleAmi(env.locate(ami)).Failure?
    ensures r.result.Failure? ==> r.result == Failure(AmiHelpers.LocateSingleAmi(env.locate(ami)).error) && |r.trace| == 1
    ensures r.result.Success? ==> TargetsThenUsers(c, env, ami, AmiHelpers.LocateSingleAmi(env.locate(ami)).value, r.result.value)
    ensures r.result.Success? ==> forall op :: op in r.result.value ==> op.sourceRegion == ami.region && op.sourceImageId == ami.id
  {
    var describe := [DescribeImages(ami.id)];
    match AmiHelpers.LocateSingleAmi(env.locate(ami))
    case Failure(e) => PlanRun(Failure(e), describe)
    case Success(source) =>
      var (fromTargets, calls) := TargetCopies(c, env, ami, source);
      var fromUsers := UserCopies(c, env, ami, source, 0);
      var ops := fromTargets + fromUsers;
      assert ops[..|fromTargets|] == fromTargets && ops[|fromTargets|..] == fromUsers;
      assert forall op :: op in ops ==> op.sourceRegion == ami.region && op.sourceImageId == ami.id by {
        forall op | op in ops
          ensures op.sourceRegion == ami.region && op.sourceImageId == ami.id
        {
          if op in fromTargets {
            TargetCopiesSound(c, env, ami, source, op);
          } else {
            assert op in fromUsers;
          }
        }
      }
      PlanRun(Success(ops), describe + calls)
  }

  /** `ops` lists the operations of the accepted targets first and those of the users after. */
  predicate TargetsThenUsers(c: Config, env: CopyEnv, ami: Ami, source: Image, ops: seq<CopyOperation>) {
    var fromTargets := TargetCopies(c, env, ami, source).0;
    |ops| == |fromTargets| + |UserCopies(c, env, ami, source, 0)| &&
    ops[..|fromTargets|] == fromTargets &&
    ops[|fromTargets|..] == UserCopies(c, env, ami, source, 0)
  }

  /** The plan of every AMI, in order. */
  function AmiPlans(c: Config, env: CopyEnv, amis: seq<Ami>): (plans: seq<PlanRun>)
    ensures |plans| == |amis|
    ensures forall j :: 0 <= j < |amis| ==> plans[j] == AmiCopies(c, env, amis[j])
  {
    seq(|amis|, j requires 0 <= j < |amis| => AmiCopies(c, env, amis[j]))
  }

  /** The operations of a plan, none when it failed. */
  function OpsOf(p: PlanRun): seq<CopyOperation> {
    if p.result.Success? then p.result.value else []
  }

  /** The operations of the plans from position `i` on, plan by plan. */
  function PlannedOps(plans: seq<PlanRun>, i: nat): (parts: seq<seq<CopyOperation>>)
    requires i <= |plans|
    ensures |parts| == |plans| - i
    ensures forall j :: 0 <= j < |parts| ==> parts[j] == OpsOf(plans[i + j])
  {
    seq(|plans| - i, j requires 0 <= j < |plans| - i => OpsOf(plans[i + j]))
  }

  /** The AMIs' plans from position `i` on, concatenated in order; the first plan that failed
      ends planning with its error. */
  function Concat(plans: seq<PlanRun>, i: nat): (r: PlanRun)
    requires i <= |plans|
    ensures r.result.Success? <==> forall j :: i <= j < |plans| ==> plans[j].result.Success?
    ensures r.result.Success? ==> r.result.value == Seqs.Flatten(PlannedOps(plans, i))
    ensures r.result.Failure? ==>
      exists j :: i <= j < |plans| && r.result == plans[j].result &&
        forall l :: i <= l < j ==> plans[l].result.Success?
    ensures r.result.Success? ==> forall op :: op in r.result.value ==>
      exists j :: i <= j < |plans| && plans[j].result.Success? && op in plans[j].result.value
    decreases |plans| - i
  {
    if i == |plans| then PlanRun(Success([]), [])
    else
      match plans[i].result
      case Failure(e) => PlanRun(Failure(e), plans[i].trace)
      case Success(ops) =>
        var rest := Concat(plans, i + 1);
        assert PlannedOps(plans, i)[1..] == PlannedOps(plans, i + 1);
        PlanRun(if rest.result.Success? then Success(ops + rest.result.value) else rest.result,
                plans[i].trace + rest.trace)
  }

  /** Planning for every AMI of the artifact. */
  function PlanCopies(c: Config, env: CopyEnv, amis: seq<Ami>): (r: PlanRun)
    ensures r.result.Success? <==> forall j :: 0 <= j < |amis| ==> AmiHelpers.LocateSingleAmi(env.locate(amis[j])).Success?
    ensures r.result.Failure? ==>
      exists j :: 0 <= j < |amis| && AmiHelpers.LocateSingleAmi(env.locate(amis[j])).Failure? &&
        r.result == Failure(AmiHelpers.LocateSingleAmi(env.locate(amis[j])).error) &&
        forall l :: 0 <= l < j ==> AmiHelpers.LocateSingleAmi(env.locate(amis[l])).Success?
    ensures r.result.Success? ==> forall op :: op in r.result.value ==>
      exists j :: 0 <= j < |amis| && op.sourceRegion == amis[j].region && op.sourceImageId == amis[j].id
    // the operations are each AMI's, in the artifact's order
    ensures r.result.Success? ==> r.result.value == Seqs.Flatten(PlannedOps(AmiPlans(c, env, amis), 0))
  {
    Concat(AmiPlans(c, env, amis), 0)
  }

  /** In a successful plan, the part of each AMI is the operations of its accepted targets
      followed by those of its users. */
  lemma PlanCopiesPerAmi(c: Config, env: CopyEnv, amis: seq<Ami>, j: nat)
    requires PlanCopies(c, env, amis).result.Success? && j < |amis|
    ensures AmiHelpers.LocateSingleAmi(env.locate(amis[j])).Success?
    ensures var source := AmiHelpers.LocateSingleAmi(env.locate(amis[j])).value;
      PlannedOps(AmiPlans(c, env, amis), 0)[j] ==
        TargetCopies(c, env, amis[j], source).0 + UserCopies(c, env, amis[j], source, 0)
  {
    var source := AmiHelpers.LocateSingleAmi(env.locate(amis[j])).value;
    var ops := AmiCopies(c, env, amis[j]).result.value;
    assert ops == ops[..|TargetCopies(c, env, amis[j], source).0|] + ops[|TargetCopies(c, env, amis[j], source).0|..];
  }

  /** What PostProcess returns, with the calls made before the copies ran, the copy operations
      that were run, and the manifest file written. */
  datatype PostOutcome = PostOutcome(
    keep: bool,
    forceOverride: bool,
    error: Option<Error>,
    trace: seq<Call>,
    copies: seq<CopyOperation>,
    manifestFile: Option<seq<CopyEngine.Manifest>>)

  /** What running the built copy operations promises: the operations reported are the ones
      built; a negative copy_concurrency makes the pool panic; otherwise "k/n failed" is reported
      with k the number of failed operations and n the number built, and keep forced on, or,
      with no failure, no error and keep as configured; the manifest file exists exactly when
      manifest_output is set and has one entry per successful copy. */
  predicate CopiesRan(c: Config, env: CopyEnv, keep: bool, copies: seq<CopyOperation>, r: PostOutcome) {
    var failed := CopyEngine.FailedCount(CopyEngine.Outcomes(copies, env.task), 0);
    r.copies == copies &&
    (c.copyConcurrency < 0 ==> r.error == Some(Panicked(CopyEngine.PoolPanic)) && r.keep == keep) &&
    (c.copyConcurrency >= 0 && failed > 0 ==> r.keep && r.error == Some(CopiesFailed(failed, |copies|))) &&
    (c.copyConcurrency >= 0 && failed == 0 ==> r.error.None? && r.keep == keep) &&
    (c.copyConcurrency >= 0 ==> (r.manifestFile.Some? <==> c.manifestOutput != "")) &&
    (r.manifestFile.Some? ==> |r.manifestFile.value| == |copies| - failed) &&
    // the manifest file lists the manifests of the copies that succeeded, as the batch collects them
    (c.copyConcurrency >= 0 && r.manifestFile.Some? ==>
       r.manifestFile.value == CopyEngine.RunAll(copies, env.task, c.manifestOutput).manifests)
  }

  /** PostProcess gets as far as building the copy operations: keep_artifact parses, the
      artifact is an Amazon builder's, the source credentials load, the artifact id parses and
      every AMI's source image is located. */
  predicate Planned(c: Config, env: CopyEnv, artifact: Artifact) {
    Strings.ParseBool(c.keepArtifact).Some? && artifact.builderId in AmazonBuilderIds &&
    env.sourceConfig.Ack? && ParseArtifactId(artifact.id).Success? &&
    PlanCopies(c, env, ParseArtifactId(artifact.id).value).result.Success?
  }

  /** PostProcess. */
  function PostProcess(c: Config, env: CopyEnv, artifact: Artifact): (r: PostOutcome)
    ensures !r.forceOverride
    // keep_artifact must parse before anything else; Go's ParseBool yields false on error
    ensures Strings.ParseBool(c.keepArtifact).None? ==>
      r == PostOutcome(false, false, Some(InvalidBool(c.keepArtifact)), [], [], None)
    // only Amazon builders' artifacts, checked before any call
    ensures Strings.ParseBool(c.keepArtifact).Some? && artifact.builderId !in AmazonBuilderIds ==>
      r == PostOutcome(Strings.ParseBool(c.keepArtifact).value, false, Some(UnexpectedArtifact(artifact.builderId)), [], [], None)
    // every early failure returns the configured keep flag, the error and no calls
    ensures Strings.ParseBool(c.keepArtifact).Some? && artifact.builderId in AmazonBuilderIds && env.sourceConfig.Nack? ==>
      r == PostOutcome(Strings.ParseBool(c.keepArtifact).value, false, Some(Api(env.sourceConfig.error)), [], [], None)
    ensures Strings.ParseBool(c.keepArtifact).Some? && artifact.builderId in AmazonBuilderIds && env.sourceConfig.Ack? &&
            ParseArtifactId(artifact.id).Failure? ==>
      r == PostOutcome(Strings.ParseBool(c.keepArtifact).value, false, Some(ParseArtifactId(artifact.id).error), [], [], None)
    // once the AMIs are known, PostProcess is the copy of those AMIs
    ensures Strings.ParseBool(c.keepArtifact).Some? && artifact.builderId in AmazonBuilderIds && env.sourceConfig.Ack? &&
            ParseArtifactId(artifact.id).Success? ==>
      r == CopyAmis(c, env, Strings.ParseBool(c.keepArtifact).value, ParseArtifactId(artifact.id).value)
    ensures r.error.None? ==> artifact.builderId in AmazonBuilderIds
    // without a plan nothing runs and an error is reported
    ensures !Planned(c, env, artifact) ==> r.error.Some? && r.copies == [] && r.manifestFile.None?
    // with one, exactly the planned operations run, with the outcome CopiesRan describes
    ensures Planned(c, env, artifact) ==>
      CopiesRan(c, env, Strings.ParseBool(c.keepArtifact).value,
                PlanCopies(c, env, ParseArtifactId(artifact.id).value).result.value, r)
    // success: every operation run succeeded
    ensures r.error.None? ==> forall i :: 0 <= i < |r.copies| ==> CopyEngine.Outcomes(r.copies, env.task)[i].Success?
  {
    match Strings.ParseBool(c.keepArtifact)
    case None => PostOutcome(false, false, Some(InvalidBool(c.keepArtifact)), [], [], None)
    case Some(keep) =>
      if artifact.builderId !in AmazonBuilderIds then
        PostOutcome(keep, false, Some(UnexpectedArtifact(artifact.builderId)), [], [], None)
      else if env.sourceConfig.Nack? then
        PostOutcome(keep, false, Some(Api(env.sourceConfig.error)), [], [], None)
      else match ParseArtifactId(artifact.id)
        case Failure(e) => PostOutcome(keep, false, Some(e), [], [], None)
        case Success(amis) => CopyAmis(c, env, keep, amis)
  }

  /** PostProcess once the artifact id has parsed: build the operations of every AMI and run
      them. */
  function CopyAmis(c: Config, env: CopyEnv, keep: bool, amis: seq<Ami>): (r: PostOutcome)
    ensures !r.forceOverride
    ensures PlanCopies(c, env, amis).result.Failure? ==>
      r == PostOutcome(keep, false, Some(PlanCopies(c, env, amis).result.error), PlanCopies(c, env, amis).trace, [], None)
    ensures PlanCopies(c, env, amis).result.Success? ==> CopiesRan(c, env, keep, PlanCopies(c, env, amis).result.value, r)
    ensures r.error.None? ==> forall i :: 0 <= i < |r.copies| ==> CopyEngine.Outcomes(r.copies, env.task)[i].Success?
  {
    var plan := PlanCopies(c, env, amis);
    match plan.result
    case Failure(e) => PostOutcome(keep, false, Some(e), plan.trace, [], None)
    case Success(copies) => RunCopies(c, env, keep, plan.trace, copies)
  }

  /** The end of PostProcess once the copy operations are built: run them through the pool
      with the corrected cap (see CopyEngine.ExecuteCopiesCorrects for where that differs from
      the source) and summarise the failures as "k/n failed". */
  function RunCopies(c: Config, env: CopyEnv, keep: bool, trace: seq<Call>, copies: seq<CopyOperation>): (r: PostOutcome)
    ensures !r.forceOverride && r.trace == trace
    ensures CopiesRan(c, env, keep, copies, r)
    ensures r.error.None? ==> forall i :: 0 <= i < |copies| ==> CopyEngine.Outcomes(copies, env.task)[i].Success?
  {
    match CopyEngine.ExecuteCopiesCorrected(copies, env.task, c.copyConcurrency, c.manifestOutput)
    case Failure(e) => PostOutcome(keep, false, Some(e), trace, copies, None)
    case Success(outcome) =>
      if |outcome.errors| > 0 then
        PostOutcome(true, false, Some(CopiesFailed(|outcome.errors|, |copies|)), trace, copies, outcome.manifestFile)
      else PostOutcome(keep, false, None, trace, copies, outcome.manifestFile)
  }
}

=== FILE: ami_delete.dfy ===
/** post-processor/ami-delete/post-processor.go: deregister every AMI of an Amazon builder's
    artifact and delete its EBS snapshots, stopping at the first error. */
module AmiDelete {
  import opened Wrappers
  import opened Aws
  import opened Ec2
  import AmiHelpers
  import opened ArtifactId
  import Seqs

  /** The scripted environment: loading the credentials, the DescribeImages answer for each
      AMI, and the answers to deregistering an image and deleting a snapshot, by id. */
  datatype DeleteEnv = DeleteEnv(
    sourceConfig: Ack,
    locate: Ami -> Reply<seq<Image>>,
    deregister: string -> Ack,
    deleteSnapshot: string -> Ack)

  /** An optional error with the calls issued, in order. */
  datatype DeleteRun = DeleteRun(error: Option<Error>, trace: seq<Call>)

  /** The call after position `k` is a snapshot deletion only right after the image
      deregistration or another snapshot deletion. */
  predicate SnapshotFollowsAt(trace: seq<Call>, k: nat)
    requires k + 1 < |trace|
  {
    trace[k + 1].DeleteSnapshot? ==> trace[k].DeleteSnapshot? || trace[k].DeregisterImage?
  }

  /** Every snapshot deletion directly follows the image deregistration or another snapshot
      deletion: snapshots are only deleted after their image is gone. */
  predicate DeregisterFirst(trace: seq<Call>) {
    (|trace| > 0 ==> !trace[0].DeleteSnapshot?) &&
    forall k :: 0 <= k < |trace| - 1 ==> SnapshotFollowsAt(trace, k)
  }

  /** The snapshot deletions, in order, up to and including the first that fails. */
  function DeleteSnapshots(snaps: seq<string>, reply: string -> Ack): (r: DeleteRun)
    ensures |r.trace| <= |snaps|
    ensures forall i :: 0 <= i < |r.trace| ==> r.trace[i] == DeleteSnapshot(snaps[i])
    ensures r.error.None? <==> forall i :: 0 <= i < |snaps| ==> reply(snaps[i]).Ack?
    ensures r.error.None? ==> |r.trace| == |snaps|
    ensures r.error.Some? ==>
      |r.trace| >= 1 && reply(snaps[|r.trace| - 1]).Nack? && r.error.value == Api(reply(snaps[|r.trace| - 1]).error) &&
      forall i :: 0 <= i < |r.trace| - 1 ==> reply(snaps[i]).Ack?
  {
    var k := FirstNack(snaps, reply, 0);
    if k == |snaps| then
      DeleteRun(None, seq(|snaps|, i requires 0 <= i < |snaps| => DeleteSnapshot(snaps[i])))
    else
      DeleteRun(Some(Api(reply(snaps[k]).error)), seq(k + 1, i requires 0 <= i <= k => DeleteSnapshot(snaps[i])))
  }

  /** A located image: deregister it, then delete the snapshot of each EBS mapping in mapping
      order. */
  function DeleteImage(env: DeleteEnv, image: Image): (r: DeleteRun)
    ensures |r.trace| >= 1 && r.trace[0] == DeregisterImage(image.imageId)
    ensures forall k :: 1 <= k < |r.trace| ==> r.trace[k].DeleteSnapshot?
    ensures env.deregister(image.imageId).Nack? ==>
      r == DeleteRun(Some(Api(env.deregister(image.imageId).error)), [DeregisterImage(image.imageId)])
    ensures env.deregister(image.imageId).Ack? ==>
      r.trace[1..] == DeleteSnapshots(SnapshotIds(image.mappings), env.deleteSnapshot).trace &&
      r.error == DeleteSnapshots(SnapshotIds(image.mappings), env.deleteSnapshot).error
  {
    var deregister := [DeregisterImage(image.imageId)];
    match env.deregister(image.imageId)
    case Nack(e) => DeleteRun(Some(Api(e)), deregister)
    case Ack =>
      var snaps := DeleteSnapshots(SnapshotIds(image.mappings), env.deleteSnapshot);
      var trace := deregister + snaps.trace;
      assert trace[1..] == snaps.trace;
      assert forall k :: 1 <= k < |trace| ==> trace[k] == snaps.trace[k - 1];
      DeleteRun(snaps.error, trace)
  }

  /** A describe, then the deregistration, then snapshot deletions only: the describe comes first
      and only once, and every deletion follows the deregistration. */
  lemma DescribeThenImage(id: string, rest: seq<Call>)
    requires |rest| >= 1 && rest[0].DeregisterImage?
    requires forall k :: 1 <= k < |rest| ==> rest[k].DeleteSnapshot?
    ensures var t := [DescribeImages(id)] + rest;
      t[1] == rest[0] && t[2..] == rest[1..] && DeregisterFirst(t) &&
      forall k :: 1 <= k < |t| ==> !t[k].DescribeImages?
  {
    var t := [DescribeImages(id)] + rest;
    assert t[2..] == rest[1..];
    forall k | 0 <= k < |t| - 1
      ensures SnapshotFollowsAt(t, k)
    {
      if k >= 1 {
        assert t[k] == rest[k - 1] && t[k + 1] == rest[k];
      }
    }
    forall k | 1 <= k < |t|
      ensures !t[k].DescribeImages?
    {
      assert t[k] == rest[k - 1];
    }
  }

  /** One AMI: locate it, deregister it, then delete the snapshot of each EBS mapping in
      mapping order. */
  function DeleteAmi(env: DeleteEnv, ami: Ami): (r: DeleteRun)
    ensures |r.trace| >= 1 && r.trace[0] == DescribeImages(ami.id)
    ensures r.trace[0] == DescribeImages(ami.id) && forall k :: 1 <= k < |r.trace| ==> !r.trace[k].DescribeImages?
    ensures DeregisterFirst(r.trace)
    ensures AmiHelpers.LocateSingleAmi(env.locate(ami)).Failure? ==>
      r == DeleteRun(Some(AmiHelpers.LocateSingleAmi(env.locate(ami)).error), [DescribeImages(ami.id)])
    ensures AmiHelpers.LocateSingleAmi(env.locate(ami)).Success? ==>
      var image := AmiHelpers.LocateSingleAmi(env.locate(ami)).value;
      |r.trace| >= 2 && r.trace[1] == DeregisterImage(image.imageId) &&
      (env.deregister(image.imageId).Nack? ==>
         r == DeleteRun(Some(Api(env.deregister(image.imageId).error)), r.trace[..2])) &&
      (env.deregister(image.imageId).Ack? ==>
         r.trace[2..] == DeleteSnapshots(SnapshotIds(image.mappings), env.deleteSnapshot).trace &&
         r.error == DeleteSnapshots(SnapshotIds(image.mappings), env.deleteSnapshot).error)
  {
    var describe := [DescribeImages(ami.id)];
    match AmiHelpers.LocateSingleAmi(env.locate(ami))
    case Failure(e) => DeleteRun(Some(e), describe)
    case Success(image) =>
      var deleted := DeleteImage(env, image);
      DescribeThenImage(ami.id, deleted.trace);
      DeleteRun(deleted.error, describe + deleted.trace)
  }

  /** Deregistration-first traces stay so when one follows another. */
  lemma DeregisterFirstAppend(a: seq<Call>, b: seq<Call>)
    requires DeregisterFirst(a) && DeregisterFirst(b)
    ensures DeregisterFirst(a + b)
  {
    var t := a + b;
    forall k | 0 <= k < |t| - 1
      ensures SnapshotFollowsAt(t, k)
    {
      if k + 1 < |a| {
        assert SnapshotFollowsAt(a, k);
        assert t[k] == a[k] && t[k + 1] == a[k + 1];
      } else if k >= |a| {
        assert SnapshotFollowsAt(b, k - |a|);
        assert t[k] == b[k - |a|] && t[k + 1] == b[k + 1 - |a|];
      } else {
        assert t[k + 1] == b[0];
      }
    }
  }

  /** Every describe call in `trace` is for one of the AMIs at positions `i` to `j`. */
  predicate DescribesAmong(trace: seq<Call>, amis: seq<Ami>, i: nat, j: nat) {
    forall k :: 0 <= k < |trace| ==> DescribedAmong(trace, amis, i, j, k)
  }

  /** The call at position `k` of `trace`, when a describe, is for an AMI at positions `i` to `j`. */
  predicate DescribedAmong(trace: seq<Call>, amis: seq<Ami>, i: nat, j: nat, k: nat)
    requires k < |trace|
  {
    trace[k].DescribeImages? ==>
      exists l :: i <= l <= j && l < |amis| && trace[k] == DescribeImages(amis[l].id)
  }

  /** Deleting one AMI describes only that AMI. */
  lemma DescribesOwn(env: DeleteEnv, amis: seq<Ami>, i: nat)
    requires i < |amis|
    ensures DescribesAmong(DeleteAmi(env, amis[i]).trace, amis, i, i)
  {
    var t := DeleteAmi(env, amis[i]).trace;
    forall k | 0 <= k < |t| ensures DescribedAmong(t, amis, i, i, k)
    {
      if t[k].DescribeImages? {
        assert k == 0;
        assert t[k] == DescribeImages(amis[i].id);
      }
    }
  }

  /** The describes of one AMI followed by those of later AMIs are among the AMIs so far. */
  lemma DescribesAmongAppend(env: DeleteEnv, amis: seq<Ami>, i: nat, j: nat, rest: seq<Call>)
    requires i < j < |amis|
    requires DescribesAmong(rest, amis, i + 1, j)
    ensures DescribesAmong(DeleteAmi(env, amis[i]).trace + rest, amis, i, j)
  {
    var here := DeleteAmi(env, amis[i]).trace;
    var t := here + rest;
    forall k | 0 <= k < |t| ensures DescribedAmong(t, amis, i, j, k)
    {
      if k < |here| {
        assert t[k] == here[k];
        if t[k].DescribeImages? {
          assert k == 0;
          assert t[k] == DescribeImages(amis[i].id);
        }
      } else {
        assert t[k] == rest[k - |here|];
        assert DescribedAmong(rest, amis, i + 1, j, k - |here|);
        if t[k].DescribeImages? {
          var l :| i + 1 <= l <= j && l < |amis| && rest[k - |here|] == DescribeImages(amis[l].id);
          assert i <= l <= j && l < |amis| && t[k] == DescribeImages(amis[l].id);
        }
      }
    }
  }

  /** The first AMI from position `i` on whose deletion fails, or `|amis|` when none does. */
  function FirstFailedAmi(env: DeleteEnv, amis: seq<Ami>, i: nat): (j: nat)
    requires i <= |amis|
    ensures i <= j <= |amis|
    ensures forall l :: i <= l < j ==> DeleteAmi(env, amis[l]).error.None?
    ensures j < |amis| ==> DeleteAmi(env, amis[j]).error.Some?
    decreases |amis| - i
  {
    if i == |amis| || DeleteAmi(env, amis[i]).error.Some? then i else FirstFailedAmi(env, amis, i + 1)
  }

  /** The calls of deleting the AMIs at positions `i` to `e - 1`, each in full, one after the
      other. */
  function AmiCalls(env: DeleteEnv, amis: seq<Ami>, i: nat, e: nat): (calls: seq<Call>)
    requires i <= e <= |amis|
    ensures i < e ==> |calls| >= |DeleteAmi(env, amis[i]).trace| && calls[0] == DescribeImages(amis[i].id)
    decreases e - i
  {
    if i == e then [] else DeleteAmi(env, amis[i]).trace + AmiCalls(env, amis, i + 1, e)
  }

  /** The AMIs from position `i` on, in order, stopping at the first that fails. */
  function DeleteAll(env: DeleteEnv, amis: seq<Ami>, i: nat): (r: DeleteRun)
    requires i <= |amis|
    ensures DeregisterFirst(r.trace)
    ensures r.error.None? <==> forall j :: i <= j < |amis| ==> DeleteAmi(env, amis[j]).error.None?
    ensures r.error.Some? ==>
      exists j :: i <= j < |amis| && r.error == DeleteAmi(env, amis[j]).error &&
        (forall l :: i <= l < j ==> DeleteAmi(env, amis[l]).error.None?) &&
        DescribesAmong(r.trace, amis, i, j)
    decreases |amis| - i
  {
    if i == |amis| then DeleteRun(None, [])
    else
      var here := DeleteAmi(env, amis[i]);
      if here.error.Some? then
        DescribesOwn(env, amis, i);
        here
      else
        var rest := DeleteAll(env, amis, i + 1);
        var trace := here.trace + rest.trace;
        DeregisterFirstAppend(here.trace, rest.trace);
        FailedAmongStep(env, amis, i, rest.error, rest.trace);
        DeleteRun(rest.error, trace)
  }

  /** When the AMIs after a successfully deleted one stop at a failing AMI, so do the AMIs from it. */
  lemma FailedAmongStep(env: DeleteEnv, amis: seq<Ami>, i: nat, error: Option<Error>, rest: seq<Call>)
    requires i < |amis| && DeleteAmi(env, amis[i]).error.None?
    requires error.Some? ==>
      exists j :: i + 1 <= j < |amis| && error == DeleteAmi(env, amis[j]).error &&
        (forall l :: i + 1 <= l < j ==> DeleteAmi(env, amis[l]).error.None?) &&
        DescribesAmong(rest, amis, i + 1, j)
    ensures error.Some? ==>
      exists j :: i <= j < |amis| && error == DeleteAmi(env, amis[j]).error &&
        (forall l :: i <= l < j ==> DeleteAmi(env, amis[l]).error.None?) &&
        DescribesAmong(DeleteAmi(env, amis[i]).trace + rest, amis, i, j)
  {
    if error.Some? {
      var j :| i + 1 <= j < |amis| && error == DeleteAmi(env, amis[j]).error &&
        (forall l :: i + 1 <= l < j ==> DeleteAmi(env, amis[l]).error.None?) &&
        DescribesAmong(rest, amis, i + 1, j);
      DescribesAmongAppend(env, amis, i, j, rest);
    }
  }

  /** How far deleting the AMIs from position `i` on gets: past the first failing AMI, or to the
      end when none fails. */
  function Processed(env: DeleteEnv, amis: seq<Ami>, i: nat): (e: nat)
    requires i <= |amis|
    ensures i <= e <= |amis|
  {
    var j := FirstFailedAmi(env, amis, i);
    if j < |amis| then j + 1 else j
  }

  /** The error of the first AMI from position `i` on whose deletion fails, if any. */
  function FirstError(env: DeleteEnv, amis: seq<Ami>, i: nat): (e: Option<Error>)
    requires i <= |amis|
    ensures e.Some? <==> exists j :: i <= j < |amis| && DeleteAmi(env, amis[j]).error.Some?
  {
    var j := FirstFailedAmi(env, amis, i);
    if j < |amis| then DeleteAmi(env, amis[j]).error else None
  }

  /** Past a successful AMI, the run continues with the next one and gets as far. */
  lemma DeleteAllStep(env: DeleteEnv, amis: seq<Ami>, i: nat)
    requires i < |amis| && DeleteAmi(env, amis[i]).error.None?
    ensures DeleteAll(env, amis, i).trace == DeleteAmi(env, amis[i]).trace + DeleteAll(env, amis, i + 1).trace
    ensures DeleteAll(env, amis, i).error == DeleteAll(env, amis, i + 1).error
    ensures Processed(env, amis, i) == Processed(env, amis, i + 1)
    ensures FirstError(env, amis, i) == FirstError(env, amis, i + 1)
  {
  }

  /** Deleting the AMIs from position `i` on processes every AMI up to and including the first
      failing one, in turn, and nothing after it. */
  lemma {:induction false} DeleteAllTrace(env: DeleteEnv, amis: seq<Ami>, i: nat)
    requires i <= |amis|
    ensures DeleteAll(env, amis, i).trace == AmiCalls(env, amis, i, Processed(env, amis, i))
    decreases |amis| - i
  {
    if i == |amis| {
    } else if DeleteAmi(env, amis[i]).error.Some? {
      assert AmiCalls(env, amis, i + 1, i + 1) == [];
    } else {
      DeleteAllTrace(env, amis, i + 1);
      DeleteAllStep(env, amis, i);
    }
  }

  /** The error of deleting the AMIs from position `i` on is that of the first failing AMI, and
      there is none when no AMI fails. */
  lemma DeleteAllError(env: DeleteEnv, amis: seq<Ami>, i: nat)
    requires i <= |amis|
    ensures DeleteAll(env, amis, i).error == FirstError(env, amis, i)
  {
    var r := DeleteAll(env, amis, i);
    var k := FirstFailedAmi(env, amis, i);
    if r.error.Some? {
      var j :| i <= j < |amis| && r.error == DeleteAmi(env, amis[j]).error &&
        (forall l :: i <= l < j ==> DeleteAmi(env, amis[l]).error.None?) &&
        DescribesAmong(r.trace, amis, i, j);
      assert k == j;
    }
  }

  /** What PostProcess returns (the artifact itself is passed through) and the calls made. */
  datatype PostOutcome = PostOutcome(keep: bool, forceOverride: bool, error: Option<Error>, trace: seq<Call>)

  /** PostProcess. The builder-id message is the lower-case spelling of the copy
      post-processor's. */
  function PostProcess(env: DeleteEnv, artifact: Artifact): (r: PostOutcome)
    ensures artifact.builderId !in AmazonBuilderIds ==>
      r == PostOutcome(false, false, Some(UnexpectedArtifact(artifact.builderId)), [])
    ensures artifact.builderId in AmazonBuilderIds && env.sourceConfig.Nack? ==>
      r == PostOutcome(false, false, Some(Api(env.sourceConfig.error)), [])
    ensures artifact.builderId in AmazonBuilderIds && env.sourceConfig.Ack? && ParseArtifactId(artifact.id).Failure? ==>
      r == PostOutcome(false, false, Some(ParseArtifactId(artifact.id).error), [])
    // once the AMIs are known, the result and the calls are those of deleting them in turn
    ensures artifact.builderId in AmazonBuilderIds && env.sourceConfig.Ack? && ParseArtifactId(artifact.id).Success? ==>
      r.error == DeleteAll(env, ParseArtifactId(artifact.id).value, 0).error &&
      r.trace == DeleteAll(env, ParseArtifactId(artifact.id).value, 0).trace
    ensures r.error.None? <==> r.keep
    ensures r.error.None? <==> r.forceOverride
    // full success, with keep and force set, exactly when every AMI is deleted
    ensures r.error.None? <==>
      artifact.builderId in AmazonBuilderIds && env.sourceConfig.Ack? && ParseArtifactId(artifact.id).Success? &&
      forall j :: 0 <= j < |ParseArtifactId(artifact.id).value| ==>
        DeleteAmi(env, ParseArtifactId(artifact.id).value[j]).error.None?
    ensures DeregisterFirst(r.trace)
  {
    if artifact.builderId !in AmazonBuilderIds then
      PostOutcome(false, false, Some(UnexpectedArtifact(artifact.builderId)), [])
    else if env.sourceConfig.Nack? then
      PostOutcome(false, false, Some(Api(env.sourceConfig.error)), [])
    else
      match ParseArtifactId(artifact.id)
      case Failure(e) => PostOutcome(false, false, Some(e), [])
      case Success(amis) =>
        var run := DeleteAll(env, amis, 0);
        if run.error.None? then PostOutcome(true, true, None, run.trace)
        else PostOutcome(false, false, run.error, run.trace)
  }
}

=== FILE: ami_helpers.dfy ===
/** helpers/ami.go: locating one AMI, checking whether it is shared with an account, and
    sharing it (launch permission first, then create-volume permission on each snapshot). */
module AmiHelpers {
  import opened Wrappers
  import opened Aws
  import opened Ec2

  /** LocateSingleAMI, given the provider's answer to DescribeImages filtered by the image id:
      an image exactly when the call succeeds with exactly one result. */
  function LocateSingleAmi(reply: Reply<seq<Image>>): (r: Result<Image, Error>)
    ensures r.Success? <==> reply.Answer? && |reply.value| == 1
    ensures r.Success? ==> r.value == reply.value[0]
    ensures reply.Refused? ==> r == Failure(Api(reply.error))
    ensures reply.Answer? && |reply.value| != 1 ==> r == Failure(SingleImageNotLocated(|reply.value|))
  {
    match reply
    case Refused(e) => Failure(Api(e))
    case Answer(images) =>
      if |images| != 1 then Failure(SingleImageNotLocated(|images|)) else Success(images[0])
  }

  /** A launch permission that lets `account` launch the image: its own user id, or the public
      group "all". */
  predicate Grants(p: LaunchPermission, account: string) {
    (p.userId.Some? && p.userId.value == account) || (p.group != "" && p.group == "all")
  }

  /** The scan over the launch permissions, stopping at the first that grants access. */
  function AnyGrants(perms: seq<LaunchPermission>, account: string): (b: bool)
    ensures b <==> exists i :: 0 <= i < |perms| && Grants(perms[i], account)
  {
    if |perms| == 0 then false
    else if Grants(perms[0], account) then true
    else
      assert forall i :: 1 <= i < |perms| ==> perms[i] == perms[1..][i - 1];
      AnyGrants(perms[1..], account)
  }

  /** IsImageSharedWith, given the answer to DescribeImageAttribute(launchPermission). */
  function IsImageSharedWith(account: string, reply: Reply<seq<LaunchPermission>>): (r: Result<bool, Error>)
    ensures reply.Refused? ==> r == Failure(Api(reply.error))
    ensures reply.Answer? ==>
      r.Success? && (r.value <==> exists i :: 0 <= i < |reply.value| && Grants(reply.value[i], account))
  {
    match reply
    case Refused(e) => Failure(Api(e))
    case Answer(perms) => Success(AnyGrants(perms, account))
  }

  /** The scripted provider answers EnsureImageSharedWith sees: the launch-permission attribute,
      the launch-permission modification, and the create-volume-permission modification of each
      snapshot (keyed by snapshot id). */
  datatype ShareReplies = ShareReplies(
    permissions: Reply<seq<LaunchPermission>>,
    addLaunch: Ack,
    addVolume: string -> Ack)

  /** An outcome together with the calls issued, in order. */
  datatype ShareRun = ShareRun(result: Result<(), Error>, trace: seq<Call>)

  /** The create-volume-permission call for each snapshot, in order. */
  function VolumePermissionCalls(snapshots: seq<string>, account: string): (calls: seq<Call>)
    ensures |calls| == |snapshots|
    ensures forall i :: 0 <= i < |snapshots| ==> calls[i] == AddCreateVolumePermission(snapshots[i], account)
  {
    if |snapshots| == 0 then []
    else [AddCreateVolumePermission(snapshots[0], account)] + VolumePermissionCalls(snapshots[1..], account)
  }

  /** The errors of the snapshot calls that failed, in order; every call is attempted. */
  function VolumePermissionErrors(snapshots: seq<string>, reply: string -> Ack): (errs: seq<ApiError>)
    ensures |errs| <= |snapshots|
    ensures |errs| == 0 <==> forall i :: 0 <= i < |snapshots| ==> reply(snapshots[i]).Ack?
  {
    if |snapshots| == 0 then []
    else
      var rest := VolumePermissionErrors(snapshots[1..], reply);
      assert forall i :: 1 <= i < |snapshots| ==> snapshots[i] == snapshots[1..][i - 1];
      match reply(snapshots[0])
      case Ack => rest
      case Nack(e) => [e] + rest
  }

  /** Whether the launch-permission answer already shows the image shared with `account`. */
  predicate AlreadyShared(account: string, env: ShareReplies) {
    env.permissions.Answer? && exists i :: 0 <= i < |env.permissions.value| && Grants(env.permissions.value[i], account)
  }

  /** EnsureImageSharedWith: no modification when the image is already shared or public;
      otherwise one launch permission for the account and then, only if that succeeded, one
      create-volume permission per EBS snapshot, all attempted, failing iff any failed. */
  function EnsureImageSharedWith(image: Image, account: string, env: ShareReplies): (r: ShareRun)
    ensures |r.trace| >= 1 && r.trace[0] == DescribeLaunchPermissions(image.imageId)
    ensures env.permissions.Refused? ==>
      r.trace == [DescribeLaunchPermissions(image.imageId)] && r.result == Failure(Api(env.permissions.error))
    ensures AlreadyShared(account, env) ==>
      r.trace == [DescribeLaunchPermissions(image.imageId)] && r.result.Success?
    ensures env.permissions.Answer? && !AlreadyShared(account, env) ==>
      |r.trace| >= 2 && r.trace[1] == AddLaunchPermission(image.imageId, account) &&
      (forall i :: 2 <= i < |r.trace| ==> r.trace[i].AddCreateVolumePermission?)
    ensures env.permissions.Answer? && !AlreadyShared(account, env) && env.addLaunch.Nack? ==>
      |r.trace| == 2 && r.result == Failure(Api(env.addLaunch.error))
    ensures env.permissions.Answer? && !AlreadyShared(account, env) && env.addLaunch.Ack? ==>
      var snaps := SnapshotIds(image.mappings);
      |r.trace| == 2 + |snaps| &&
      (forall i :: 0 <= i < |snaps| ==> r.trace[2 + i] == AddCreateVolumePermission(snaps[i], account)) &&
      (r.result.Failure? <==> exists i :: 0 <= i < |snaps| && env.addVolume(snaps[i]).Nack?)
  {
    var describe := [DescribeLaunchPermissions(image.imageId)];
    match IsImageSharedWith(account, env.permissions)
    case Failure(e) => ShareRun(Failure(e), describe)
    case Success(shared) =>
      if shared then ShareRun(Success(()), describe)
      else
        var add := describe + [AddLaunchPermission(image.imageId, account)];
        match env.addLaunch
        case Nack(e) => ShareRun(Failure(Api(e)), add)
        case Ack =>
          var snaps := SnapshotIds(image.mappings);
          var errs := VolumePermissionErrors(snaps, env.addVolume);
          ShareRun(if |errs| == 0 then Success(()) else Failure(Multi(errs)),
                   add + VolumePermissionCalls(snaps, account))
  }
}

=== FILE: appstream.dfy ===
/** The AppStream 2.0 vocabulary the builder, the share post-processor and the image data source
    use: image builders and images with their states, and the calls the plugin issues. */
module AppStream {
  import opened Wrappers
  import opened Aws

  /** The image-builder states of the AppStream API. */
  datatype BuilderState =
    | Pending | UpdatingAgent | Running | Stopping | Stopped | Rebooting | Snapshotting
    | Deleting | Failed | Updating | PendingQualification | PendingSyncingApps | SyncingApps

  /** The wire spelling of a builder state, as error messages print it. */
  function BuilderStateName(s: BuilderState): (name: string)
    ensures |name| > 0
  {
    match s
    case Pending => "PENDING"
    case UpdatingAgent => "UPDATING_AGENT"
    case Running => "RUNNING"
    case Stopping => "STOPPING"
    case Stopped => "STOPPED"
    case Rebooting => "REBOOTING"
    case Snapshotting => "SNAPSHOTTING"
    case Deleting => "DELETING"
    case Failed => "FAILED"
    case Updating => "UPDATING"
    case PendingQualification => "PENDING_QUALIFICATION"
    case PendingSyncingApps => "PENDING_SYNCING_APPS"
    case SyncingApps => "SYNCING_APPS"
  }

  /** A builder's network access configuration; the ENI address is nullable. */
  datatype NetworkAccess = NetworkAccess(eniPrivateIp: Option<string>)

  /** The fields of an image-builder description the plugin reads. */
  datatype ImageBuilder = ImageBuilder(name: string, state: BuilderState, network: Option<NetworkAccess>)

  /** The builder's reachable address: present only when both the network configuration and
      its ENI address are. */
  function Address(b: ImageBuilder): (a: Option<string>)
    ensures a.Some? <==> b.network.Some? && b.network.value.eniPrivateIp.Some?
    ensures a.Some? ==> a.value == b.network.value.eniPrivateIp.value
  {
    match b.network
    case None => None
    case Some(n) => n.eniPrivateIp
  }

  /** The image states of the AppStream API. */
  datatype ImageState = ImagePending | Available | ImageFailed | Copying | ImageDeleting | Creating | Importing

  /** The fields of an AppStream image the plugin reads; `created` is the creation time in
      seconds and `reason` the state-change reason's message. */
  datatype Image = Image(name: string, arn: string, state: ImageState, created: int, reason: Option<string>)

  /** A call issued to AppStream, as recorded in a trace; image calls carry the region of the
      client they go through. */
  datatype Call =
    | CreateImageBuilder(name: string)
    | DescribeImageBuilders(name: string)
    | StopImageBuilder(name: string)
    | DeleteImageBuilder(name: string)
    | DescribeImages(region: string, imageName: string)
    | UpdateImagePermissions(region: string, imageName: string, account: string, allowFleet: bool, allowImageBuilder: bool)
    | CopyImage(region: string, sourceName: string, destinationName: string, destinationRegion: string)

  /** One answer to DescribeImageBuilders. */
  type BuilderReply = Reply<seq<ImageBuilder>>

  /** A describe answer whose first builder is pending. */
  predicate IsPending(o: BuilderReply) {
    o.Answer? && |o.value| > 0 && o.value[0].state == Pending
  }

  /** How the wait for a running builder ended: with the running builder, with an error, or not
      yet (the scripted observations ran out while the builder was still pending). */
  datatype Await = Ready(builder: ImageBuilder) | Halted(error: Error) | Polling

  /** The error a non-pending, non-running observation halts with. */
  function HaltReason(o: BuilderReply): Error {
    match o
    case Refused(e) => Api(e)
    case Answer(builders) =>
      if |builders| == 0 then BuilderNotFound else BadBuilderState(BuilderStateName(builders[0].state))
  }

  /** The strict wait for a running builder over the observations from position `i` on: pending
      means poll again, running means done, anything else (an error, no builder, any other
      state) halts. Also returns how many observations were consumed in total. */
  function AwaitRunning(obs: seq<BuilderReply>, i: nat): (r: (Await, nat))
    requires i <= |obs|
    ensures i <= r.1 <= |obs|
    ensures forall k :: i <= k < r.1 - 1 ==> IsPending(obs[k])
    ensures r.0.Polling? <==> forall k :: i <= k < |obs| ==> IsPending(obs[k])
    ensures r.0.Polling? ==> r.1 == |obs|
    ensures !r.0.Polling? ==> i < r.1 && !IsPending(obs[r.1 - 1])
    ensures r.0.Ready? ==>
      obs[r.1 - 1].Answer? && |obs[r.1 - 1].value| > 0 && obs[r.1 - 1].value[0].state == Running &&
      r.0.builder == obs[r.1 - 1].value[0]
    ensures r.0.Halted? ==>
      r.0.error == HaltReason(obs[r.1 - 1]) &&
      !(obs[r.1 - 1].Answer? && |obs[r.1 - 1].value| > 0 && obs[r.1 - 1].value[0].state == Running)
    decreases |obs| - i
  {
    if i == |obs| then (Polling, i)
    else
      var o := obs[i];
      if IsPending(o) then AwaitRunning(obs, i + 1)
      else if o.Answer? && |o.value| > 0 && o.value[0].state == Running then (Ready(o.value[0]), i + 1)
      else (Halted(HaltReason(o)), i + 1)
  }

  /** The pending observations an await consumed: all of them while still polling, all but the
      deciding one otherwise. */
  function PendingPolls(r: (Await, nat)): nat {
    if r.0.Polling? || r.1 == 0 then r.1 else r.1 - 1
  }

  /** How a step run ends: continue with the next step, halt, or still polling when the
      observations ran out. */
  datatype StepAction = Continue | Halt | StillPolling
}

=== FILE: appstream_builder.dfy ===
/** builder/appstream/builder.go: the builder's Run (create the image builder, wait strictly until
    it runs, require its address) and its artifact's String and State. */
module AppStreamBuilder {
  import opened Wrappers
  import opened Aws
  import opened AppStream
  import Seqs
  import Strings

  /** The builder's id, carried by its artifacts. */
  const BuilderId: string := "bdwyertech.amazonappstream"

  /** The artifact: a map of regions to image ids and the state data shared with
      post-processors. */
  datatype Artifact<V> = Artifact(images: map<string, string>, builderId: string, stateData: map<string, V>)

  /** Artifact.State: the stored value for a present key, nothing otherwise. */
  function State<V>(a: Artifact<V>, name: string): (r: Option<V>)
    ensures r.Some? <==> name in a.stateData
    ensures r.Some? ==> r.value == a.stateData[name]
  {
    if name in a.stateData then Some(a.stateData[name]) else None
  }

  /** The line of one entry. */
  function Line(e: (string, string)): string {
    e.0 + ": " + e.1
  }

  /** The artifact's lines, one per region, in ascending order. */
  function ImageLines(images: map<string, string>, entries: seq<(string, string)>): (lines: seq<string>)
    requires Seqs.EnumeratesMap(images, entries)
    ensures Strings.Sorted(lines)
    ensures forall region :: region in images ==> region + ": " + images[region] in lines
    ensures forall l :: l in lines ==> exists region :: region in images && l == region + ": " + images[region]
  {
    var unsorted := Seqs.Map(Line, entries);
    var lines := Strings.SortStrings(unsorted);
    assert forall l :: l in lines <==> l in unsorted by {
      forall l ensures l in lines <==> l in unsorted {
        assert l in lines <==> l in multiset(lines);
        assert l in unsorted <==> l in multiset(unsorted);
      }
    }
    assert forall region :: region in images ==> Line((region, images[region])) in unsorted by {
      forall region | region in images ensures Line((region, images[region])) in unsorted {
        var k :| 0 <= k < |entries| && entries[k] == (region, images[region]);
        assert unsorted[k] == Line(entries[k]);
      }
    }
    assert forall l :: l in unsorted ==> exists region :: region in images && l == region + ": " + images[region] by {
      forall l | l in unsorted ensures exists region :: region in images && l == region + ": " + images[region] {
        var k :| 0 <= k < |unsorted| && unsorted[k] == l;
        assert entries[k] in entries;
        assert l == Line(entries[k]);
      }
    }
    lines
  }

  /** The lines of the artifact do not depend on the order the map is iterated in. */
  lemma ImageLinesOrderIndependent(images: map<string, string>, e1: seq<(string, string)>, e2: seq<(string, string)>)
    requires Seqs.EnumeratesMap(images, e1) && Seqs.EnumeratesMap(images, e2)
    ensures ImageLines(images, e1) == ImageLines(images, e2)
  {
    Seqs.EnumerationsPermute(images, e1, e2);
    Seqs.MapPermutation(Line, e1, e2);
    Strings.SortStringsOrderIndependent(Seqs.Map(Line, e1), Seqs.Map(Line, e2));
  }

  /** `strings.Join(lines, "\n")`, including the empty list. */
  function JoinLines(lines: seq<string>): (s: string)
    ensures |lines| == 0 ==> s == ""
    ensures |lines| >= 1 ==> s == Strings.Join(lines, '\n')
  {
    if |lines| == 0 then "" else Strings.Join(lines, '\n')
  }

  const Header: string := "Images were created:\n"

  /** Artifact.String: a header, the sorted lines, and a final newline. */
  function ArtifactString<V>(a: Artifact<V>, entries: seq<(string, string)>): (s: string)
    requires Seqs.EnumeratesMap(a.images, entries)
    ensures |s| >= |Header| + 1 && s[..|Header|] == Header && s[|s| - 1] == '\n'
    ensures s[|Header|..|s| - 1] == JoinLines(ImageLines(a.images, entries))
  {
    var body := JoinLines(ImageLines(a.images, entries));
    var s := Header + body + "\n";
    assert s[..|Header|] == Header;
    assert s[|Header|..|s| - 1] == body;
    s
  }

  /** Printing the artifact is deterministic: any iteration order gives the same text. */
  lemma ArtifactStringOrderIndependent<V>(a: Artifact<V>, e1: seq<(string, string)>, e2: seq<(string, string)>)
    requires Seqs.EnumeratesMap(a.images, e1) && Seqs.EnumeratesMap(a.images, e2)
    ensures ArtifactString(a, e1) == ArtifactString(a, e2)
  {
    ImageLinesOrderIndependent(a.images, e1, e2);
  }

  /** The scripted environment of Run: loading the SDK configuration, the error the
      provisioning steps leave in the state bag (if any), the generated data they leave,
      the create answer, and the describe answers in order. */
  datatype BuildEnv = BuildEnv(
    sdkConfig: Ack,
    stepsError: Option<Error>,
    generated: map<string, string>,
    create: Ack,
    describes: seq<BuilderReply>)

  /** How Run ends: an artifact with the generated ENI address, an error, or still waiting for
      the builder when the observations ran out. */
  datatype BuildOutcome = Built(artifact: Artifact<map<string, string>>, address: string) | BuildFailed(error: Error) | StillWaiting

  datatype BuildRun = BuildRun(outcome: BuildOutcome, trace: seq<Call>)

  /** The generated-data key under which Run publishes the builder's private address. */
  const GeneratedAddressKey: string := "eni_private_ip_address"

  /** Builder.Run for the configured builder `name`. */
  function Run(name: string, env: BuildEnv): (r: BuildRun)
    ensures env.sdkConfig.Nack? ==> r == BuildRun(BuildFailed(SdkConfig(env.sdkConfig.error)), [])
    // an error left by the earlier steps comes out before any builder is created
    ensures env.sdkConfig.Ack? && env.stepsError.Some? ==> r == BuildRun(BuildFailed(env.stepsError.value), [])
    ensures env.sdkConfig.Ack? && env.stepsError.None? ==>
      |r.trace| >= 1 && r.trace[0] == CreateImageBuilder(name) &&
      forall k :: 1 <= k < |r.trace| ==> r.trace[k] == DescribeImageBuilders(name)
    ensures env.sdkConfig.Ack? && env.stepsError.None? && env.create.Nack? ==>
      r == BuildRun(BuildFailed(Api(env.create.error)), [CreateImageBuilder(name)])
    // one describe per observation the wait consumed
    ensures env.sdkConfig.Ack? && env.stepsError.None? && env.create.Ack? ==>
      |r.trace| == 1 + AwaitRunning(env.describes, 0).1
    // a builder still pending when the observations run out leaves Run waiting
    ensures env.sdkConfig.Ack? && env.stepsError.None? && env.create.Ack? && AwaitRunning(env.describes, 0).0.Polling? ==>
      r.outcome == StillWaiting
    // the strict wait: built exactly when the builder ran and exposed an address
    ensures r.outcome.Built? <==>
      env.sdkConfig.Ack? && env.stepsError.None? && env.create.Ack? &&
      AwaitRunning(env.describes, 0).0.Ready? && Address(AwaitRunning(env.describes, 0).0.builder).Some?
    ensures r.outcome.Built? ==>
      r.outcome.address == Address(AwaitRunning(env.describes, 0).0.builder).value &&
      r.outcome.artifact.builderId == BuilderId && r.outcome.artifact.images == map[]
    // the address is published in the generated data the artifact carries
    ensures r.outcome.Built? ==>
      State(r.outcome.artifact, "generated_data") == Some(env.generated[GeneratedAddressKey := r.outcome.address])
    ensures env.sdkConfig.Ack? && env.stepsError.None? && env.create.Ack? && AwaitRunning(env.describes, 0).0.Halted? ==>
      r.outcome == BuildFailed(AwaitRunning(env.describes, 0).0.error)
    ensures (env.sdkConfig.Ack? && env.stepsError.None? && env.create.Ack? && AwaitRunning(env.describes, 0).0.Ready? &&
             Address(AwaitRunning(env.describes, 0).0.builder).None?) ==>
      r.outcome == BuildFailed(NoBuilderAddress)
  {
    if env.sdkConfig.Nack? then BuildRun(BuildFailed(SdkConfig(env.sdkConfig.error)), [])
    else if env.stepsError.Some? then BuildRun(BuildFailed(env.stepsError.value), [])
    else if env.create.Nack? then BuildRun(BuildFailed(Api(env.create.error)), [CreateImageBuilder(name)])
    else
      var waited := AwaitRunning(env.describes, 0);
      var trace := [CreateImageBuilder(name)] + seq(waited.1, _ => DescribeImageBuilders(name));
      match waited.0
      case Polling => BuildRun(StillWaiting, trace)
      case Halted(e) => BuildRun(BuildFailed(e), trace)
      case Ready(builder) =>
        match Address(builder)
        case None => BuildRun(BuildFailed(NoBuilderAddress), trace)
        case Some(ip) =>
          var artifact := Artifact(map[], BuilderId, map["generated_data" := env.generated[GeneratedAddressKey := ip]]);
          BuildRun(Built(artifact, ip), trace)
  }

  /** A builder that is pending for a while and then runs with an address yields the artifact,
      after one describe per observation. */
  lemma {:induction false} PendingThenRunning(name: string, env: BuildEnv, pending: nat, b: ImageBuilder)
    requires env.sdkConfig.Ack? && env.stepsError.None? && env.create.Ack?
    requires |env.describes| == pending + 1
    requires forall k :: 0 <= k < pending ==> IsPending(env.describes[k])
    requires env.describes[pending] == Answer([b]) && b.state == Running && Address(b).Some?
    ensures Run(name, env).outcome.Built? && Run(name, env).outcome.address == Address(b).value
    ensures |Run(name, env).trace| == pending + 2
  {
    var w := AwaitRunning(env.describes, 0);
    assert !IsPending(env.describes[pending]);
    assert w.1 == pending + 1;
  }
}

=== FILE: appstream_image.dfy ===
/** datasource/appstream-image/datasource.go: look an AppStream image up either by a name
    pattern (available images only, optionally the most recently created) or by exact name. */
module AppStreamImageSource {
  import opened Wrappers
  import opened Aws
  import opened AppStream
  import opened DataSources
  import Seqs

  /** The data source's settings; `imageType` is the visibility listed on the pattern path. */
  datatype ImageConfig = ImageConfig(name: string, nameRegex: string, imageType: string, latest: bool)

  /** Configure, given the credential configuration's own validation errors: a name or a name
      pattern is required. */
  function Configure(c: ImageConfig, prepare: seq<Error>): (r: Option<Error>)
    ensures r.None? <==> |prepare| == 0 && (c.name != "" || c.nameRegex != "")
    ensures r.Some? ==>
      r.value.Errors? && r.value.all == prepare + (if c.name == "" && c.nameRegex == "" then [NameOrRegexRequired] else [])
  {
    CheckCriteria(prepare, c.name != "" || c.nameRegex != "", NameOrRegexRequired)
  }

  /** The images of a page, none when it failed. */
  function PageImages(page: Reply<seq<Image>>): seq<Image> {
    if page.Answer? then page.value else []
  }

  /** All listed images, page after page; the first page that fails ends the listing. */
  function AllPages(pages: seq<Reply<seq<Image>>>): (r: Result<seq<Image>, Error>)
    ensures r.Success? <==> forall p :: 0 <= p < |pages| ==> pages[p].Answer?
    // in listing order: the pages' images one page after the other
    ensures r.Success? ==> r.value == Seqs.Flatten(Seqs.Map(PageImages, pages))
    ensures r.Failure? ==>
      exists p :: 0 <= p < |pages| && pages[p].Refused? && r.error == DescribeFailed(pages[p].error) &&
        forall q :: 0 <= q < p ==> pages[q].Answer?
    ensures r.Success? ==> forall x :: x in r.value <==> exists p :: 0 <= p < |pages| && x in pages[p].value
    decreases |pages|
  {
    if |pages| == 0 then Success([])
    else
      match pages[0]
      case Refused(e) => Failure(DescribeFailed(e))
      case Answer(images) =>
        var rest := AllPages(pages[1..]);
        assert forall p :: 1 <= p < |pages| ==> pages[p] == pages[1..][p - 1];
        if rest.Failure? then
          var p :| 0 <= p < |pages[1..]| && pages[1..][p].Refused? && rest.error == DescribeFailed(pages[1..][p].error) &&
            forall q :: 0 <= q < p ==> pages[1..][q].Answer?;
          assert pages[p + 1] == pages[1..][p];
          rest
        else
          var all := images + rest.value;
          assert Seqs.Map(PageImages, pages)[1..] == Seqs.Map(PageImages, pages[1..]);
          assert forall x :: x in all <==> exists p :: 0 <= p < |pages| && x in pages[p].value by {
            forall x ensures x in all <==> exists p :: 0 <= p < |pages| && x in pages[p].value {
              if x in rest.value {
                var p :| 0 <= p < |pages[1..]| && x in pages[1..][p].value;
                assert x in pages[p + 1].value;
              }
              if exists p :: 0 <= p < |pages| && x in pages[p].value {
                var p :| 0 <= p < |pages| && x in pages[p].value;
                if p > 0 {
                  assert x in pages[1..][p - 1].value;
                }
              }
            }
          }
          Success(all)
  }

  /** A candidate of the pattern path: available, with a name the pattern matches. */
  predicate Candidate(img: Image, matches: string -> bool) {
    img.state == Available && matches(img.name)
  }

  /** The number of candidates among `images`. */
  function CandidatesIn(images: seq<Image>, matches: string -> bool): nat
    decreases |images|
  {
    if |images| == 0 then 0
    else (if Candidate(images[0], matches) then 1 else 0) + CandidatesIn(images[1..], matches)
  }

  /** Counting the candidates of a non-empty prefix: the first image, then the rest of it. */
  lemma CandidatesInPrefix(images: seq<Image>, matches: string -> bool, j: nat)
    requires 0 < j <= |images|
    ensures CandidatesIn(images[..j], matches) ==
      (if Candidate(images[0], matches) then 1 else 0) + CandidatesIn(images[1..][..j - 1], matches)
  {
    assert images[..j][1..] == images[1..][..j - 1];
  }

  /** One more image listed in front: it is kept exactly when it is a candidate. */
  lemma MembersCons(images: seq<Image>, matches: string -> bool, rest: seq<Image>)
    requires |images| > 0
    requires forall x :: x in rest <==> x in images[1..] && Candidate(x, matches)
    ensures var r := if Candidate(images[0], matches) then [images[0]] + rest else rest;
      forall x :: x in r <==> x in images && Candidate(x, matches)
  {
    assert forall x :: x in images <==> x == images[0] || x in images[1..];
  }

  /** One more image listed in front: every candidate keeps its place behind the candidates
      listed before it. */
  lemma PlacedCons(images: seq<Image>, matches: string -> bool, rest: seq<Image>)
    requires |images| > 0
    requires forall j :: 0 <= j < |images[1..]| && Candidate(images[1..][j], matches) ==>
      CandidatesIn(images[1..][..j], matches) < |rest| && rest[CandidatesIn(images[1..][..j], matches)] == images[1..][j]
    ensures var r := if Candidate(images[0], matches) then [images[0]] + rest else rest;
      forall j :: 0 <= j < |images| && Candidate(images[j], matches) ==>
        CandidatesIn(images[..j], matches) < |r| && r[CandidatesIn(images[..j], matches)] == images[j]
  {
    var r := if Candidate(images[0], matches) then [images[0]] + rest else rest;
    forall j | 0 <= j < |images| && Candidate(images[j], matches)
      ensures CandidatesIn(images[..j], matches) < |r| && r[CandidatesIn(images[..j], matches)] == images[j]
    {
      if j == 0 {
        assert images[..0] == [];
      } else {
        CandidatesInPrefix(images, matches, j);
        assert images[j] == images[1..][j - 1];
      }
    }
  }

  /** One more image listed in front that is not a candidate: the first candidate is still the
      first listed. */
  lemma FirstCons(images: seq<Image>, matches: string -> bool, rest: seq<Image>)
    requires |images| > 0 && !Candidate(images[0], matches)
    requires |rest| > 0 ==>
      exists i :: 0 <= i < |images[1..]| && rest[0] == images[1..][i] && Candidate(images[1..][i], matches) &&
        forall j :: 0 <= j < i ==> !Candidate(images[1..][j], matches)
    ensures |rest| > 0 ==>
      exists i :: 0 <= i < |images| && rest[0] == images[i] && Candidate(images[i], matches) &&
        forall j :: 0 <= j < i ==> !Candidate(images[j], matches)
  {
    if |rest| > 0 {
      var i :| 0 <= i < |images[1..]| && rest[0] == images[1..][i] && Candidate(images[1..][i], matches) &&
        forall j :: 0 <= j < i ==> !Candidate(images[1..][j], matches);
      assert images[i + 1] == images[1..][i];
      assert forall j :: 1 <= j < i + 1 ==> images[j] == images[1..][j - 1];
    }
  }

  /** The candidates, in listing order. */
  function Candidates(images: seq<Image>, matches: string -> bool): (r: seq<Image>)
    ensures forall x :: x in r <==> x in images && Candidate(x, matches)
    // one entry per candidate, each after the candidates listed before it
    ensures |r| == CandidatesIn(images, matches)
    ensures forall j :: 0 <= j < |images| && Candidate(images[j], matches) ==>
      CandidatesIn(images[..j], matches) < |r| && r[CandidatesIn(images[..j], matches)] == images[j]
    ensures |r| > 0 ==>
      exists i :: 0 <= i < |images| && r[0] == images[i] && Candidate(images[i], matches) &&
        forall j :: 0 <= j < i ==> !Candidate(images[j], matches)
    decreases |images|
  {
    if |images| == 0 then []
    else
      var rest := Candidates(images[1..], matches);
      MembersCons(images, matches, rest);
      PlacedCons(images, matches, rest);
      if Candidate(images[0], matches) then [images[0]] + rest
      else
        FirstCons(images, matches, rest);
        rest
  }

  /** Image `k` is the first among `cands` with the latest creation time. */
  predicate FirstLatest(cands: seq<Image>, k: nat) {
    k < |cands| &&
    (forall j :: 0 <= j < |cands| ==> cands[j].created <= cands[k].created) &&
    (forall j :: 0 <= j < k ==> cands[j].created < cands[k].created)
  }

  /** The latest-by-creation loop from position `i` on, `best` the index kept so far: an image
      replaces it only when created strictly later. */
  function LatestFrom(cands: seq<Image>, i: nat, best: nat): (r: nat)
    requires best < i <= |cands|
    requires forall j :: 0 <= j < i ==> cands[j].created <= cands[best].created
    requires forall j :: 0 <= j < best ==> cands[j].created < cands[best].created
    ensures FirstLatest(cands, r)
    decreases |cands| - i
  {
    if i == |cands| then best
    else if cands[i].created > cands[best].created then LatestFrom(cands, i + 1, i)
    else LatestFrom(cands, i + 1, best)
  }

  /** The latest candidate: the loop starts from the first one. */
  function Latest(cands: seq<Image>): (r: Image)
    requires |cands| > 0
    ensures exists k: nat :: FirstLatest(cands, k) && r == cands[k]
  {
    var k := LatestFrom(cands, 1, 0);
    cands[k]
  }

  /** Only one position is the first with the latest creation time, so the choice is
      determined by the candidates alone. */
  lemma FirstLatestUnique(cands: seq<Image>, k: nat, l: nat)
    requires FirstLatest(cands, k) && FirstLatest(cands, l)
    ensures k == l
  {
    // both are latest, so they were created at the same time, and neither comes strictly first
    assert cands[k].created <= cands[l].created && cands[l].created <= cands[k].created;
  }

  /** The pattern path's choice: the latest candidate, or the first. */
  function Choose(cands: seq<Image>, latest: bool): Image
    requires |cands| > 0
  {
    if latest then Latest(cands) else cands[0]
  }

  /** With `latest`, the chosen image is a candidate and no candidate was created later. */
  lemma LatestIsCandidate(images: seq<Image>, matches: string -> bool)
    requires |Candidates(images, matches)| > 0
    ensures Choose(Candidates(images, matches), true) in images
    ensures Candidate(Choose(Candidates(images, matches), true), matches)
    ensures forall x :: x in images && Candidate(x, matches) ==>
      x.created <= Choose(Candidates(images, matches), true).created
  {
    var cands := Candidates(images, matches);
    var img := Latest(cands);
    var k: nat :| FirstLatest(cands, k) && img == cands[k];
    assert img in cands;
    forall x | x in images && Candidate(x, matches) ensures x.created <= img.created {
      assert x in cands;
      var j :| 0 <= j < |cands| && cands[j] == x;
    }
  }

  /** The outputs the model keeps; the id is the image's ARN. */
  datatype ImageOutput = ImageOutput(id: string, arn: string, name: string, region: string, created: int)

  /** The outputs of the chosen image. */
  function Output(img: Image, region: string): (o: ImageOutput)
    ensures o.id == img.arn && o.arn == img.arn && o.name == img.name && o.region == region
  {
    ImageOutput(img.arn, img.arn, img.name, region, img.created)
  }

  /** The message regexp.MustCompile panics with for a pattern it cannot compile (abridged). */
  const BadPatternPanic: string := "regexp: Compile"

  /** How the image was looked up: by listing every image of the configured visibility, or by
      exact name. */
  datatype Lookup = ListByType(visibility: string) | ByName(name: string)

  /** The environment of Execute: loading the credentials, their region, the listing pages,
      the compiled pattern (`None` when it does not compile; the regular-expression engine is
      not part of this model) and the by-name answer. */
  datatype ImageEnv = ImageEnv(
    awsConfig: Ack,
    region: string,
    pages: seq<Reply<seq<Image>>>,
    pattern: Option<string -> bool>,
    describe: Reply<seq<Image>>)

  datatype ImageRun = ImageRun(result: Result<ImageOutput, Error>, lookup: Option<Lookup>)

  /** Execute. A credential error is passed through unchanged. */
  function Execute(c: ImageConfig, env: ImageEnv): (r: ImageRun)
    ensures env.awsConfig.Nack? ==> r == ImageRun(Failure(Api(env.awsConfig.error)), None)
    // the pattern takes precedence over the name
    ensures env.awsConfig.Ack? && c.nameRegex != "" ==> r.lookup == Some(ListByType(c.imageType))
    ensures env.awsConfig.Ack? && c.nameRegex == "" ==> r.lookup == Some(ByName(c.name))
    ensures env.awsConfig.Ack? && c.nameRegex != "" && AllPages(env.pages).Success? && env.pattern.Some? ==>
      var cands := Candidates(AllPages(env.pages).value, env.pattern.value);
      (|cands| == 0 <==> r.result == Failure(NoImageMatching(c.nameRegex))) &&
      (|cands| > 0 ==> r.result == Success(Output(Choose(cands, c.latest), env.region)))
    ensures env.awsConfig.Ack? && c.nameRegex != "" && AllPages(env.pages).Success? && env.pattern.None? ==>
      r.result == Failure(Panicked(BadPatternPanic))
    ensures env.awsConfig.Ack? && c.nameRegex != "" && AllPages(env.pages).Failure? ==>
      r.result == Failure(AllPages(env.pages).error)
    ensures env.awsConfig.Ack? && c.nameRegex == "" && env.describe.Refused? ==>
      r.result == Failure(DescribeFailed(env.describe.error))
    ensures env.awsConfig.Ack? && c.nameRegex == "" && env.describe.Answer? ==>
      (|env.describe.value| == 0 ==> r.result == Failure(ImageNotFound(c.name))) &&
      (|env.describe.value| > 0 ==> r.result == Success(Output(env.describe.value[0], env.region)))
  {
    if env.awsConfig.Nack? then ImageRun(Failure(Api(env.awsConfig.error)), None)
    else if c.nameRegex != "" then
      var lookup := Some(ListByType(c.imageType));
      match AllPages(env.pages)
      case Failure(e) => ImageRun(Failure(e), lookup)
      case Success(images) =>
        match env.pattern
        case None => ImageRun(Failure(Panicked(BadPatternPanic)), lookup)
        case Some(matches) =>
          var cands := Candidates(images, matches);
          if |cands| == 0 then ImageRun(Failure(NoImageMatching(c.nameRegex)), lookup)
          else
            ImageRun(Success(Output(Choose(cands, c.latest), env.region)), lookup)
    else
      var lookup := Some(ByName(c.name));
      match env.describe
      case Refused(e) => ImageRun(Failure(DescribeFailed(e)), lookup)
      case Answer(images) =>
        if |images| == 0 then ImageRun(Failure(ImageNotFound(c.name)), lookup)
        else ImageRun(Success(Output(images[0], env.region)), lookup)
  }
}

=== FILE: appstream_share.dfy ===
/** post-processor/appstream-share/post-processor.go: wait for a named AppStream image to become
    available, share it with the configured accounts, then copy it to each destination region,
    wait for it there and share it there as well, stopping at the first error. */
module AppStreamShare {
  import opened Wrappers
  import opened Aws
  import opened AppStream
  import Seqs

  /** The post-processor's settings; `region` overrides the region of the loaded SDK
      configuration when set, `timeout` is a Go duration string. */
  datatype ShareConfig = ShareConfig(
    imageName: string,
    accountIds: seq<string>,
    region: string,
    destinationRegions: seq<string>,
    timeout: string)

  /** Configure: the image name and at least one account are required, checked in that order. */
  function Configure(c: ShareConfig): (r: Option<Error>)
    ensures r.None? <==> c.imageName != "" && |c.accountIds| > 0
    ensures r == Some(ImageNameRequired) <==> c.imageName == ""
    ensures r.Some? ==> r.value in {ImageNameRequired, AccountIdsRequired}
  {
    if c.imageName == "" then Some(ImageNameRequired)
    else if |c.accountIds| == 0 then Some(AccountIdsRequired)
    else None
  }

  /** One second, in nanoseconds (the unit of Go durations). */
  const Second: int := 1_000_000_000

  /** The wait timeout when none is configured: thirty minutes. */
  const DefaultTimeout: int := 30 * 60 * Second

  /** The ticker period between two describe calls: thirty seconds. */
  const TickInterval: int := 30 * Second

  /** The timeout in nanoseconds. `parse` stands for time.ParseDuration, which is not part of
      this model: `None` for text it rejects. */
  function Timeout(text: string, parse: string -> Option<int>): (r: Result<int, Error>)
    ensures text == "" ==> r == Success(DefaultTimeout)
    ensures text != "" ==> (r.Failure? <==> parse(text).None?)
    ensures r.Failure? ==> r.error == InvalidTimeout(text)
    ensures text != "" && r.Success? ==> r.value == parse(text).value
  {
    if text == "" then Success(DefaultTimeout)
    else match parse(text)
      case None => Failure(InvalidTimeout(text))
      case Some(d) => Success(d)
  }

  /** One turn of the wait loop: the time elapsed since the wait started when the loop checks
      it, the DescribeImages answer, and whether the context was done (rather than the ticker
      firing) when the loop went on to wait. */
  datatype Tick = Tick(elapsed: int, reply: Reply<seq<Image>>, cancelled: bool)

  /** A turn that finds the timeout exceeded. */
  predicate Overdue(t: Tick, timeout: int) {
    t.elapsed > timeout
  }

  /** A turn after which the loop goes on: in time, described, the image not listed yet or in
      a state that is neither available nor failed, and the ticker fired. */
  predicate Waits(t: Tick, timeout: int) {
    !Overdue(t, timeout) && t.reply.Answer? && !t.cancelled &&
    (|t.reply.value| == 0 || t.reply.value[0].state !in {Available, ImageFailed})
  }

  /** How a wait ended: the image is available, an error, or still waiting when the turns ran
      out. */
  datatype WaitEnd = ImageReady | WaitFailed(error: Error) | WaitPending

  /** The end of a wait, the position after the last turn taken, and the calls made. */
  datatype WaitRun = WaitRun(end: WaitEnd, consumed: nat, calls: seq<Call>)

  /** waitForImage for `name` through the client of `region`, from turn `i` on. */
  function WaitForImage(region: string, name: string, timeout: int, ticks: seq<Tick>, i: nat): (r: WaitRun)
    requires i <= |ticks|
    ensures i <= r.consumed <= |ticks|
    ensures r.end == WaitPending <==> forall k :: i <= k < |ticks| ==> Waits(ticks[k], timeout)
    ensures r.end == WaitPending ==> r.consumed == |ticks|
    ensures r.end != WaitPending ==>
      i < r.consumed && !Waits(ticks[r.consumed - 1], timeout) &&
      forall k :: i <= k < r.consumed - 1 ==> Waits(ticks[k], timeout)
    ensures forall k :: 0 <= k < |r.calls| ==> r.calls[k] == DescribeImages(region, name)
    // every turn describes the image, except one that finds the timeout exceeded
    ensures r.end != WaitPending && Overdue(ticks[r.consumed - 1], timeout) ==>
      r.end == WaitFailed(WaitTimedOut(name)) && |r.calls| == r.consumed - i - 1
    ensures !(r.end != WaitPending && Overdue(ticks[r.consumed - 1], timeout)) ==> |r.calls| == r.consumed - i
    ensures r.end == ImageReady ==>
      var t := ticks[r.consumed - 1];
      !Overdue(t, timeout) && t.reply.Answer? && |t.reply.value| > 0 && t.reply.value[0].state == Available
    ensures r.end.WaitFailed? && r.end.error.ImageCreationFailed? ==>
      var t := ticks[r.consumed - 1];
      t.reply.Answer? && |t.reply.value| > 0 && t.reply.value[0].state == ImageFailed &&
      r.end.error.reason == t.reply.value[0].reason.GetOr("unknown reason")
    decreases |ticks| - i
  {
    if i == |ticks| then WaitRun(WaitPending, i, [])
    else
      var t := ticks[i];
      if t.elapsed > timeout then WaitRun(WaitFailed(WaitTimedOut(name)), i + 1, [])
      else
        var describe := [DescribeImages(region, name)];
        match t.reply
        case Refused(e) => WaitRun(WaitFailed(DescribeImageFailed(e)), i + 1, describe)
        case Answer(images) =>
          if |images| > 0 && images[0].state == Available then WaitRun(ImageReady, i + 1, describe)
          else if |images| > 0 && images[0].state == ImageFailed then
            WaitRun(WaitFailed(ImageCreationFailed(images[0].reason.GetOr("unknown reason"))), i + 1, describe)
          else if t.cancelled then WaitRun(WaitFailed(ContextDone), i + 1, describe)
          else
            var rest := WaitForImage(region, name, timeout, ticks, i + 1);
            WaitRun(rest.end, rest.consumed, describe + rest.calls)
  }

  /** When every turn comes at least one ticker period after the previous one, the wait
      describes the image at most once per period of the timeout, plus once. */
  lemma {:induction false} WaitDescribesBounded(region: string, name: string, timeout: int, ticks: seq<Tick>)
    requires forall k :: 0 <= k < |ticks| ==> ticks[k].elapsed >= TickInterval * k
    ensures var n := |WaitForImage(region, name, timeout, ticks, 0).calls|;
      n == 0 || (n - 1) * TickInterval <= timeout
  {
    var r := WaitForImage(region, name, timeout, ticks, 0);
    var n := |r.calls|;
    if n > 0 {
      // the last describe happened on turn n - 1, which was in time
      assert r.consumed >= n;
      var last := n - 1;
      if last < r.consumed - 1 {
        assert Waits(ticks[last], timeout);
      } else {
        assert last == r.consumed - 1;
        assert !(r.end != WaitPending && Overdue(ticks[r.consumed - 1], timeout));
        if r.end == WaitPending {
          assert Waits(ticks[last], timeout);
        }
      }
      assert !Overdue(ticks[last], timeout);
      assert TickInterval * last <= ticks[last].elapsed;
    }
  }

  /** The calls made and the error, if any. */
  datatype Steps = Steps(error: Option<Error>, calls: seq<Call>)

  /** The permission update shareImage issues for one account. */
  function Grant(region: string, name: string, account: string): Call {
    UpdateImagePermissions(region, name, account, true, true)
  }

  /** shareImage: grant fleet and image-builder use to each account in order, stopping at the
      first refusal. */
  function ShareImage(region: string, name: string, accounts: seq<string>, reply: string -> Ack): (r: Steps)
    ensures |r.calls| <= |accounts|
    ensures forall k :: 0 <= k < |r.calls| ==> r.calls[k] == Grant(region, name, accounts[k])
    ensures r.error.None? <==> forall k :: 0 <= k < |accounts| ==> reply(accounts[k]).Ack?
    ensures r.error.None? ==> |r.calls| == |accounts|
    ensures r.error.Some? ==>
      var k := |r.calls| - 1;
      k >= 0 && reply(accounts[k]).Nack? && r.error.value == ShareFailed(accounts[k], reply(accounts[k]).error) &&
      forall l :: 0 <= l < k ==> reply(accounts[l]).Ack?
  {
    var k := FirstNack(accounts, reply, 0);
    if k == |accounts| then
      Steps(None, seq(|accounts|, l requires 0 <= l < |accounts| => Grant(region, name, accounts[l])))
    else
      Steps(Some(ShareFailed(accounts[k], reply(accounts[k]).error)),
            seq(k + 1, l requires 0 <= l <= k => Grant(region, name, accounts[l])))
  }

  /** The call after position `k` is a permission update only right after a describe of the
      image, or another update, in the same region. */
  predicate FollowsAt(trace: seq<Call>, k: nat)
    requires k + 1 < |trace|
  {
    trace[k + 1].UpdateImagePermissions? ==>
      (trace[k].DescribeImages? || trace[k].UpdateImagePermissions?) && trace[k].region == trace[k + 1].region
  }

  /** Every permission update directly follows a describe of the image, or another update, in
      the same region: an image is shared in a region only once it was seen available there. */
  predicate SharesAfterDescribe(trace: seq<Call>) {
    (|trace| > 0 ==> !trace[0].UpdateImagePermissions?) &&
    forall k :: 0 <= k < |trace| - 1 ==> FollowsAt(trace, k)
  }

  /** Two traces that each share only after a describe still do so one after the other. */
  lemma SharesAfterDescribeAppend(a: seq<Call>, b: seq<Call>)
    requires SharesAfterDescribe(a) && SharesAfterDescribe(b)
    ensures SharesAfterDescribe(a + b)
  {
    var t := a + b;
    forall k | 0 <= k < |t| - 1
      ensures FollowsAt(t, k)
    {
      if k + 1 < |a| {
        assert FollowsAt(a, k);
        assert t[k] == a[k] && t[k + 1] == a[k + 1];
      } else if k >= |a| {
        assert FollowsAt(b, k - |a|);
        assert t[k] == b[k - |a|] && t[k + 1] == b[k + 1 - |a|];
      } else {
        assert t[k + 1] == b[0];
      }
    }
  }

  /** Describes of the image followed by permission updates, all in one region, share only
      after a describe, and so do the describes alone. */
  lemma DescribesThenGrants(region: string, name: string, wait: seq<Call>, grants: seq<Call>)
    requires forall k :: 0 <= k < |wait| ==> wait[k] == DescribeImages(region, name)
    requires |grants| > 0 ==> |wait| > 0
    requires forall k :: 0 <= k < |grants| ==> grants[k].UpdateImagePermissions? && grants[k].region == region
    ensures SharesAfterDescribe(wait)
    ensures SharesAfterDescribe(wait + grants)
  {
    var t := wait + grants;
    forall k | 0 <= k < |wait| - 1
      ensures FollowsAt(wait, k)
    {
      assert wait[k + 1] == DescribeImages(region, name);
    }
    forall k | 0 <= k < |t| - 1
      ensures FollowsAt(t, k)
    {
      if k + 1 < |wait| {
        assert t[k + 1] == wait[k + 1];
      } else if k < |wait| {
        assert t[k] == wait[k] && t[k + 1] == grants[0];
      } else {
        assert t[k] == grants[k - |wait|] && t[k + 1] == grants[k + 1 - |wait|];
      }
    }
  }

  /** Every account was granted in `region`. */
  predicate SharedIn(trace: seq<Call>, region: string, name: string, accounts: seq<string>) {
    forall a :: a in accounts ==> Grant(region, name, a) in trace
  }

  /** Calls that end with one grant per account, in order, share with every account. */
  lemma GrantsShare(region: string, name: string, accounts: seq<string>, before: seq<Call>, grants: seq<Call>)
    requires |grants| == |accounts|
    requires forall k :: 0 <= k < |grants| ==> grants[k] == Grant(region, name, accounts[k])
    ensures SharedIn(before + grants, region, name, accounts)
  {
    var calls := before + grants;
    forall a | a in accounts ensures Grant(region, name, a) in calls {
      var k :| 0 <= k < |accounts| && accounts[k] == a;
      assert calls[|before| + k] == grants[k];
    }
  }

  /** A trace that shares with every account in a region keeps doing so inside a longer one. */
  lemma SharedInAppend(a: seq<Call>, b: seq<Call>, region: string, name: string, accounts: seq<string>)
    requires SharedIn(a, region, name, accounts) || SharedIn(b, region, name, accounts)
    ensures SharedIn(a + b, region, name, accounts)
  {
    Seqs.InConcat(a, b);
  }

  /** How one region's wait-and-share ended; waiting and sharing failures are told apart
      because destination regions wrap them differently. */
  datatype StageEnd = StageDone | WaitBroke(error: Error) | ShareBroke(error: Error) | StageWaiting

  datatype StageRun = StageRun(end: StageEnd, calls: seq<Call>)

  /** Wait for the image in `region`, then share it there when any accounts are configured. */
  function Stage(region: string, name: string, accounts: seq<string>, timeout: int, ticks: seq<Tick>, reply: string -> Ack): (r: StageRun)
    ensures SharesAfterDescribe(r.calls)
    ensures r.end == StageWaiting <==> WaitForImage(region, name, timeout, ticks, 0).end == WaitPending
    ensures r.end.WaitBroke? <==> WaitForImage(region, name, timeout, ticks, 0).end.WaitFailed?
    ensures r.end.WaitBroke? ==> r.end.error == WaitForImage(region, name, timeout, ticks, 0).end.error
    // sharing starts only once the image is available
    ensures r.end.ShareBroke? || r.end == StageDone ==> WaitForImage(region, name, timeout, ticks, 0).end == ImageReady
    ensures r.end == StageDone ==> SharedIn(r.calls, region, name, accounts)
    ensures r.end.ShareBroke? ==> Some(r.end.error) == ShareImage(region, name, accounts, reply).error
    ensures WaitForImage(region, name, timeout, ticks, 0).end == ImageReady ==>
      (r.end == StageDone <==> ShareImage(region, name, accounts, reply).error.None?)
    // the calls are the wait's, then, only once the image is available, the grants
    ensures WaitForImage(region, name, timeout, ticks, 0).end != ImageReady ==>
      r.calls == WaitForImage(region, name, timeout, ticks, 0).calls
    ensures WaitForImage(region, name, timeout, ticks, 0).end == ImageReady ==>
      r.calls == WaitForImage(region, name, timeout, ticks, 0).calls + ShareImage(region, name, accounts, reply).calls
  {
    var wait := WaitForImage(region, name, timeout, ticks, 0);
    DescribesThenGrants(region, name, wait.calls, []);
    match wait.end
    case WaitPending => StageRun(StageWaiting, wait.calls)
    case WaitFailed(e) => StageRun(WaitBroke(e), wait.calls)
    case ImageReady =>
      if |accounts| == 0 then
        assert wait.calls + ShareImage(region, name, accounts, reply).calls == wait.calls;
        StageRun(StageDone, wait.calls)
      else
        var share := ShareImage(region, name, accounts, reply);
        var calls := wait.calls + share.calls;
        DescribesThenGrants(region, name, wait.calls, share.calls);
        match share.error
        case None =>
          GrantsShare(region, name, accounts, wait.calls, share.calls);
          StageRun(StageDone, calls)
        case Some(e) => StageRun(ShareBroke(e), calls)
  }

  /** The environment of PostProcess. Turns and share answers are given per stage: stage 0 is
      the source region, stage j + 1 the j-th destination; copy answers per destination. */
  datatype ShareEnv = ShareEnv(
    sdkConfig: Ack,
    defaultRegion: string,
    parseDuration: string -> Option<int>,
    ticks: nat -> seq<Tick>,
    copy: nat -> Ack,
    share: nat -> string -> Ack)

  /** The source region: the configured one, else the SDK configuration's. */
  function SourceRegion(c: ShareConfig, env: ShareEnv): string {
    if c.region != "" then c.region else env.defaultRegion
  }

  /** What a stage run promises whatever the answers: shares follow describes, and a finished
      stage granted every account in its region. */
  predicate StageSound(run: StageRun, region: string, c: ShareConfig) {
    SharesAfterDescribe(run.calls) &&
    (run.end == StageDone ==> SharedIn(run.calls, region, c.imageName, c.accountIds))
  }

  /** The wait-and-share of stage `stage` in `region`. */
  function StageAt(c: ShareConfig, env: ShareEnv, timeout: int, stage: nat, region: string): (r: StageRun)
    ensures StageSound(r, region, c)
  {
    Stage(region, c.imageName, c.accountIds, timeout, env.ticks(stage), env.share(stage))
  }

  /** The stage of every destination, as it would run. */
  function DestinationStages(c: ShareConfig, env: ShareEnv, timeout: int): (r: seq<StageRun>)
    ensures |r| == |c.destinationRegions|
    ensures forall j :: 0 <= j < |r| ==> r[j] == StageAt(c, env, timeout, j + 1, c.destinationRegions[j])
    ensures forall j :: 0 <= j < |r| ==> StageSound(r[j], c.destinationRegions[j], c)
  {
    seq(|c.destinationRegions|, j requires 0 <= j < |c.destinationRegions| =>
      StageAt(c, env, timeout, j + 1, c.destinationRegions[j]))
  }

  /** The copy request for the j-th destination, issued through the source region's client. */
  function CopyTo(c: ShareConfig, env: ShareEnv, j: nat): Call
    requires j < |c.destinationRegions|
  {
    CopyImage(SourceRegion(c, env), c.imageName, c.imageName, c.destinationRegions[j])
  }

  /** The j-th destination completes: the copy is accepted and its stage finishes. */
  predicate DestinationOk(c: ShareConfig, env: ShareEnv, timeout: int, j: nat)
    requires j < |c.destinationRegions|
  {
    env.copy(j).Ack? && StageAt(c, env, timeout, j + 1, c.destinationRegions[j]).end == StageDone
  }

  /** The same, given the destinations' stages. */
  predicate Completes(env: ShareEnv, stages: seq<StageRun>, j: nat)
    requires j < |stages|
  {
    env.copy(j).Ack? && stages[j].end == StageDone
  }

  /** A destination completes exactly when its copy is accepted and its stage finishes. */
  lemma DestinationsAgree(c: ShareConfig, env: ShareEnv, timeout: int)
    ensures forall j :: 0 <= j < |c.destinationRegions| ==>
      (DestinationOk(c, env, timeout, j) <==> Completes(env, DestinationStages(c, env, timeout), j))
  {
  }

  /** What PostProcess returns (the artifact is passed through), or still waiting when a wait's
      turns ran out. */
  datatype PostEnd = Returned(keep: bool, forceOverride: bool, error: Option<Error>) | StillWaiting

  datatype ShareRun = ShareRun(end: PostEnd, trace: seq<Call>)

  /** The l-th destination was copied to and shared in with every account. */
  predicate DestinationShared(c: ShareConfig, env: ShareEnv, trace: seq<Call>, l: nat)
    requires l < |c.destinationRegions|
  {
    CopyTo(c, env, l) in trace && SharedIn(trace, c.destinationRegions[l], c.imageName, c.accountIds)
  }

  /** A destination copied to and shared in stays so inside a longer trace. */
  lemma DestinationSharedAppend(c: ShareConfig, env: ShareEnv, a: seq<Call>, b: seq<Call>, l: nat)
    requires l < |c.destinationRegions|
    requires DestinationShared(c, env, b, l)
    ensures DestinationShared(c, env, a + b, l)
  {
    Seqs.InConcat(a, b);
    SharedInAppend(a, b, c.destinationRegions[l], c.imageName, c.accountIds);
  }

  /** A destination that completes is copied to and shared in by its own calls, and the
      destinations after it stay so behind them. */
  lemma CompletedShared(c: ShareConfig, env: ShareEnv, stages: seq<StageRun>, j: nat, rest: seq<Call>)
    requires j < |c.destinationRegions| == |stages|
    requires StageSound(stages[j], c.destinationRegions[j], c)
    requires Completes(env, stages, j)
    requires forall l :: j < l < |stages| ==> DestinationShared(c, env, rest, l)
    ensures forall l :: j <= l < |stages| ==> DestinationShared(c, env, DestinationCalls(c, env, stages, j) + rest, l)
  {
    var here := DestinationCalls(c, env, stages, j);
    forall l | j <= l < |stages|
      ensures DestinationShared(c, env, here + rest, l)
    {
      if l == j {
        Seqs.InConcat(here, rest);
        assert here[0] == CopyTo(c, env, j);
        SharedInAppend([CopyTo(c, env, j)], stages[j].calls, c.destinationRegions[j], c.imageName, c.accountIds);
        SharedInAppend(here, rest, c.destinationRegions[j], c.imageName, c.accountIds);
      } else {
        DestinationSharedAppend(c, env, here, rest, l);
      }
    }
  }

  /** Each destination's stage is sound for its region. */
  predicate StagesSound(c: ShareConfig, stages: seq<StageRun>)
    requires |c.destinationRegions| == |stages|
  {
    forall l :: 0 <= l < |stages| ==> StageSound(stages[l], c.destinationRegions[l], c)
  }

  /** How a destination that does not complete ends the run: a refused copy, a failed wait or
      a failed share, each wrapped with the region, or still waiting when its wait ran out of
      turns. */
  function FailureEnd(c: ShareConfig, env: ShareEnv, stages: seq<StageRun>, k: nat): (e: PostEnd)
    requires k < |c.destinationRegions| == |stages|
    requires !Completes(env, stages, k)
    ensures env.copy(k).Nack? ==>
      e == Returned(false, false, Some(RegionCopyFailed(c.destinationRegions[k], env.copy(k).error)))
    ensures env.copy(k).Ack? && stages[k].end.WaitBroke? ==>
      e == Returned(false, false, Some(RegionWaitFailed(c.destinationRegions[k], stages[k].end.error)))
    ensures env.copy(k).Ack? && stages[k].end.ShareBroke? ==>
      e == Returned(false, false, Some(RegionShareFailed(c.destinationRegions[k], stages[k].end.error)))
    ensures env.copy(k).Ack? && stages[k].end == StageWaiting ==> e == StillWaiting
    ensures e.Returned? ==> e.error.Some? && !e.keep && !e.forceOverride
  {
    var dest := c.destinationRegions[k];
    match env.copy(k)
    case Nack(err) => Returned(false, false, Some(RegionCopyFailed(dest, err)))
    case Ack =>
      match stages[k].end
      case WaitBroke(err) => Returned(false, false, Some(RegionWaitFailed(dest, err)))
      case ShareBroke(err) => Returned(false, false, Some(RegionShareFailed(dest, err)))
      case StageWaiting => StillWaiting
  }

  /** The destination regions from position `j` on, given their stages. */
  function Destinations(c: ShareConfig, env: ShareEnv, stages: seq<StageRun>, j: nat): (r: ShareRun)
    requires j <= |c.destinationRegions| == |stages|
    requires StagesSound(c, stages)
    ensures SharesAfterDescribe(r.trace)
    ensures r.end.Returned? && r.end.error.None? <==>
      forall l :: j <= l < |stages| ==> Completes(env, stages, l)
    ensures r.end.Returned? ==> !r.end.forceOverride && (r.end.keep <==> r.end.error.None?)
    ensures r.end.Returned? && r.end.error.None? ==>
      forall l :: j <= l < |stages| ==> DestinationShared(c, env, r.trace, l)
    ensures r.end.Returned? && r.end.error.Some? && r.end.error.value.RegionCopyFailed? ==>
      |r.trace| >= 1 && r.trace[|r.trace| - 1].CopyImage?
    // the calls are those of each destination reached, in order: nothing is copied past the
    // first destination that does not complete
    ensures r.trace == DestinationsCalls(c, env, stages, j, Reached(env, stages, j))
    // the first destination that does not complete decides how the run ends
    ensures FirstIncomplete(env, stages, j) < |stages| ==>
      r.end == FailureEnd(c, env, stages, FirstIncomplete(env, stages, j))
    decreases |stages| - j
  {
    if j == |stages| then ShareRun(Returned(true, false, None), [])
    else
      var dest := c.destinationRegions[j];
      var copy := [CopyTo(c, env, j)];
      match env.copy(j)
      case Nack(e) =>
        StopCalls(c, env, stages, j);
        ShareRun(Returned(false, false, Some(RegionCopyFailed(dest, e))), copy)
      case Ack =>
        var stage := stages[j];
        var here := copy + stage.calls;
        assert StageSound(stages[j], dest, c);
        SharesAfterDescribeAppend(copy, stage.calls);
        assert stage.end != StageDone ==> !Completes(env, stages, j);
        assert stage.end != StageDone ==>
          DestinationsCalls(c, env, stages, j, Reached(env, stages, j)) == here
        by {
          if stage.end != StageDone {
            StopCalls(c, env, stages, j);
          }
        }
        match stage.end
        case StageWaiting => ShareRun(StillWaiting, here)
        case WaitBroke(e) => ShareRun(Returned(false, false, Some(RegionWaitFailed(dest, e))), here)
        case ShareBroke(e) => ShareRun(Returned(false, false, Some(RegionShareFailed(dest, e))), here)
        case StageDone =>
          var rest := Destinations(c, env, stages, j + 1);
          var trace := here + rest.trace;
          SharesAfterDescribeAppend(here, rest.trace);
          ReachedCallsStep(c, env, stages, j);
          if rest.end.Returned? && rest.end.error.None? then
            CompletedShared(c, env, stages, j, rest.trace);
            ShareRun(rest.end, trace)
          else ShareRun(rest.end, trace)
  }

  /** The first destination from `j` on that does not complete, or |stages| when all do. */
  function FirstIncomplete(env: ShareEnv, stages: seq<StageRun>, j: nat): (k: nat)
    requires j <= |stages|
    ensures j <= k <= |stages|
    ensures forall l :: j <= l < k ==> Completes(env, stages, l)
    ensures k < |stages| ==> !Completes(env, stages, k)
    decreases |stages| - j
  {
    if j == |stages| || !Completes(env, stages, j) then j else FirstIncomplete(env, stages, j + 1)
  }

  /** The destinations the run reaches from `j` on: up to and including the first that does not
      complete. */
  function Reached(env: ShareEnv, stages: seq<StageRun>, j: nat): (e: nat)
    requires j <= |stages|
    ensures j <= e <= |stages|
  {
    var k := FirstIncomplete(env, stages, j);
    if k < |stages| then k + 1 else k
  }

  /** The calls for the l-th destination: the copy request and, once it is accepted, the
      destination's wait-and-share. */
  function DestinationCalls(c: ShareConfig, env: ShareEnv, stages: seq<StageRun>, l: nat): (calls: seq<Call>)
    requires l < |c.destinationRegions| == |stages|
    ensures |calls| >= 1 && calls[0] == CopyTo(c, env, l)
  {
    if env.copy(l).Ack? then [CopyTo(c, env, l)] + stages[l].calls else [CopyTo(c, env, l)]
  }

  /** The calls for the destinations in [j, e), one after the other. */
  function DestinationsCalls(c: ShareConfig, env: ShareEnv, stages: seq<StageRun>, j: nat, e: nat): (calls: seq<Call>)
    requires j <= e <= |c.destinationRegions| == |stages|
    ensures j < e ==> |calls| >= 1 && calls[0] == CopyTo(c, env, j)
    decreases e - j
  {
    if j == e then [] else DestinationCalls(c, env, stages, j) + DestinationsCalls(c, env, stages, j + 1, e)
  }

  /** The calls of the destinations reached from a completing one are its own, then those
      reached from the next. */
  lemma ReachedCallsStep(c: ShareConfig, env: ShareEnv, stages: seq<StageRun>, j: nat)
    requires j < |c.destinationRegions| == |stages|
    requires Completes(env, stages, j)
    ensures DestinationsCalls(c, env, stages, j, Reached(env, stages, j)) ==
      DestinationCalls(c, env, stages, j) + DestinationsCalls(c, env, stages, j + 1, Reached(env, stages, j + 1))
  {
    assert FirstIncomplete(env, stages, j) == FirstIncomplete(env, stages, j + 1);
    assert j < Reached(env, stages, j) == Reached(env, stages, j + 1);
  }

  /** The destinations reached from one that does not complete are that one alone. */
  lemma StopCalls(c: ShareConfig, env: ShareEnv, stages: seq<StageRun>, j: nat)
    requires j < |c.destinationRegions| == |stages|
    requires !Completes(env, stages, j)
    ensures Reached(env, stages, j) == j + 1
    ensures DestinationsCalls(c, env, stages, j, Reached(env, stages, j)) == DestinationCalls(c, env, stages, j)
  {
    assert DestinationsCalls(c, env, stages, j + 1, j + 1) == [];
  }

  /** The wait-and-share in the source region. */
  function SourceStage(c: ShareConfig, env: ShareEnv, timeout: int): (r: StageRun)
    ensures StageSound(r, SourceRegion(c, env), c)
  {
    StageAt(c, env, timeout, 0, SourceRegion(c, env))
  }

  /** PostProcess. */
  function PostProcess(c: ShareConfig, env: ShareEnv): (r: ShareRun)
    ensures env.sdkConfig.Nack? ==> r == ShareRun(Returned(false, false, Some(SdkConfig(env.sdkConfig.error))), [])
    ensures env.sdkConfig.Ack? && Timeout(c.timeout, env.parseDuration).Failure? ==>
      r == ShareRun(Returned(false, false, Some(InvalidTimeout(c.timeout))), [])
    ensures r.end.Returned? ==> !r.end.forceOverride && (r.end.keep <==> r.end.error.None?)
    ensures SharesAfterDescribe(r.trace)
    // success exactly when the source stage and every destination complete
    ensures r.end == Returned(true, false, None) <==>
      env.sdkConfig.Ack? && Timeout(c.timeout, env.parseDuration).Success? &&
      StageAt(c, env, Timeout(c.timeout, env.parseDuration).value, 0, SourceRegion(c, env)).end == StageDone &&
      forall j :: 0 <= j < |c.destinationRegions| ==> DestinationOk(c, env, Timeout(c.timeout, env.parseDuration).value, j)
    // on success the image is shared with every account in the source and every destination
    ensures r.end == Returned(true, false, None) ==>
      SharedIn(r.trace, SourceRegion(c, env), c.imageName, c.accountIds) &&
      forall j :: 0 <= j < |c.destinationRegions| ==>
        CopyTo(c, env, j) in r.trace && SharedIn(r.trace, c.destinationRegions[j], c.imageName, c.accountIds)
    // a source region that fails or keeps waiting ends the run there, with no copy
    ensures env.sdkConfig.Ack? && Timeout(c.timeout, env.parseDuration).Success? ==>
      var source := SourceStage(c, env, Timeout(c.timeout, env.parseDuration).value);
      (source.end.WaitBroke? || source.end.ShareBroke? ==>
         r == ShareRun(Returned(false, false, Some(source.end.error)), source.calls)) &&
      (source.end == StageWaiting ==> r == ShareRun(StillWaiting, source.calls))
    // otherwise the destinations decide, after the source region's calls
    ensures env.sdkConfig.Ack? && Timeout(c.timeout, env.parseDuration).Success? ==>
      var timeout := Timeout(c.timeout, env.parseDuration).value;
      var source := SourceStage(c, env, timeout);
      var rest := Destinations(c, env, DestinationStages(c, env, timeout), 0);
      source.end == StageDone ==> r == ShareRun(rest.end, source.calls + rest.trace)
  {
    if env.sdkConfig.Nack? then ShareRun(Returned(false, false, Some(SdkConfig(env.sdkConfig.error))), [])
    else match Timeout(c.timeout, env.parseDuration)
      case Failure(e) => ShareRun(Returned(false, false, Some(e)), [])
      case Success(timeout) =>
        var source := SourceStage(c, env, timeout);
        match source.end
        case StageWaiting => ShareRun(StillWaiting, source.calls)
        case WaitBroke(e) => ShareRun(Returned(false, false, Some(e)), source.calls)
        case ShareBroke(e) => ShareRun(Returned(false, false, Some(e)), source.calls)
        case StageDone =>
          var stages := DestinationStages(c, env, timeout);
          var rest := Destinations(c, env, stages, 0);
          DestinationsAgree(c, env, timeout);
          var trace := source.calls + rest.trace;
          SharesAfterDescribeAppend(source.calls, rest.trace);
          SharedInAppend(source.calls, rest.trace, SourceRegion(c, env), c.imageName, c.accountIds);
          assert rest.end == Returned(true, false, None) ==>
            forall l :: 0 <= l < |c.destinationRegions| ==>
              CopyTo(c, env, l) in trace && SharedIn(trace, c.destinationRegions[l], c.imageName, c.accountIds)
          by {
            forall l | 0 <= l < |c.destinationRegions| && rest.end == Returned(true, false, None)
              ensures CopyTo(c, env, l) in trace && SharedIn(trace, c.destinationRegions[l], c.imageName, c.accountIds)
            {
              assert DestinationShared(c, env, rest.trace, l);
              DestinationSharedAppend(c, env, source.calls, rest.trace, l);
            }
          }
          ShareRun(rest.end, trace)
  }
}

=== FILE: artifact_id.dfy ===
/** The artifact id of the Amazon builders, `region:ami-id,region:ami-id,...`, as both AMI
    post-processors split it (post-processor/ami-copy/post-processor.go and
    post-processor/ami-delete/post-processor.go hold the same `amisFromArtifactID`). */
module ArtifactId {
  import opened Wrappers
  import opened Aws
  import Seqs
  import Strings

  /** What a post-processor receives from the build: the producing builder's id and the
      artifact id. */
  datatype Artifact = Artifact(builderId: string, id: string)

  /** The builder ids of the Amazon builders (ebs, ebssurrogate, ebsvolume, chroot and
      instance), the only artifacts the AMI post-processors accept. */
  const AmazonBuilderIds: set<string> := {
    "mitchellh.amazonebs",
    "mitchellh.amazon.ebssurrogate",
    "mitchellh.amazon.ebsvolume",
    "mitchellh.amazon.chroot",
    "mitchellh.amazon.instance"
  }

  /** One AMI of an artifact: the region it lives in and its id. */
  datatype Ami = Ami(region: string, id: string)

  /** The segment an AMI is written as. */
  function Render(a: Ami): string {
    a.region + ":" + a.id
  }

  /** An artifact id listing `amis` in order. */
  function FormatArtifactId(amis: seq<Ami>): string
    requires |amis| >= 1
  {
    Strings.Join(Seqs.Map(Render, amis), ',')
  }

  /** Every segment holds a colon. */
  predicate AllCut(segments: seq<string>) {
    forall i :: 0 <= i < |segments| ==> ':' in segments[i]
  }

  /** `amis` is, position by position, the segments split at their first colon. */
  predicate RendersAs(amis: seq<Ami>, segments: seq<string>) {
    |amis| == |segments| &&
    forall i :: 0 <= i < |segments| ==> Render(amis[i]) == segments[i] && ':' !in amis[i].region
  }

  /** Each comma-separated segment split at its first colon; a segment without a colon makes
      Go index past the end of the `SplitN` result, which panics. */
  function ParseSegments(segments: seq<string>): (r: Result<seq<Ami>, Error>)
    ensures r.Success? <==> AllCut(segments)
    ensures r.Success? ==> RendersAs(r.value, segments)
    ensures r.Failure? ==> r.error.Panicked?
  {
    if |segments| == 0 then Success([])
    else
      match Strings.Cut(segments[0], ':')
      case None => Failure(Panicked("index out of range [1] with length 1"))
      case Some((region, id)) =>
        match ParseSegments(segments[1..])
        case Failure(e) => Failure(e)
        case Success(rest) => Success([Ami(region, id)] + rest)
  }

  /** amisFromArtifactID: one AMI per comma-separated segment, in order; the region is the text
      before the segment's first colon and the id is the rest. */
  function ParseArtifactId(artifactId: string): (r: Result<seq<Ami>, Error>)
    ensures r.Success? <==> AllCut(Strings.Split(artifactId, ','))
    ensures r.Success? ==> RendersAs(r.value, Strings.Split(artifactId, ',')) && |r.value| >= 1
    ensures r.Failure? ==> r.error.Panicked?
  {
    ParseSegments(Strings.Split(artifactId, ','))
  }

  /** Parsing then formatting gives back the artifact id. */
  lemma FormatParse(artifactId: string)
    requires ParseArtifactId(artifactId).Success?
    ensures FormatArtifactId(ParseArtifactId(artifactId).value) == artifactId
  {
    var segments := Strings.Split(artifactId, ',');
    var amis := ParseArtifactId(artifactId).value;
    assert Seqs.Map(Render, amis) == segments;
  }

  /** Formatting then parsing gives back the AMIs, when no region holds a colon or comma and
      no id holds a comma. */
  lemma ParseFormat(amis: seq<Ami>)
    requires |amis| >= 1
    requires forall i :: 0 <= i < |amis| ==> ':' !in amis[i].region && ',' !in amis[i].region && ',' !in amis[i].id
    ensures ParseArtifactId(FormatArtifactId(amis)) == Success(amis)
  {
    var segments := Seqs.Map(Render, amis);
    forall i | 0 <= i < |segments|
      ensures ',' !in segments[i]
    {
      assert segments[i] == amis[i].region + [':'] + amis[i].id;
    }
    Strings.SplitJoin(segments, ',');
    ParseSegmentsRendered(amis);
  }

  lemma {:induction false} ParseSegmentsRendered(amis: seq<Ami>)
    requires forall i :: 0 <= i < |amis| ==> ':' !in amis[i].region
    ensures ParseSegments(Seqs.Map(Render, amis)) == Success(amis)
    decreases |amis|
  {
    if |amis| > 0 {
      var a := amis[0];
      Strings.CutAround(a.region, ':', a.id);
      assert Render(a) == a.region + [':'] + a.id;
      assert Seqs.Map(Render, amis)[1..] == Seqs.Map(Render, amis[1..]);
      ParseSegmentsRendered(amis[1..]);
      assert amis == [a] + amis[1..];
    }
  }
}

=== FILE: aws.dfy ===
/** Provider replies and the errors the plugin reports.

    The provider is never called: every API call is answered by a script given to the model,
    either a `Reply<T>` (a payload or a structured API error) or an `Ack` (calls whose payload
    the plugin ignores). */
module Aws {

  /** A structured provider error; `code` is what `awserrors.Matches` compares. */
  datatype ApiError = ApiError(code: string, message: string)

  /** The answer to a call whose payload the plugin reads. */
  datatype Reply<+T> = Answer(value: T) | Refused(error: ApiError)

  /** The answer to a call whose payload the plugin ignores. */
  datatype Ack = Ack | Nack(error: ApiError)

  /** Every error the modelled code returns, one constructor per message it formats. */
  datatype Error =
      /** A provider error passed through unchanged. */
    | Api(cause: ApiError)
      /** "unable to load SDK config, ..." */
    | SdkConfig(cause: ApiError)
      /** A Go runtime panic (an index out of range); the plugin process would crash. */
    | Panicked(what: string)
      /** helpers/ami.go: "single source image not located (found: %d images)" */
    | SingleImageNotLocated(found: nat)
      /** packer.MultiError aggregating provider errors. */
    | Multi(causes: seq<ApiError>)
      /** retry.RetryExhaustedError wrapping the last error. */
    | RetryExhausted(last: ApiError)
      /** "AMI copy failed: image %s transitioned to failed state on account %s" */
    | CopyReachedFailed(imageId: string, account: string)
      /** "Timed out waiting for image %s to copy to account %s" */
    | CopyTimedOut(imageId: string, account: string)
      /** "%d/%d AMI copies failed, manual reconciliation may be required" */
    | CopiesFailed(failed: nat, total: nat)
      /** "ami_users or targets must be set" */
    | NoCopyTargets
      /** strconv.ParseBool's syntax error on keep_artifact. */
    | InvalidBool(text: string)
      /** "Unexpected artifact type: %s\nCan only export from Amazon builders" (ami-copy);
          ami-delete spells it with a lower-case "unexpected". */
    | UnexpectedArtifact(builderId: string)
      /** "image builder not found" */
    | BuilderNotFound
      /** "bad imagebuilder state: %s" */
    | BadBuilderState(state: string)
      /** "failed to fetch address for ImageBuilder" (the create step); Run spells it
          "imageBuilder". */
    | NoBuilderAddress
      /** "failed to describe images: %w" */
    | DescribeImagesFailed(cause: ApiError)
      /** "ImageBuilder failed" */
    | ImageBuilderFailed
      /** "image_name is required" */
    | ImageNameRequired
      /** "account_ids is required" */
    | AccountIdsRequired
      /** "invalid timeout format: %v" */
    | InvalidTimeout(text: string)
      /** "timeout waiting for image %s to be available" */
    | WaitTimedOut(imageName: string)
      /** "error describing image: %v" */
    | DescribeImageFailed(cause: ApiError)
      /** "image creation failed: %s" */
    | ImageCreationFailed(reason: string)
      /** The governing context's error (cancelled or deadline exceeded). */
    | ContextDone
      /** "error sharing image with account %s: %v" */
    | ShareFailed(account: string, cause: ApiError)
      /** "error copying image to %s: %v" */
    | RegionCopyFailed(region: string, cause: ApiError)
      /** "error waiting for image in %s: %v" */
    | RegionWaitFailed(region: string, inner: Error)
      /** "error sharing image in %s: %v" */
    | RegionShareFailed(region: string, inner: Error)
      /** Errors from the credential configuration's own validation (`AccessConfig.Prepare`). */
    | Prepare(messages: seq<string>)
      /** "at least one search criterion must be provided (%s)", with the data source's own list
          of criteria in the parentheses. */
    | NoSearchCriteria(criteria: string)
      /** "error describing subnets: %v" / "error describing security groups: %v" /
          "error describing images: %v" */
    | DescribeFailed(cause: ApiError)
      /** "no subnet found matching the specified criteria" */
    | NoSubnetFound
      /** "multiple subnets matched the criteria (%d found); ..." */
    | MultipleSubnets(found: nat)
      /** "no security group found matching the specified criteria" */
    | NoSecurityGroupFound
      /** "multiple security groups matched the criteria (%d found); ..." */
    | MultipleSecurityGroups(found: nat)
      /** "a 'name' or 'name_regex' must be provided" */
    | NameOrRegexRequired
      /** "no image matching %s found" */
    | NoImageMatching(regex: string)
      /** "image %s not found" */
    | ImageNotFound(name: string)
      /** Several configuration errors reported together (packer.MultiError). */
    | Errors(all: seq<Error>)

  /** The position of the first key, from `i` on, whose call is refused, or the number of keys
      when none is: where a loop that stops at the first error stops. */
  function FirstNack(keys: seq<string>, reply: string -> Ack, i: nat): (k: nat)
    requires i <= |keys|
    ensures i <= k <= |keys|
    ensures forall l :: i <= l < k ==> reply(keys[l]).Ack?
    ensures k < |keys| ==> reply(keys[k]).Nack?
    decreases |keys| - i
  {
    if i == |keys| || reply(keys[i]).Nack? then i else FirstNack(keys, reply, i + 1)
  }
}

=== FILE: copy_engine.dfy ===
/** post-processor/ami-copy/copy.go, executeCopies: run every copy operation, collect one error
    per failed operation and one manifest entry per successful one, and write the manifest file
    when one is configured. The worker pool is modelled as a sequential fold in submission
    order; each operation only touches its own target, so the fold sees the same per-operation
    outcomes any interleaving would. */
module CopyEngine {
  import opened Wrappers
  import opened Aws
  import opened CopyTask

  /** AmiManifest: where a copy landed. */
  datatype Manifest = Manifest(accountId: string, region: string, imageId: string)

  /** What executeCopies leaves behind: the collected errors, the manifests of the successful
      copies, and the contents of the manifest file if one is written. */
  datatype CopiesOutcome = CopiesOutcome(
    errors: seq<Error>,
    manifests: seq<Manifest>,
    manifestFile: Option<seq<Manifest>>)

  /** The panic message of the worker pool when given a cap below one. */
  const PoolPanic: string := "max goroutines must be greater than zero"

  /** The worker pool accepts a goroutine cap of at least one and panics otherwise. */
  predicate PoolAccepts(cap: int) {
    cap >= 1
  }

  /** The cap as the source computes it: zero means unlimited, i.e. one worker per copy. */
  function WorkerCapAsWritten(concurrency: int, copies: nat): (cap: int)
    ensures concurrency == 0 ==> cap == copies
    ensures concurrency != 0 ==> cap == concurrency
  {
    if concurrency == 0 then copies else concurrency
  }

  /** With copy_concurrency left at zero and no copy operation built (every target skipped,
      no ami_users), the computed cap is zero and the pool panics instead of reporting that
      nothing was copied. */
  lemma NoCopiesPanicAsWritten()
    ensures WorkerCapAsWritten(0, 0) == 0 && !PoolAccepts(WorkerCapAsWritten(0, 0))
  {
  }

  /** The cap with "unlimited" never below one: every copy can run at once, and an empty batch
      still gets a valid pool. */
  function WorkerCap(concurrency: int, copies: nat): (cap: int)
    ensures concurrency == 0 ==> PoolAccepts(cap) && cap >= copies
    ensures concurrency != 0 ==> cap == concurrency
    ensures concurrency >= 0 ==> PoolAccepts(cap)
  {
    if concurrency == 0 then (if copies == 0 then 1 else copies) else concurrency
  }

  /** The corrected cap agrees with the source's whenever there is at least one copy, and is
      accepted by the pool for every non-negative setting. */
  lemma WorkerCapCorrects(concurrency: int, copies: nat)
    ensures copies >= 1 || concurrency != 0 ==> WorkerCap(concurrency, copies) == WorkerCapAsWritten(concurrency, copies)
    ensures concurrency >= 0 ==> PoolAccepts(WorkerCap(concurrency, copies))
  {
  }

  /** The outcome of each operation, run against its own scripted replies, in submission
      order. */
  function Outcomes(ops: seq<CopyOperation>, replies: nat -> TaskReplies): (outs: seq<Result<string, Error>>)
    ensures |outs| == |ops|
    ensures forall i :: 0 <= i < |ops| ==> outs[i] == Execute(ops[i], replies(i)).result
  {
    seq(|ops|, i requires 0 <= i < |ops| => Execute(ops[i], replies(i)).result)
  }

  /** The manifest entry of a successful copy: the target account, the source region and the
      copied image id. */
  function ManifestOf(op: CopyOperation, copiedId: string): Manifest {
    Manifest(op.targetAccountId, op.sourceRegion, copiedId)
  }

  /** The number of failed outcomes from position `from` on. */
  function FailedCount(outs: seq<Result<string, Error>>, from: nat): (n: nat)
    requires from <= |outs|
    ensures n <= |outs| - from
    ensures n == 0 <==> forall i :: from <= i < |outs| ==> outs[i].Success?
    decreases |outs| - from
  {
    if from == |outs| then 0
    else (if outs[from].Failure? then 1 else 0) + FailedCount(outs, from + 1)
  }

  /** The fold over the operations from `from` on, given their outcomes: each yields exactly
      one error or one manifest. */
  function Collect(ops: seq<CopyOperation>, outs: seq<Result<string, Error>>, from: nat)
    : (r: (seq<Error>, seq<Manifest>))
    requires |outs| == |ops| && from <= |ops|
    // one error per failed operation, one manifest per successful one
    ensures |r.0| == FailedCount(outs, from)
    ensures |r.1| == |ops| - from - FailedCount(outs, from)
    ensures forall i :: from <= i < |ops| && outs[i].Failure? ==> outs[i].error in r.0
    ensures forall e :: e in r.0 ==> exists i :: from <= i < |ops| && outs[i] == Failure(e)
    ensures forall i :: from <= i < |ops| && outs[i].Success? ==> ManifestOf(ops[i], outs[i].value) in r.1
    ensures forall m :: m in r.1 ==>
      exists i :: from <= i < |ops| && outs[i].Success? && m == ManifestOf(ops[i], outs[i].value)
    decreases |ops| - from
  {
    if from == |ops| then ([], [])
    else
      var (errs, manifests) := Collect(ops, outs, from + 1);
      match outs[from]
      case Failure(e) => ([e] + errs, manifests)
      case Success(id) => (errs, [ManifestOf(ops[from], id)] + manifests)
  }

  /** Running every operation in the pool and collecting the outcome, the manifest file
      written only when an output path is configured. */
  function RunAll(ops: seq<CopyOperation>, replies: nat -> TaskReplies, manifestOutput: string): (o: CopiesOutcome)
    ensures |o.errors| == FailedCount(Outcomes(ops, replies), 0)
    ensures |o.manifests| == |ops| - FailedCount(Outcomes(ops, replies), 0)
    ensures |o.errors| == 0 <==> forall i :: 0 <= i < |ops| ==> Outcomes(ops, replies)[i].Success?
    ensures forall i :: 0 <= i < |ops| && Outcomes(ops, replies)[i].Failure? ==>
      Outcomes(ops, replies)[i].error in o.errors
    ensures forall e :: e in o.errors ==> exists i :: 0 <= i < |ops| && Outcomes(ops, replies)[i] == Failure(e)
    ensures forall i :: 0 <= i < |ops| && Outcomes(ops, replies)[i].Success? ==>
      ManifestOf(ops[i], Outcomes(ops, replies)[i].value) in o.manifests
    ensures o.manifestFile == if manifestOutput != "" then Some(o.manifests) else None
  {
    var (errs, manifests) := Collect(ops, Outcomes(ops, replies), 0);
    CopiesOutcome(errs, manifests, if manifestOutput != "" then Some(manifests) else None)
  }

  /** executeCopies as written: the pool gets the cap WorkerCapAsWritten computes, so it
      panics for a negative copy_concurrency (which the configuration does not reject) and for
      copy_concurrency 0 with no operation to run; otherwise every operation runs. */
  function ExecuteCopies(ops: seq<CopyOperation>, replies: nat -> TaskReplies, concurrency: int, manifestOutput: string)
    : (r: Result<CopiesOutcome, Error>)
    ensures r.Failure? <==> concurrency < 0 || (concurrency == 0 && |ops| == 0)
    ensures r.Failure? ==> r.error == Panicked(PoolPanic)
    ensures r.Success? ==> r.value == RunAll(ops, replies, manifestOutput)
  {
    if !PoolAccepts(WorkerCapAsWritten(concurrency, |ops|)) then Failure(Panicked(PoolPanic))
    else Success(RunAll(ops, replies, manifestOutput))
  }

  /** executeCopies with the corrected cap: only a negative copy_concurrency makes the pool
      panic, and an empty batch reports that nothing failed. */
  function ExecuteCopiesCorrected(ops: seq<CopyOperation>, replies: nat -> TaskReplies, concurrency: int, manifestOutput: string)
    : (r: Result<CopiesOutcome, Error>)
    ensures r.Failure? <==> concurrency < 0
    ensures r.Failure? ==> r.error == Panicked(PoolPanic)
    ensures r.Success? ==> r.value == RunAll(ops, replies, manifestOutput)
  {
    if !PoolAccepts(WorkerCap(concurrency, |ops|)) then Failure(Panicked(PoolPanic))
    else Success(RunAll(ops, replies, manifestOutput))
  }

  /** The corrected batch behaves as written except for the empty batch with copy_concurrency
      0, where the written one panics and the corrected one reports no error and no manifest. */
  lemma ExecuteCopiesCorrects(ops: seq<CopyOperation>, replies: nat -> TaskReplies, concurrency: int, manifestOutput: string)
    ensures !(concurrency == 0 && |ops| == 0) ==>
      ExecuteCopiesCorrected(ops, replies, concurrency, manifestOutput) == ExecuteCopies(ops, replies, concurrency, manifestOutput)
    ensures concurrency == 0 && |ops| == 0 ==>
      ExecuteCopies(ops, replies, concurrency, manifestOutput) == Failure(Panicked(PoolPanic)) &&
      ExecuteCopiesCorrected(ops, replies, concurrency, manifestOutput).Success? &&
      ExecuteCopiesCorrected(ops, replies, concurrency, manifestOutput).value.errors == [] &&
      ExecuteCopiesCorrected(ops, replies, concurrency, manifestOutput).value.manifests == []
  {
  }

  /** A tags-only copy of an untagged image, without the availability wait, needs no provider
      at all: it succeeds with the source image id, and the batch reports no error and one
      manifest for it. */
  lemma TagsOnlyBatch(op: CopyOperation, replies: nat -> TaskReplies, concurrency: nat)
    requires op.tagsOnly && !op.ensureAvailable
    requires |op.sourceImage.tags| == 0 && |op.tags| == 0
    ensures ExecuteCopies([op], replies, concurrency, "") ==
      Success(CopiesOutcome([], [Manifest(op.targetAccountId, op.sourceRegion, op.sourceImageId)], None))
  {
    TagsOnlyUntagged(op, replies(0));
    var outs := Outcomes([op], replies);
    assert outs[0] == Success(op.sourceImageId);
    assert Collect([op], outs, 1) == ([], []);
    assert [op][0] == op;
    assert [ManifestOf(op, op.sourceImageId)] + [] == [ManifestOf(op, op.sourceImageId)];
    assert Collect([op], outs, 0) == ([], [ManifestOf(op, op.sourceImageId)]);
  }
}

=== FILE: copy_task.dfy ===
/** post-processor/ami-copy/copy.go: one copy operation. It copies the source AMI into the
    target account (unless only tags are to be propagated), tags the result with a bounded
    retry, and optionally waits for it to become available. */
module CopyTask {
  import opened Wrappers
  import opened Aws
  import opened Ec2
  import Seqs
  import AmiHelpers

  /** copyOperation. `tags` are the configured extra tags, as the entries of the Go map in the
      order its iteration visits them. */
  datatype CopyOperation = CopyOperation(
    sourceImage: Image,
    sourceRegion: string,
    sourceImageId: string,
    ensureAvailable: bool,
    tagsOnly: bool,
    tags: seq<(string, string)>,
    encrypted: bool,
    kmsKeyId: string,
    targetAccountId: string)

  /** The scripted answers one copy operation sees: the CopyImage answer (the new image id),
      the answer to each CreateTags attempt by attempt number, and the answer to each
      availability poll by poll number. */
  datatype TaskReplies = TaskReplies(
    copy: Reply<string>,
    tagAttempt: nat -> Ack,
    poll: nat -> Reply<seq<Image>>)

  /** The copied image id or an error, and the calls issued in order. */
  datatype TaskRun = TaskRun(result: Result<string, Error>, trace: seq<Call>)

  /** The retry policy's `Tries`. */
  const TagTries: nat := 11

  /** The availability wait's bound on polls (one minute apart in the source). */
  const AvailabilityPolls: nat := 30

  /** The only error code tagging retries on. */
  const UnauthorizedOperation: string := "UnauthorizedOperation"

  /** Error codes tagging treats as success: the resource is gone, so there is nothing to tag. */
  const NotFoundCodes: set<string> := {"InvalidAMIID.NotFound", "InvalidSnapshot.NotFound"}

  /** `n` copies of the call `c`. */
  function Repeat(c: Call, n: nat): (r: seq<Call>)
    ensures |r| == n && forall i :: 0 <= i < n ==> r[i] == c
  {
    if n == 0 then [] else [c] + Repeat(c, n - 1)
  }

  /** The CopyImage arguments: name and description default to empty, and a KMS key id is sent
      only when one is configured. */
  function CopyInput(op: CopyOperation): (input: CopyImageInput)
    ensures input.kmsKeyId.Some? <==> op.kmsKeyId != ""
    ensures input.kmsKeyId.Some? ==> input.kmsKeyId.value == op.kmsKeyId
    ensures input.sourceImageId == op.sourceImageId && input.sourceRegion == op.sourceRegion
  {
    CopyImageInput(
      op.sourceImage.name.GetOr(""),
      op.sourceImage.description.GetOr(""),
      op.sourceImageId,
      op.sourceRegion,
      op.encrypted,
      if op.kmsKeyId != "" then Some(op.kmsKeyId) else None)
  }

  function ExtraTag(entry: (string, string)): Tag {
    Tag(Some(entry.0), Some(entry.1))
  }

  /** The tags put on the copy: the source image's tags, then the configured extra tags. */
  function TagList(op: CopyOperation): (tags: seq<Tag>)
    ensures |tags| == |op.sourceImage.tags| + |op.tags|
    ensures tags[..|op.sourceImage.tags|] == op.sourceImage.tags
    ensures forall i :: 0 <= i < |op.tags| ==>
      tags[|op.sourceImage.tags| + i] == Tag(Some(op.tags[i].0), Some(op.tags[i].1))
  {
    op.sourceImage.tags + Seqs.Map(ExtraTag, op.tags)
  }

  /** How one CreateTags attempt ends under the retry policy. */
  datatype AttemptEnd = Tagged | Retryable(error: ApiError) | Fatal(error: ApiError)

  /** Success, a not-found error (counted as success), the retryable unauthorized error, or any
      other error. */
  function ClassifyTagReply(a: Ack): (e: AttemptEnd)
    ensures e.Tagged? <==> a.Ack? || a.error.code in NotFoundCodes
    ensures e.Retryable? <==> a.Nack? && a.error.code == UnauthorizedOperation
  {
    match a
    case Ack => Tagged
    case Nack(err) =>
      if err.code in NotFoundCodes then Tagged
      else if err.code == UnauthorizedOperation then Retryable(err)
      else Fatal(err)
  }

  /** The retry loop from attempt `attempt` on: the outcome and the number of attempts made in
      total (counting from attempt 0). */
  function RetryTags(reply: nat -> Ack, attempt: nat): (r: (Result<(), Error>, nat))
    requires attempt < TagTries
    ensures attempt < r.1 <= TagTries
    ensures forall k :: attempt <= k < r.1 - 1 ==> ClassifyTagReply(reply(k)).Retryable?
    ensures r.0.Success? <==> ClassifyTagReply(reply(r.1 - 1)).Tagged?
    ensures r.0.Failure? && ClassifyTagReply(reply(r.1 - 1)).Fatal? ==>
      r.0.error == Api(reply(r.1 - 1).error)
    ensures ClassifyTagReply(reply(r.1 - 1)).Retryable? ==>
      r.1 == TagTries && r.0 == Failure(RetryExhausted(reply(r.1 - 1).error))
    decreases TagTries - attempt
  {
    match ClassifyTagReply(reply(attempt))
    case Tagged => (Success(()), attempt + 1)
    case Fatal(e) => (Failure(Api(e)), attempt + 1)
    case Retryable(e) =>
      if attempt + 1 == TagTries then (Failure(RetryExhausted(e)), TagTries)
      else RetryTags(reply, attempt + 1)
  }

  /** tagImage: no call when there is nothing to tag; otherwise CreateTags on the copy with the
      full tag list, once per attempt of the retry loop. */
  function TagImage(op: CopyOperation, imageId: string, reply: nat -> Ack): (r: (Result<(), Error>, seq<Call>))
    ensures |TagList(op)| == 0 ==> r == (Success(()), [])
    ensures |TagList(op)| > 0 ==> 1 <= |r.1| <= TagTries
    // with something to tag, the outcome and the number of calls are the retry loop's
    ensures |TagList(op)| > 0 ==> r.0 == RetryTags(reply, 0).0 && |r.1| == RetryTags(reply, 0).1
    ensures forall i :: 0 <= i < |r.1| ==> r.1[i] == CreateTags(imageId, TagList(op))
  {
    var tags := TagList(op);
    if |tags| == 0 then (Success(()), [])
    else
      var (result, attempts) := RetryTags(reply, 0);
      (result, Repeat(CreateTags(imageId, tags), attempts))
  }

  /** A poll answer that is neither terminal nor an error: exactly one image, in a state other
      than available and failed. */
  predicate Undecided(reply: Reply<seq<Image>>) {
    reply.Answer? && |reply.value| == 1 && reply.value[0].state != Available && reply.value[0].state != Failed
  }

  /** The first poll from `i` on that decides the wait, or AvailabilityPolls when none of the
      remaining ones does. */
  function FirstDecided(poll: nat -> Reply<seq<Image>>, i: nat): (j: nat)
    requires i <= AvailabilityPolls
    ensures i <= j <= AvailabilityPolls
    ensures forall k :: i <= k < j ==> Undecided(poll(k))
    ensures j < AvailabilityPolls ==> !Undecided(poll(j))
    decreases AvailabilityPolls - i
  {
    if i == AvailabilityPolls || !Undecided(poll(i)) then i else FirstDecided(poll, i + 1)
  }

  /** waitForAvailable from poll `i` on: the outcome and the total number of polls made. Each
      poll locates exactly one image; a lookup error ends the wait, `available` succeeds,
      `failed` fails, and after the last allowed poll the wait times out. */
  function WaitForAvailable(imageId: string, account: string, poll: nat -> Reply<seq<Image>>, i: nat)
    : (r: (Result<(), Error>, nat))
    requires i <= AvailabilityPolls
    ensures i <= r.1 <= AvailabilityPolls
    ensures r.0 == Failure(CopyTimedOut(imageId, account)) <==>
      forall k :: i <= k < AvailabilityPolls ==> Undecided(poll(k))
    // the first deciding poll ends the wait, after that many polls
    ensures FirstDecided(poll, i) == AvailabilityPolls ==> r.1 == AvailabilityPolls
    ensures FirstDecided(poll, i) < AvailabilityPolls ==> r.1 == FirstDecided(poll, i) + 1
    // ... with the lookup's error
    ensures var j := FirstDecided(poll, i); var lookup := AmiHelpers.LocateSingleAmi(poll(j));
      j < AvailabilityPolls && lookup.Failure? ==> r.0 == Failure(lookup.error)
    // ... with success when the image is available
    ensures var j := FirstDecided(poll, i); var lookup := AmiHelpers.LocateSingleAmi(poll(j));
      j < AvailabilityPolls && lookup.Success? && lookup.value.state == Available ==> r.0 == Success(())
    // ... or with the failed image and the account when it failed
    ensures var j := FirstDecided(poll, i); var lookup := AmiHelpers.LocateSingleAmi(poll(j));
      j < AvailabilityPolls && lookup.Success? && lookup.value.state == Failed ==>
        r.0 == Failure(CopyReachedFailed(lookup.value.imageId, account))
    decreases AvailabilityPolls - i
  {
    if i == AvailabilityPolls then (Failure(CopyTimedOut(imageId, account)), AvailabilityPolls)
    else
      match AmiHelpers.LocateSingleAmi(poll(i))
      case Failure(e) => (Failure(e), i + 1)
      case Success(image) =>
        if image.state == Available then (Success(()), i + 1)
        else if image.state == Failed then (Failure(CopyReachedFailed(image.imageId, account)), i + 1)
        else WaitForAvailable(imageId, account, poll, i + 1)
  }

  /** The shape of the calls after the copy: tagging calls (only when there is something to
      tag, at most TagTries of them), then availability polls (only when requested). */
  predicate TagThenWait(op: CopyOperation, t: seq<Call>) {
    (forall i :: 0 <= i < |t| ==> t[i].CreateTags? || t[i].DescribeImages?) &&
    (forall i :: 0 <= i < |t| && t[i].CreateTags? ==> |TagList(op)| > 0 && i < TagTries) &&
    (forall i, j :: 0 <= i < j < |t| && t[i].DescribeImages? ==> t[j].DescribeImages?) &&
    (forall i :: 0 <= i < |t| && t[i].DescribeImages? ==> op.ensureAvailable) &&
    |t| <= TagTries + AvailabilityPolls
  }

  /** Tagging the image `id` succeeded, and so did the wait for it when one is requested. */
  predicate TaggedAndWaited(op: CopyOperation, id: string, env: TaskReplies) {
    TagImage(op, id, env.tagAttempt).0.Success? &&
    (op.ensureAvailable ==> WaitForAvailable(id, op.targetAccountId, env.poll, 0).0.Success?)
  }

  /** What follows the copy (or its absence): tag the image `id`, then, when requested, wait
      for it to become available. */
  function TagAndWait(op: CopyOperation, id: string, env: TaskReplies): (r: TaskRun)
    ensures TagThenWait(op, r.trace)
    ensures r.result.Success? ==> r.result.value == id
    // a tagging failure is returned, and no poll follows it
    ensures var tagged := TagImage(op, id, env.tagAttempt);
      tagged.0.Failure? ==> r.result == Failure(tagged.0.error) && r.trace == tagged.1
    // success exactly when tagging, and the wait if requested, succeeded
    ensures r.result.Success? <==> TaggedAndWaited(op, id, env)
    // a failed wait after successful tagging is returned
    ensures var tagged := TagImage(op, id, env.tagAttempt); var waited := WaitForAvailable(id, op.targetAccountId, env.poll, 0);
      tagged.0.Success? && op.ensureAvailable && waited.0.Failure? ==> r.result == Failure(waited.0.error)
  {
    var tagged := TagImage(op, id, env.tagAttempt);
    TagCallsShape(op, id, tagged.1);
    if tagged.0.Failure? then TaskRun(Failure(tagged.0.error), tagged.1)
    else if !op.ensureAvailable then TaskRun(Success(id), tagged.1)
    else
      var waited := WaitForAvailable(id, op.targetAccountId, env.poll, 0);
      var pollCalls := Repeat(DescribeImages(id), waited.1);
      TagsThenPolls(op, id, tagged.1, pollCalls);
      TaskRun(if waited.0.Success? then Success(id) else Failure(waited.0.error), tagged.1 + pollCalls)
  }

  /** The tagging calls alone have the shape of the calls after the copy. */
  lemma TagCallsShape(op: CopyOperation, id: string, tagCalls: seq<Call>)
    requires |TagList(op)| == 0 ==> tagCalls == []
    requires |tagCalls| <= TagTries
    requires forall i :: 0 <= i < |tagCalls| ==> tagCalls[i] == CreateTags(id, TagList(op))
    ensures TagThenWait(op, tagCalls)
  {
  }

  /** Tagging calls followed by the polls of a requested wait have the shape of the calls
      after the copy. */
  lemma TagsThenPolls(op: CopyOperation, id: string, tagCalls: seq<Call>, pollCalls: seq<Call>)
    requires op.ensureAvailable && TagThenWait(op, tagCalls) && |tagCalls| <= TagTries
    requires |pollCalls| <= AvailabilityPolls
    requires forall i :: 0 <= i < |tagCalls| ==> tagCalls[i].CreateTags?
    requires forall i :: 0 <= i < |pollCalls| ==> pollCalls[i] == DescribeImages(id)
    ensures TagThenWait(op, tagCalls + pollCalls)
  {
    var trace := tagCalls + pollCalls;
    assert forall i :: 0 <= i < |tagCalls| ==> trace[i] == tagCalls[i];
    assert forall i :: |tagCalls| <= i < |trace| ==> trace[i] == pollCalls[i - |tagCalls|];
  }

  /** The image tagging acts on: the source image with tags_only, otherwise the copy, which is
      unknown when the copy call was refused. */
  function CopiedId(op: CopyOperation, env: TaskReplies): Option<string> {
    if op.tagsOnly then Some(op.sourceImageId)
    else if env.copy.Answer? then Some(env.copy.value)
    else None
  }

  /** The shape of copyOperation.execute's calls: at most one copy call, first; then the
      tagging and waiting calls. */
  predicate ExecuteShape(op: CopyOperation, t: seq<Call>) {
    (op.tagsOnly ==> forall i :: 0 <= i < |t| ==> !t[i].CopyImage?) &&
    (!op.tagsOnly ==> |t| >= 1 && t[0] == CopyImage(CopyInput(op))) &&
    (forall i :: 0 < i < |t| ==> !t[i].CopyImage?) &&
    (forall i :: 0 <= i < |t| && t[i].CreateTags? ==>
      |TagList(op)| > 0 && i < (if op.tagsOnly then 0 else 1) + TagTries) &&
    (forall i, j :: 0 <= i < j < |t| && t[i].DescribeImages? ==> t[j].DescribeImages?) &&
    (forall i :: 0 <= i < |t| && t[i].DescribeImages? ==> op.ensureAvailable) &&
    |t| <= 1 + TagTries + AvailabilityPolls
  }

  /** Putting the copy call in front of the tagging and waiting calls gives the shape of
      execute's calls. */
  lemma CopyThenTagShape(op: CopyOperation, rest: seq<Call>)
    requires !op.tagsOnly && TagThenWait(op, rest)
    ensures ExecuteShape(op, [CopyImage(CopyInput(op))] + rest)
  {
    var t := [CopyImage(CopyInput(op))] + rest;
    assert forall i :: 0 < i < |t| ==> t[i] == rest[i - 1];
  }

  /** Without the copy call, the tagging and waiting calls already have execute's shape. */
  lemma TagOnlyShape(op: CopyOperation, rest: seq<Call>)
    requires op.tagsOnly && TagThenWait(op, rest)
    ensures ExecuteShape(op, rest)
  {
  }

  /** copyOperation.execute. */
  function Execute(op: CopyOperation, env: TaskReplies): (r: TaskRun)
    // the calls: with tags_only no copy call, otherwise exactly one, first, with the KMS key
    // only when configured; at most TagTries tagging calls, none when there is nothing to
    // tag; polls only when requested, only after tagging, at most AvailabilityPolls of them
    ensures ExecuteShape(op, r.trace)
    // a refused copy ends the operation
    ensures !op.tagsOnly && env.copy.Refused? ==>
      r.trace == [CopyImage(CopyInput(op))] && r.result == Failure(Api(env.copy.error))
    // success yields the image that was tagged: the copy, or with tags_only the source image
    ensures r.result.Success? ==> CopiedId(op, env) == Some(r.result.value)
    // once that image is known: a tagging failure is returned with no poll after it, and
    // success means tagging succeeded, and the wait too when requested
    ensures var id := CopiedId(op, env);
      id.Some? && TagImage(op, id.value, env.tagAttempt).0.Failure? ==>
        r.result == Failure(TagImage(op, id.value, env.tagAttempt).0.error) &&
        forall i :: 0 <= i < |r.trace| ==> !r.trace[i].DescribeImages?
    ensures CopiedId(op, env).Some? ==> (r.result.Success? <==> TaggedAndWaited(op, CopiedId(op, env).value, env))
  {
    if op.tagsOnly then
      var rest := TagAndWait(op, op.sourceImageId, env);
      TagOnlyShape(op, rest.trace);
      rest
    else
      var copy := CopyImage(CopyInput(op));
      match env.copy
      case Refused(e) => TaskRun(Failure(Api(e)), [copy])
      case Answer(id) =>
        var rest := TagAndWait(op, id, env);
        CopyThenTagShape(op, rest.trace);
        TaskRun(rest.result, [copy] + rest.trace)
  }

  /** A transient authorization failure on the first `k` tagging attempts followed by success
      ends in success after exactly `k + 1` attempts. */
  lemma {:induction false} RetryUntilAuthorized(reply: nat -> Ack, attempt: nat, k: nat)
    requires attempt <= k < TagTries
    requires forall j :: attempt <= j < k ==> reply(j).Nack? && reply(j).error.code == UnauthorizedOperation
    requires reply(k) == Ack
    ensures RetryTags(reply, attempt) == (Success(()), k + 1)
    decreases k - attempt
  {
    if attempt < k {
      assert ClassifyTagReply(reply(attempt)).Retryable?;
      RetryUntilAuthorized(reply, attempt + 1, k);
    } else {
      assert ClassifyTagReply(reply(attempt)) == Tagged;
    }
  }

  /** An authorization failure that never clears exhausts the retries after exactly TagTries
      attempts. */
  lemma {:induction false} RetryExhaustsOnUnauthorized(reply: nat -> Ack, attempt: nat, e: ApiError)
    requires attempt < TagTries
    requires e.code == UnauthorizedOperation
    requires forall j :: attempt <= j < TagTries ==> reply(j) == Nack(e)
    ensures RetryTags(reply, attempt) == (Failure(RetryExhausted(e)), TagTries)
    decreases TagTries - attempt
  {
    if attempt + 1 < TagTries {
      RetryExhaustsOnUnauthorized(reply, attempt + 1, e);
    }
  }

  /** A tags-only operation on an untagged image with no extra tags and no availability wait
      issues no call at all and yields the source image id. */
  lemma TagsOnlyUntagged(op: CopyOperation, env: TaskReplies)
    requires op.tagsOnly && !op.ensureAvailable
    requires |op.sourceImage.tags| == 0 && |op.tags| == 0
    ensures Execute(op, env) == TaskRun(Success(op.sourceImageId), [])
  {
    assert |TagList(op)| == 0;
  }
}

=== FILE: datasources.dfy ===
/** What the EC2 data sources (subnet and security group) share: the filter shape, the tag
    filters built from a tag map, the query they issue, the tag map they output, and how
    configuration errors are collected. */
module DataSources {
  import opened Wrappers
  import opened Aws
  import opened Ec2
  import Seqs

  /** An EC2 filter: a field name and the values accepted for it. */
  datatype Filter = Filter(name: string, values: seq<string>)

  /** The DescribeSubnets / DescribeSecurityGroups request: filters and explicit ids. */
  datatype Query = Query(filters: seq<Filter>, ids: seq<string>)

  /** The filter for one configured tag: `tag:<key>` with the tag's value as its only value. */
  function TagFilter(entry: (string, string)): (f: Filter)
    ensures f.name == "tag:" + entry.0 && f.values == [entry.1]
  {
    Filter("tag:" + entry.0, [entry.1])
  }

  /** One filter per configured tag, in the map's iteration order. */
  function TagFilters(tags: map<string, string>, order: seq<(string, string)>): (r: seq<Filter>)
    requires Seqs.EnumeratesMap(tags, order)
    ensures |r| == |order|
    ensures forall k :: k in tags ==> Filter("tag:" + k, [tags[k]]) in r
    ensures forall f :: f in r ==> exists k :: k in tags && f == Filter("tag:" + k, [tags[k]])
  {
    var r := Seqs.Map(TagFilter, order);
    assert forall k :: k in tags ==> Filter("tag:" + k, [tags[k]]) in r by {
      forall k | k in tags ensures Filter("tag:" + k, [tags[k]]) in r {
        var i :| 0 <= i < |order| && order[i] == (k, tags[k]);
        assert r[i] == TagFilter(order[i]);
      }
    }
    assert forall f :: f in r ==> exists k :: k in tags && f == Filter("tag:" + k, [tags[k]]) by {
      forall f | f in r ensures exists k :: k in tags && f == Filter("tag:" + k, [tags[k]]) {
        var i :| 0 <= i < |r| && r[i] == f;
        assert order[i] in order;
        assert f == Filter("tag:" + order[i].0, [tags[order[i].0]]);
      }
    }
    r
  }

  /** The tag filters of two iterations over the same map are the same filters, rearranged:
      the query does not depend on Go's map order. */
  lemma TagFiltersOrderIndependent(tags: map<string, string>, o1: seq<(string, string)>, o2: seq<(string, string)>)
    requires Seqs.EnumeratesMap(tags, o1) && Seqs.EnumeratesMap(tags, o2)
    ensures multiset(TagFilters(tags, o1)) == multiset(TagFilters(tags, o2))
  {
    Seqs.EnumerationsPermute(tags, o1, o2);
    Seqs.MapPermutation(TagFilter, o1, o2);
  }

  /** A tag with both its key and its value present. */
  predicate Complete(t: Tag) {
    t.key.Some? && t.value.Some?
  }

  /** A complete tag with key `k`. */
  predicate Carries(t: Tag, k: string) {
    Complete(t) && t.key.value == k
  }

  /** The value the last complete tag with key `k` carries, if any. */
  function LastValue(tags: seq<Tag>, k: string): (r: Option<string>)
    ensures r.None? <==> forall i :: 0 <= i < |tags| ==> !Carries(tags[i], k)
    ensures r.Some? ==>
      exists i :: 0 <= i < |tags| && Carries(tags[i], k) && r.value == tags[i].value.value &&
        forall j :: i < j < |tags| ==> !Carries(tags[j], k)
    decreases |tags|
  {
    if |tags| == 0 then None
    else
      var last := tags[|tags| - 1];
      if Carries(last, k) then
        assert Carries(tags[|tags| - 1], k);
        Some(last.value.value)
      else
        var init := tags[..|tags| - 1];
        var r := LastValue(init, k);
        assert forall i :: 0 <= i < |init| ==> init[i] == tags[i];
        assert r.Some? ==>
          exists i :: 0 <= i < |tags| && Carries(tags[i], k) && r.value == tags[i].value.value &&
            forall j :: i < j < |tags| ==> !Carries(tags[j], k)
        by {
          if r.Some? {
            var i :| 0 <= i < |init| && Carries(init[i], k) && r.value == init[i].value.value &&
              forall j :: i < j < |init| ==> !Carries(init[j], k);
            assert tags[i] == init[i];
            assert forall j :: i < j < |tags| ==> !Carries(tags[j], k);
          }
        }
        r
  }

  /** The output tag map, built by assigning every complete tag in order: it maps each key to
      the value of the last complete tag with that key. */
  function ExtractTags(tags: seq<Tag>): (r: map<string, string>)
    ensures forall k :: LastValue(tags, k) == (if k in r then Some(r[k]) else None)
    decreases |tags|
  {
    if |tags| == 0 then map[]
    else
      var init := tags[..|tags| - 1];
      var last := tags[|tags| - 1];
      var m := ExtractTags(init);
      if Complete(last) then m[last.key.value := last.value.value] else m
  }

  /** Configure of a data source, given the credential configuration's own validation errors,
      whether any search criterion is set and the error for none: the credential errors come
      first, then that error when no criterion is set, and nothing else. */
  function CheckCriteria(prepare: seq<Error>, hasCriteria: bool, missing: Error): (r: Option<Error>)
    ensures r.None? <==> |prepare| == 0 && hasCriteria
    ensures r.Some? ==>
      r.value.Errors? && |r.value.all| == |prepare| + (if hasCriteria then 0 else 1) &&
      r.value.all[..|prepare|] == prepare
    ensures r.Some? && !hasCriteria ==> r.value.all[|prepare|] == missing
  {
    var errors := prepare + (if hasCriteria then [] else [missing]);
    assert errors[..|prepare|] == prepare;
    Collect(errors)
  }

  /** Configuration errors are reported together; no error at all means success. */
  function Collect(errors: seq<Error>): (r: Option<Error>)
    ensures r.None? <==> |errors| == 0
    ensures r.Some? ==> r.value == Errors(errors)
  {
    if |errors| == 0 then None else Some(Errors(errors))
  }
}

=== FILE: ec2.dfy ===
/** The EC2 vocabulary the AMI helpers and post-processors use: images, their launch permissions
    and block-device mappings, tags, and the calls the plugin issues. */
module Ec2 {
  import opened Wrappers

  /** A tag as the SDK carries it: key and value are both nullable. */
  datatype Tag = Tag(key: Option<string>, value: Option<string>)

  /** The EC2 image states. */
  datatype ImageState =
    Pending | Available | Invalid | Deregistered | Transient | Failed | ImageError | Disabled

  /** The EBS part of a block-device mapping; the snapshot id is nullable. */
  datatype EbsBlockDevice = EbsBlockDevice(snapshotId: Option<string>)

  /** A block-device mapping; instance-store mappings carry no EBS part. */
  datatype BlockDeviceMapping = BlockDeviceMapping(ebs: Option<EbsBlockDevice>)

  /** The fields of an AMI description the plugin reads. */
  datatype Image = Image(
    imageId: string,
    name: Option<string>,
    description: Option<string>,
    state: ImageState,
    tags: seq<Tag>,
    mappings: seq<BlockDeviceMapping>)

  /** One entry of an image's launch-permission attribute. */
  datatype LaunchPermission = LaunchPermission(userId: Option<string>, group: string)

  /** The arguments of a CopyImage call. */
  datatype CopyImageInput = CopyImageInput(
    name: string,
    description: string,
    sourceImageId: string,
    sourceRegion: string,
    encrypted: bool,
    kmsKeyId: Option<string>)

  /** Whose credentials an identity lookup runs with: a configured target's or the source's. */
  datatype Principal = TargetPrincipal(target: nat) | SourcePrincipal

  /** A call issued to EC2 or STS, as recorded in a trace. */
  datatype Call =
    | DescribeImages(imageId: string)
    | DescribeLaunchPermissions(imageId: string)
    | AddLaunchPermission(imageId: string, account: string)
    | AddCreateVolumePermission(snapshotId: string, account: string)
    | CopyImage(input: CopyImageInput)
    | CreateTags(resource: string, tags: seq<Tag>)
    | DeregisterImage(imageId: string)
    | DeleteSnapshot(snapshotId: string)
    | GetCallerIdentity(principal: Principal)

  /** The EBS snapshot ids of the mappings that have one, in mapping order. */
  function SnapshotIds(mappings: seq<BlockDeviceMapping>): (ids: seq<string>)
    ensures |ids| <= |mappings|
    ensures forall i :: 0 <= i < |mappings| && HasSnapshot(mappings[i]) ==>
      mappings[i].ebs.value.snapshotId.value in ids
    decreases |mappings|
  {
    if |mappings| == 0 then []
    else
      var m := mappings[0];
      var rest := SnapshotIds(mappings[1..]);
      if HasSnapshot(m) then [m.ebs.value.snapshotId.value] + rest else rest
  }

  /** `bdm.Ebs != nil && bdm.Ebs.SnapshotId != nil` */
  predicate HasSnapshot(m: BlockDeviceMapping) {
    m.ebs.Some? && m.ebs.value.snapshotId.Some?
  }

  /** Every id listed is the snapshot id of some mapping that has one. */
  lemma {:induction false} SnapshotIdsFromMappings(mappings: seq<BlockDeviceMapping>, id: string)
    requires id in SnapshotIds(mappings)
    ensures exists i :: 0 <= i < |mappings| && HasSnapshot(mappings[i]) && id == mappings[i].ebs.value.snapshotId.value
    decreases |mappings|
  {
    var m := mappings[0];
    if HasSnapshot(m) && id == m.ebs.value.snapshotId.value {
      assert HasSnapshot(mappings[0]);
    } else {
      SnapshotIdsFromMappings(mappings[1..], id);
      var j :| 0 <= j < |mappings[1..]| && HasSnapshot(mappings[1..][j]) && id == mappings[1..][j].ebs.value.snapshotId.value;
      assert mappings[j + 1] == mappings[1..][j];
    }
  }

  /** The snapshot ids follow the mapping order: those of a concatenation are those of the
      first part followed by those of the second. */
  lemma {:induction false} SnapshotIdsAppend(a: seq<BlockDeviceMapping>, b: seq<BlockDeviceMapping>)
    ensures SnapshotIds(a + b) == SnapshotIds(a) + SnapshotIds(b)
    decreases |a|
  {
    if |a| > 0 {
      assert (a + b)[1..] == a[1..] + b;
      SnapshotIdsAppend(a[1..], b);
    } else {
      assert a + b == b;
    }
  }
}

=== FILE: image_builder.dfy ===
/** builder/appstream/step_image_builder_create.go: create the image builder and wait, strictly,
    until it runs and exposes an address; on cleanup, drive it leniently towards a deletable
    state and delete it. */
module ImageBuilderStep {
  import opened Wrappers
  import opened Aws
  import opened AppStream

  /** Seconds slept after each pending observation. */
  const PollInterval: nat := 5

  /** What the create step leaves behind: its action, the builder name it remembers for
      cleanup, the address stored in the state bag, the error stored there, the elapsed wait
      and the calls made. */
  datatype CreateRun = CreateRun(
    action: StepAction,
    name: string,
    ip: Option<string>,
    error: Option<Error>,
    elapsed: nat,
    trace: seq<Call>)

  /** `n` describe calls for the builder `name`. */
  function Describes(name: string, n: nat): (r: seq<Call>)
    ensures |r| == n && forall k :: 0 <= k < n ==> r[k] == DescribeImageBuilders(name)
  {
    if n == 0 then [] else [DescribeImageBuilders(name)] + Describes(name, n - 1)
  }

  /** StepImageBuilderCreate.Run, given the configured builder name, the create answer (the
      created builder's name) and the describe answers in order. */
  function CreateStep(requested: string, create: Reply<string>, obs: seq<BuilderReply>): (r: CreateRun)
    // a failed create halts and leaves no name, so cleanup has nothing to do
    ensures create.Refused? ==>
      r == CreateRun(Halt, "", None, Some(Api(create.error)), 0, [CreateImageBuilder(requested)])
    ensures |r.trace| >= 1 && r.trace[0] == CreateImageBuilder(requested)
    ensures create.Answer? ==> r.name == create.value
    ensures create.Answer? ==> forall k :: 1 <= k < |r.trace| ==> r.trace[k] == DescribeImageBuilders(create.value)
    // every pending observation costs exactly one poll interval
    ensures create.Answer? ==> r.elapsed == PollInterval * PendingPolls(AwaitRunning(obs, 0))
    ensures create.Answer? ==> |r.trace| == 1 + AwaitRunning(obs, 0).1
    // continue exactly when the builder ran and exposed an address, which is then stored
    ensures r.action == Continue <==>
      create.Answer? && AwaitRunning(obs, 0).0.Ready? && Address(AwaitRunning(obs, 0).0.builder).Some?
    ensures r.ip.Some? <==> r.action == Continue
    ensures r.action == Continue ==> r.ip == Address(AwaitRunning(obs, 0).0.builder) && r.error.None?
    ensures create.Answer? && AwaitRunning(obs, 0).0.Ready? && Address(AwaitRunning(obs, 0).0.builder).None? ==>
      r.action == Halt && r.error == Some(NoBuilderAddress)
    ensures create.Answer? && AwaitRunning(obs, 0).0.Halted? ==>
      r.action == Halt && r.error == Some(AwaitRunning(obs, 0).0.error)
    ensures r.action == StillPolling <==> create.Answer? && AwaitRunning(obs, 0).0.Polling?
  {
    match create
    case Refused(e) => CreateRun(Halt, "", None, Some(Api(e)), 0, [CreateImageBuilder(requested)])
    case Answer(name) =>
      var waited := AwaitRunning(obs, 0);
      var trace := [CreateImageBuilder(requested)] + Describes(name, waited.1);
      var elapsed := PollInterval * PendingPolls(waited);
      match waited.0
      case Polling => CreateRun(StillPolling, name, None, None, elapsed, trace)
      case Halted(e) => CreateRun(Halt, name, None, Some(e), elapsed, trace)
      case Ready(builder) =>
        match Address(builder)
        case None => CreateRun(Halt, name, None, Some(NoBuilderAddress), elapsed, trace)
        case Some(ip) => CreateRun(Continue, name, Some(ip), None, elapsed, trace)
  }

  /** What one cleanup observation calls for. */
  datatype Teardown = Finish | Delete | Stop | Wait

  /** The cleanup decision for one describe answer: a describe error or a vanished builder ends
      cleanup; stopped or failed is deletable; pending, stopping and snapshotting are waited
      out; running, and any state not named here, is stopped. */
  function TeardownAction(o: BuilderReply): (t: Teardown)
    ensures t == Finish <==> o.Refused? || |o.value| == 0
    ensures t == Delete <==> o.Answer? && |o.value| > 0 && o.value[0].state in {Stopped, Failed}
    ensures t == Wait <==> o.Answer? && |o.value| > 0 && o.value[0].state in {Pending, Stopping, Snapshotting}
    ensures o.Answer? && |o.value| > 0 && o.value[0].state == Running ==> t == Stop
  {
    match o
    case Refused(_) => Finish
    case Answer(builders) =>
      if |builders| == 0 then Finish
      else match builders[0].state
        case Stopped => Delete
        case Failed => Delete
        case Pending => Wait
        case Stopping => Wait
        case Snapshotting => Wait
        case Running => Stop
        case _ => Stop
  }

  /** A cleanup observation that keeps the loop going. */
  predicate KeepsGoing(o: BuilderReply) {
    TeardownAction(o) == Stop || TeardownAction(o) == Wait
  }

  /** The position of the first observation, from `i` on, that ends the cleanup loop, or the
      number of observations when none does. */
  function FirstSettled(obs: seq<BuilderReply>, i: nat): (k: nat)
    requires i <= |obs|
    ensures i <= k <= |obs|
    ensures forall l :: i <= l < k ==> KeepsGoing(obs[l])
    ensures k < |obs| ==> !KeepsGoing(obs[k])
    decreases |obs| - i
  {
    if i == |obs| || !KeepsGoing(obs[i]) then i else FirstSettled(obs, i + 1)
  }

  /** The calls of one cleanup turn: a describe, then a stop for a running or unknown state or
      the delete for a stopped or failed one, and nothing more otherwise. */
  function TurnCalls(name: string, o: BuilderReply): (calls: seq<Call>)
    ensures 1 <= |calls| <= 2 && calls[0] == DescribeImageBuilders(name)
    ensures StopImageBuilder(name) in calls <==> TeardownAction(o) == Stop
    ensures DeleteImageBuilder(name) in calls <==> TeardownAction(o) == Delete
  {
    match TeardownAction(o)
    case Stop => [DescribeImageBuilders(name), StopImageBuilder(name)]
    case Delete => [DescribeImageBuilders(name), DeleteImageBuilder(name)]
    case _ => [DescribeImageBuilders(name)]
  }

  /** The calls of the cleanup turns for observations `i` to `e - 1`, one after the other. */
  function TurnsCalls(name: string, obs: seq<BuilderReply>, i: nat, e: nat): (calls: seq<Call>)
    requires i <= e <= |obs|
    ensures i < e ==> |calls| >= 1 && calls[0] == DescribeImageBuilders(name)
    decreases e - i
  {
    if i == e then [] else TurnCalls(name, obs[i]) + TurnsCalls(name, obs, i + 1, e)
  }

  /** How many observations from `i` on the cleanup loop consumes: through the first that ends
      it, or all of them. */
  function Turns(obs: seq<BuilderReply>, i: nat): (e: nat)
    requires i <= |obs|
    ensures i <= e <= |obs|
  {
    var k := FirstSettled(obs, i);
    if k < |obs| then k + 1 else k
  }

  /** A turn that keeps the loop going is followed by the rest of the turns; one that ends it is
      the last. */
  lemma TurnsStep(name: string, obs: seq<BuilderReply>, i: nat)
    requires i < |obs|
    ensures KeepsGoing(obs[i]) ==>
      TurnsCalls(name, obs, i, Turns(obs, i)) == TurnCalls(name, obs[i]) + TurnsCalls(name, obs, i + 1, Turns(obs, i + 1))
    ensures !KeepsGoing(obs[i]) ==> TurnsCalls(name, obs, i, Turns(obs, i)) == TurnCalls(name, obs[i])
  {
    if KeepsGoing(obs[i]) {
      assert Turns(obs, i) == Turns(obs, i + 1);
    } else {
      assert Turns(obs, i) == i + 1;
      assert TurnsCalls(name, obs, i + 1, i + 1) == [];
    }
  }

  /** What cleanup did: the calls made, whether it ended (rather than the observations running
      out), and whether it issued the delete. Stop and delete errors are only logged, so
      nothing else comes out. */
  datatype CleanupRun = CleanupRun(trace: seq<Call>, finished: bool, deleted: bool)

  /** The cleanup loop from observation `i` on. */
  function CleanupFrom(name: string, obs: seq<BuilderReply>, i: nat): (r: CleanupRun)
    requires i <= |obs|
    ensures r.finished <==> FirstSettled(obs, i) < |obs|
    ensures r.deleted <==> r.finished && TeardownAction(obs[FirstSettled(obs, i)]) == Delete
    ensures r.deleted ==>
      |r.trace| >= 2 && r.trace[|r.trace| - 1] == DeleteImageBuilder(name) &&
      r.trace[|r.trace| - 2] == DescribeImageBuilders(name)
    ensures i < |obs| ==> |r.trace| >= 1 && r.trace[0] == DescribeImageBuilders(name)
    decreases |obs| - i
  {
    if i == |obs| then CleanupRun([], false, false)
    else
      var describe := [DescribeImageBuilders(name)];
      match TeardownAction(obs[i])
      case Finish => CleanupRun(describe, true, false)
      case Delete => CleanupRun(describe + [DeleteImageBuilder(name)], true, true)
      case Stop =>
        var rest := CleanupFrom(name, obs, i + 1);
        var trace := describe + [StopImageBuilder(name)] + rest.trace;
        CleanupRun(trace, rest.finished, rest.deleted)
      case Wait =>
        var rest := CleanupFrom(name, obs, i + 1);
        var trace := describe + rest.trace;
        CleanupRun(trace, rest.finished, rest.deleted)
  }

  /** One turn of cleanup makes its calls, then the loop goes on only if the turn keeps it going. */
  lemma CleanupStep(name: string, obs: seq<BuilderReply>, i: nat)
    requires i < |obs|
    ensures KeepsGoing(obs[i]) ==> CleanupFrom(name, obs, i).trace == TurnCalls(name, obs[i]) + CleanupFrom(name, obs, i + 1).trace
    ensures !KeepsGoing(obs[i]) ==> CleanupFrom(name, obs, i).trace == TurnCalls(name, obs[i])
  {
    var d := [DescribeImageBuilders(name)];
    if TeardownAction(obs[i]) == Stop {
      assert d + [StopImageBuilder(name)] + CleanupFrom(name, obs, i + 1).trace ==
        [DescribeImageBuilders(name), StopImageBuilder(name)] + CleanupFrom(name, obs, i + 1).trace;
    }
  }

  /** Cleanup from observation `i` on makes the calls of every turn up to and including the one
      that ends the loop, in order, and no others: in particular a stop for each running or
      unknown state it sees on the way. */
  lemma {:induction false} CleanupTrace(name: string, obs: seq<BuilderReply>, i: nat)
    requires i <= |obs|
    ensures CleanupFrom(name, obs, i).trace == TurnsCalls(name, obs, i, Turns(obs, i))
    decreases |obs| - i
  {
    if i < |obs| {
      TurnsStep(name, obs, i);
      CleanupStep(name, obs, i);
      if KeepsGoing(obs[i]) {
        CleanupTrace(name, obs, i + 1);
      }
    }
  }

  /** The calls of a cleanup run: only describes, stops and deletes; a stop directly after a
      describe; a delete only as the last call, and only when the run deleted. */
  predicate CleanupCalls(name: string, t: seq<Call>, deleted: bool) {
    (forall k :: 0 <= k < |t| ==> t[k] in {DescribeImageBuilders(name), StopImageBuilder(name), DeleteImageBuilder(name)}) &&
    (forall k :: 0 <= k < |t| && t[k].StopImageBuilder? ==> k > 0 && t[k - 1] == DescribeImageBuilders(name)) &&
    (forall k :: 0 <= k < |t| && t[k].DeleteImageBuilder? ==> k == |t| - 1 && deleted)
  }

  /** A describe, possibly followed by a stop, can go in front of a cleanup run's calls. */
  lemma CleanupCallsPrefix(name: string, stop: bool, rest: seq<Call>, deleted: bool)
    requires CleanupCalls(name, rest, deleted)
    ensures CleanupCalls(name, [DescribeImageBuilders(name)] + (if stop then [StopImageBuilder(name)] else []) + rest, deleted)
  {
    var prefix := [DescribeImageBuilders(name)] + (if stop then [StopImageBuilder(name)] else []);
    var t := prefix + rest;
    assert forall k :: |prefix| <= k < |t| ==> t[k] == rest[k - |prefix|];
    assert forall k :: 0 <= k < |prefix| ==> t[k] == prefix[k];
  }

  /** Every cleanup run's calls have that shape. */
  lemma {:induction false} CleanupShape(name: string, obs: seq<BuilderReply>, i: nat)
    requires i <= |obs|
    ensures CleanupCalls(name, CleanupFrom(name, obs, i).trace, CleanupFrom(name, obs, i).deleted)
    decreases |obs| - i
  {
    if i < |obs| {
      match TeardownAction(obs[i])
      case Finish =>
      case Delete =>
      case Stop =>
        var rest := CleanupFrom(name, obs, i + 1);
        CleanupShape(name, obs, i + 1);
        CleanupCallsPrefix(name, true, rest.trace, rest.deleted);
      case Wait =>
        var rest := CleanupFrom(name, obs, i + 1);
        CleanupShape(name, obs, i + 1);
        CleanupCallsPrefix(name, false, rest.trace, rest.deleted);
    }
  }

  /** The whole cleanup loop deletes exactly when the first observation that ends it calls for
      the delete, and runs out exactly when every observation keeps it going. */
  lemma CleanupOutcome(name: string, obs: seq<BuilderReply>)
    ensures CleanupFrom(name, obs, 0).deleted <==>
      exists k :: 0 <= k < |obs| && TeardownAction(obs[k]) == Delete && forall l :: 0 <= l < k ==> KeepsGoing(obs[l])
    ensures !CleanupFrom(name, obs, 0).finished <==> forall k :: 0 <= k < |obs| ==> KeepsGoing(obs[k])
  {
    var k := FirstSettled(obs, 0);
    assert k < |obs| ==> TeardownAction(obs[k]) == Finish || TeardownAction(obs[k]) == Delete;
  }

  /** StepImageBuilderCreate.Cleanup: nothing to do when no builder was created. */
  function Cleanup(name: string, obs: seq<BuilderReply>): (r: CleanupRun)
    ensures name == "" ==> r == CleanupRun([], true, false)
    ensures name != "" ==> (r.deleted <==>
      exists k :: 0 <= k < |obs| && TeardownAction(obs[k]) == Delete && forall l :: 0 <= l < k ==> KeepsGoing(obs[l]))
    ensures name != "" ==> (!r.finished <==> forall k :: 0 <= k < |obs| ==> KeepsGoing(obs[k]))
    ensures forall k :: 0 <= k < |r.trace| && r.trace[k].DeleteImageBuilder? ==> k == |r.trace| - 1
    ensures name != "" ==> r.trace == TurnsCalls(name, obs, 0, Turns(obs, 0))
  {
    if name == "" then CleanupRun([], true, false)
    else
      CleanupOutcome(name, obs);
      CleanupShape(name, obs, 0);
      CleanupTrace(name, obs, 0);
      CleanupFrom(name, obs, 0)
  }

  /** A failed create leaves nothing for cleanup to do, whatever the provider would say. */
  lemma CreateFailureCleansNothing(requested: string, create: Reply<string>, obs: seq<BuilderReply>, later: seq<BuilderReply>)
    requires create.Refused?
    ensures Cleanup(CreateStep(requested, create, obs).name, later).trace == []
  {
  }

  /** Teardown of a running builder: stop it, wait while it stops, delete it once stopped. */
  lemma {:induction false} TeardownOfRunningBuilder(name: string, b: ImageBuilder)
    requires name != ""
    ensures Cleanup(name, [Answer([b.(state := Running)]), Answer([b.(state := Stopping)]), Answer([b.(state := Stopped)])]) ==
      CleanupRun([DescribeImageBuilders(name), StopImageBuilder(name), DescribeImageBuilders(name),
                  DescribeImageBuilders(name), DeleteImageBuilder(name)], true, true)
  {
    var obs: seq<BuilderReply> := [Answer([b.(state := Running)]), Answer([b.(state := Stopping)]), Answer([b.(state := Stopped)])];
    var d := DescribeImageBuilders(name);
    assert CleanupFrom(name, obs, 2) == CleanupRun([d, DeleteImageBuilder(name)], true, true);
    assert CleanupFrom(name, obs, 1) == CleanupRun([d] + [d, DeleteImageBuilder(name)], true, true);
  }
}

=== FILE: image_snapshot.dfy ===
/** builder/appstream/step_image_builder_snapshot.go: after the image capture is triggered on the
    builder, poll the captured image until it is available or failed. The source reads the
    first listed image without checking that one is listed; `SnapshotStepAsWritten` keeps that
    behaviour and `SnapshotStep` treats an empty listing as "not yet listed". */
module ImageSnapshotStep {
  import opened Wrappers
  import opened Aws
  import opened AppStream

  /** The image name the step polls for; the source leaves it as a placeholder. */
  const PlaceholderName: string := "TODO-IMPLEMENT-NAME"

  /** Seconds slept after each observation that waits. */
  const PollInterval: nat := 5

  /** The Go runtime's message for reading the first element of an empty slice. */
  const EmptyIndexPanic: string := "index out of range [0] with length 0"

  /** One answer to DescribeImages. */
  type ImageReply = Reply<seq<Image>>

  /** The step's action, the error stored in the state bag, the elapsed wait in seconds and
      the number of describe calls made. */
  datatype SnapshotRun = SnapshotRun(action: StepAction, error: Option<Error>, elapsed: nat, polls: nat)

  /** The poll loop as written, from observation `i` on with `elapsed` seconds waited so far:
      a describe error halts, the first image's state decides, pending sleeps and polls again,
      any other state polls again at once. */
  function SnapshotStepAsWritten(obs: seq<ImageReply>, i: nat, elapsed: nat): (r: SnapshotRun)
    requires i <= |obs|
    ensures i <= r.polls <= |obs| && r.elapsed >= elapsed
    ensures r.action == StillPolling <==> r.polls == |obs| && r.error.None? && r.action != Continue
    ensures r.action == Continue ==>
      i < r.polls && obs[r.polls - 1].Answer? && |obs[r.polls - 1].value| > 0 && obs[r.polls - 1].value[0].state == Available
    ensures r.error == Some(Panicked(EmptyIndexPanic)) ==> i < r.polls && obs[r.polls - 1] == Answer([])
    ensures (exists k :: i <= k < |obs| && obs[k] == Answer([]) && forall l :: i <= l < k ==> !Decisive(obs[l])) ==>
      r.error == Some(Panicked(EmptyIndexPanic))
    decreases |obs| - i
  {
    if i == |obs| then SnapshotRun(StillPolling, None, elapsed, i)
    else
      match obs[i]
      case Refused(e) => SnapshotRun(Halt, Some(DescribeImagesFailed(e)), elapsed, i + 1)
      case Answer(images) =>
        if |images| == 0 then SnapshotRun(Halt, Some(Panicked(EmptyIndexPanic)), elapsed, i + 1)
        else match images[0].state
          case Available => SnapshotRun(Continue, None, elapsed, i + 1)
          case ImageFailed => SnapshotRun(Halt, Some(ImageBuilderFailed), elapsed, i + 1)
          case ImagePending => SnapshotStepAsWritten(obs, i + 1, elapsed + PollInterval)
          case _ => SnapshotStepAsWritten(obs, i + 1, elapsed)
  }

  /** An observation that ends the corrected loop: a describe error, or a listed image that is
      available or failed. */
  predicate Decisive(o: ImageReply) {
    o.Refused? || (|o.value| > 0 && o.value[0].state in {Available, ImageFailed})
  }

  /** An observation after which the loop sleeps: the image is pending or not yet listed. */
  predicate Sleeps(o: ImageReply) {
    o.Answer? && (|o.value| == 0 || o.value[0].state == ImagePending)
  }

  /** The number of sleeping observations among positions `i` to `j`. */
  function SleepCount(obs: seq<ImageReply>, i: nat, j: nat): nat
    requires i <= j <= |obs|
    decreases j - i
  {
    if i == j then 0 else (if Sleeps(obs[i]) then 1 else 0) + SleepCount(obs, i + 1, j)
  }

  /** The poll loop with an empty listing treated like a pending image. */
  function SnapshotStep(obs: seq<ImageReply>, i: nat, elapsed: nat): (r: SnapshotRun)
    requires i <= |obs|
    ensures i <= r.polls <= |obs|
    ensures r.error.Some? ==> !r.error.value.Panicked?
    ensures r.action == StillPolling <==> forall k :: i <= k < |obs| ==> !Decisive(obs[k])
    ensures r.action == StillPolling ==> r.polls == |obs| && r.error.None?
    ensures r.action != StillPolling ==>
      i < r.polls && Decisive(obs[r.polls - 1]) && forall k :: i <= k < r.polls - 1 ==> !Decisive(obs[k])
    ensures r.action == Continue <==>
      r.action != StillPolling && obs[r.polls - 1].Answer? && obs[r.polls - 1].value[0].state == Available
    ensures r.action == Halt && obs[r.polls - 1].Refused? ==> r.error == Some(DescribeImagesFailed(obs[r.polls - 1].error))
    ensures r.action == Halt && obs[r.polls - 1].Answer? ==> r.error == Some(ImageBuilderFailed)
    ensures r.action == Continue ==> r.error.None?
    ensures r.elapsed == elapsed + PollInterval * SleepCount(obs, i, r.polls)
    decreases |obs| - i
  {
    if i == |obs| then SnapshotRun(StillPolling, None, elapsed, i)
    else
      match obs[i]
      case Refused(e) => SnapshotRun(Halt, Some(DescribeImagesFailed(e)), elapsed, i + 1)
      case Answer(images) =>
        if |images| == 0 then
          assert !Decisive(obs[i]) && Sleeps(obs[i]);
          SnapshotStep(obs, i + 1, elapsed + PollInterval)
        else match images[0].state
          case Available => SnapshotRun(Continue, None, elapsed, i + 1)
          case ImageFailed => SnapshotRun(Halt, Some(ImageBuilderFailed), elapsed, i + 1)
          case ImagePending =>
            assert !Decisive(obs[i]) && Sleeps(obs[i]);
            SnapshotStep(obs, i + 1, elapsed + PollInterval)
          case _ =>
            assert !Decisive(obs[i]) && !Sleeps(obs[i]);
            SnapshotStep(obs, i + 1, elapsed)
  }

  /** Reading the first image of an empty listing crashes the step as written, where the
      corrected loop keeps waiting for the image to be listed. */
  lemma EmptyListingPanicsAsWritten()
    ensures SnapshotStepAsWritten([Answer([])], 0, 0).error == Some(Panicked(EmptyIndexPanic))
    ensures SnapshotStep([Answer([])], 0, 0) == SnapshotRun(StillPolling, None, PollInterval, 1)
  {
  }

  /** As long as every answer lists an image, the corrected loop behaves exactly as written. */
  lemma {:induction false} CorrectedAgreesWhenListed(obs: seq<ImageReply>, i: nat, elapsed: nat)
    requires i <= |obs|
    requires forall k :: i <= k < |obs| ==> obs[k].Refused? || |obs[k].value| > 0
    ensures SnapshotStep(obs, i, elapsed) == SnapshotStepAsWritten(obs, i, elapsed)
    decreases |obs| - i
  {
    if i < |obs| && obs[i].Answer? && obs[i].value[0].state !in {Available, ImageFailed} {
      var next := if obs[i].value[0].state == ImagePending then elapsed + PollInterval else elapsed;
      CorrectedAgreesWhenListed(obs, i + 1, next);
    }
  }
}

=== FILE: security_group.dfy ===
/** datasource/security-group/datasource.go: validate the search criteria, build the
    DescribeSecurityGroups request (including the group-name rule) and require exactly one
    match. */
module SecurityGroupSource {
  import opened Wrappers
  import opened Aws
  import opened Ec2
  import Seqs
  import opened DataSources

  /** The data source's settings; an empty string means "not set". */
  datatype GroupConfig = GroupConfig(
    id: string,
    name: string,
    vpcId: string,
    tags: map<string, string>,
    filters: seq<Filter>)

  /** At least one criterion to search by. */
  predicate HasSearchCriteria(c: GroupConfig) {
    c.id != "" || c.name != "" || c.vpcId != "" || |c.tags| > 0 || |c.filters| > 0
  }

  /** Configure, given the credential configuration's own validation errors. */
  function Configure(c: GroupConfig, prepare: seq<Error>): (r: Option<Error>)
    ensures r.None? <==> |prepare| == 0 && HasSearchCriteria(c)
    ensures r.Some? ==>
      r.value.Errors? && |r.value.all| == |prepare| + (if HasSearchCriteria(c) then 0 else 1) &&
      r.value.all[..|prepare|] == prepare
    // with no id, name, vpc id, tag or filter the one missing-criterion error follows
    ensures c.id == "" && c.name == "" && c.vpcId == "" && |c.tags| == 0 && |c.filters| == 0 ==>
      r == Some(Errors(prepare + [NoSearchCriteria("id, name, vpc_id, tags, or filters")]))
  {
    CheckCriteria(prepare, HasSearchCriteria(c), NoSearchCriteria("id, name, vpc_id, tags, or filters"))
  }

  /** buildFilters: the vpc id when set, then one filter per tag in the map's iteration order,
      then the custom filters unchanged. */
  function BuildFilters(c: GroupConfig, tagOrder: seq<(string, string)>): (r: seq<Filter>)
    requires Seqs.EnumeratesMap(c.tags, tagOrder)
    ensures c.vpcId != "" ==> |r| >= 1 && r[0] == Filter("vpc-id", [c.vpcId])
    ensures |r| == (if c.vpcId != "" then 1 else 0) + |tagOrder| + |c.filters|
    ensures r[|r| - |c.filters|..] == c.filters
    ensures r[(if c.vpcId != "" then 1 else 0)..|r| - |c.filters|] == TagFilters(c.tags, tagOrder)
    ensures forall k :: k in c.tags ==> Filter("tag:" + k, [c.tags[k]]) in r
  {
    var vpc := if c.vpcId != "" then [Filter("vpc-id", [c.vpcId])] else [];
    var tagged := TagFilters(c.tags, tagOrder);
    Seqs.InAppend(vpc, tagged, c.filters);
    vpc + tagged + c.filters
  }

  /** Some filter is named `name`. */
  predicate HasFilterNamed(filters: seq<Filter>, name: string) {
    exists i :: 0 <= i < |filters| && filters[i].name == name
  }

  /** Whether Execute appends a group-name filter: a name without an id, and no group-name
      filter yet. */
  predicate AddsNameFilter(c: GroupConfig, filters: seq<Filter>) {
    c.name != "" && c.id == "" && !HasFilterNamed(filters, "group-name")
  }

  /** The DescribeSecurityGroups request: the id, when set, as the only group id; the built
      filters, with a group-name filter appended when the name is the way to find the group. */
  function GroupQuery(c: GroupConfig, tagOrder: seq<(string, string)>): (q: Query)
    requires Seqs.EnumeratesMap(c.tags, tagOrder)
    ensures q.ids == (if c.id != "" then [c.id] else [])
    ensures AddsNameFilter(c, BuildFilters(c, tagOrder)) ==>
      q.filters == BuildFilters(c, tagOrder) + [Filter("group-name", [c.name])]
    ensures !AddsNameFilter(c, BuildFilters(c, tagOrder)) ==> q.filters == BuildFilters(c, tagOrder)
    // a group-name filter is present exactly when one was configured or the name is used
    ensures HasFilterNamed(q.filters, "group-name") <==>
      HasFilterNamed(BuildFilters(c, tagOrder), "group-name") || (c.name != "" && c.id == "")
  {
    var built := BuildFilters(c, tagOrder);
    var ids := if c.id != "" then [c.id] else [];
    if AddsNameFilter(c, built) then
      var filters := built + [Filter("group-name", [c.name])];
      assert filters[|built|].name == "group-name";
      assert forall i :: 0 <= i < |built| ==> filters[i] == built[i];
      Query(filters, ids)
    else Query(built, ids)
  }

  /** With an id set, the name plays no part in the request. */
  lemma IdOverridesName(c: GroupConfig, tagOrder: seq<(string, string)>, name: string)
    requires Seqs.EnumeratesMap(c.tags, tagOrder)
    requires c.id != ""
    ensures GroupQuery(c.(name := name), tagOrder) == GroupQuery(c, tagOrder)
  {
    assert BuildFilters(c.(name := name), tagOrder) == BuildFilters(c, tagOrder);
  }

  /** The fields of a security-group description the data source reads. */
  datatype SecurityGroup = SecurityGroup(
    groupId: Option<string>,
    groupArn: Option<string>,
    groupName: Option<string>,
    vpcId: Option<string>,
    tags: seq<Tag>)

  /** Exactly one match is required. */
  function SelectOne(groups: seq<SecurityGroup>): (r: Result<SecurityGroup, Error>)
    ensures r.Success? <==> |groups| == 1
    ensures r.Success? ==> r.value == groups[0]
    ensures |groups| == 0 ==> r == Failure(NoSecurityGroupFound)
    ensures |groups| > 1 ==> r == Failure(MultipleSecurityGroups(|groups|))
  {
    if |groups| == 0 then Failure(NoSecurityGroupFound)
    else if |groups| > 1 then Failure(MultipleSecurityGroups(|groups|))
    else Success(groups[0])
  }

  /** The outputs the model keeps; absent values read as empty strings. */
  datatype GroupOutput = GroupOutput(id: string, arn: string, name: string, vpcId: string, region: string, tags: map<string, string>)

  /** The outputs of the matched group. */
  function Output(g: SecurityGroup, region: string): (o: GroupOutput)
    ensures o.id == g.groupId.GetOr("") && o.region == region && o.tags == ExtractTags(g.tags)
  {
    GroupOutput(g.groupId.GetOr(""), g.groupArn.GetOr(""), g.groupName.GetOr(""), g.vpcId.GetOr(""), region, ExtractTags(g.tags))
  }

  /** The environment of Execute: loading the credentials, their region, the tag map's
      iteration order and the DescribeSecurityGroups answer. */
  datatype GroupEnv = GroupEnv(awsConfig: Ack, region: string, tagOrder: seq<(string, string)>, describe: Reply<seq<SecurityGroup>>)

  datatype GroupRun = GroupRun(result: Result<GroupOutput, Error>, query: Option<Query>)

  /** Execute. A credential error is passed through unchanged. */
  function Execute(c: GroupConfig, env: GroupEnv): (r: GroupRun)
    requires Seqs.EnumeratesMap(c.tags, env.tagOrder)
    ensures env.awsConfig.Nack? ==> r == GroupRun(Failure(Api(env.awsConfig.error)), None)
    ensures env.awsConfig.Ack? ==> r.query == Some(GroupQuery(c, env.tagOrder))
    ensures env.awsConfig.Ack? && env.describe.Refused? ==> r.result == Failure(DescribeFailed(env.describe.error))
    ensures r.result.Success? <==> env.awsConfig.Ack? && env.describe.Answer? && |env.describe.value| == 1
    ensures r.result.Success? ==> r.result.value == Output(env.describe.value[0], env.region)
    ensures env.awsConfig.Ack? && env.describe.Answer? && |env.describe.value| != 1 ==>
      r.result == Failure(SelectOne(env.describe.value).error)
  {
    if env.awsConfig.Nack? then GroupRun(Failure(Api(env.awsConfig.error)), None)
    else
      var query := GroupQuery(c, env.tagOrder);
      match env.describe
      case Refused(e) => GroupRun(Failure(DescribeFailed(e)), Some(query))
      case Answer(groups) =>
        match SelectOne(groups)
        case Failure(e) => GroupRun(Failure(e), Some(query))
        case Success(g) => GroupRun(Success(Output(g, env.region)), Some(query))
  }
}

=== FILE: seqs.dfy ===
/** Sequence helpers: element-wise mapping and the permutation facts the model relies on
    when Go iterates a map in an unspecified order. */
module Seqs {

  /** `f` applied to every element, in order. */
  function Map<A, B>(f: A -> B, s: seq<A>): (r: seq<B>)
    ensures |r| == |s|
    ensures forall i :: 0 <= i < |s| ==> r[i] == f(s[i])
  {
    seq(|s|, i requires 0 <= i < |s| => f(s[i]))
  }

  /** Mapping distributes over concatenation. */
  lemma MapAppend<A, B>(f: A -> B, s: seq<A>, t: seq<A>)
    ensures Map(f, s + t) == Map(f, s) + Map(f, t)
  {
    var l := Map(f, s + t);
    var r := Map(f, s) + Map(f, t);
    forall k | 0 <= k < |l|
      ensures l[k] == r[k]
    {
      if k < |s| {
        assert (s + t)[k] == s[k];
      } else {
        assert (s + t)[k] == t[k - |s|];
      }
    }
  }

  /** Splitting out position `i` splits out one occurrence of `t[i]`. */
  lemma SplitAt<T>(t: seq<T>, i: nat)
    requires i < |t|
    ensures multiset(t) == multiset(t[..i] + t[i + 1..]) + multiset{t[i]}
  {
    assert t == t[..i] + [t[i]] + t[i + 1..];
  }

  /** Multiset addition cancels. */
  lemma Cancel<T>(a: multiset<T>, b: multiset<T>, x: T)
    requires a + multiset{x} == b + multiset{x}
    ensures a == b
  {
    forall y
      ensures a[y] == b[y]
    {
      assert (a + multiset{x})[y] == (b + multiset{x})[y];
    }
  }

  /** Mapping the sequence with one position cut out cuts the image of that position out. */
  lemma MapSplitAt<A, B>(f: A -> B, t: seq<A>, i: nat)
    requires i < |t|
    ensures multiset(Map(f, t)) == multiset(Map(f, t[..i] + t[i + 1..])) + multiset{f(t[i])}
  {
    var front, back := t[..i], t[i + 1..];
    assert t == front + [t[i]] + back;
    MapAppend(f, front + [t[i]], back);
    MapAppend(f, front, [t[i]]);
    MapAppend(f, front, back);
    assert Map(f, [t[i]]) == [f(t[i])];
  }

  /** Rearranging the input only rearranges the output. */
  lemma {:induction false} MapPermutation<A, B>(f: A -> B, s: seq<A>, t: seq<A>)
    requires multiset(s) == multiset(t)
    ensures multiset(Map(f, s)) == multiset(Map(f, t))
    decreases |s|
  {
    if |s| == 0 {
      assert |t| == |multiset(t)| == 0;
    } else {
      var x := s[0];
      assert x in multiset(t);
      var i :| 0 <= i < |t| && t[i] == x;
      var s', t' := s[1..], t[..i] + t[i + 1..];
      SplitAt(t, i);
      assert s == [x] + s';
      assert multiset(s) == multiset(s') + multiset{x};
      Cancel(multiset(s'), multiset(t'), x);
      MapPermutation(f, s', t');
      MapSplitAt(f, t, i);
      MapAppend(f, [x], s');
      assert Map(f, [x]) == [f(x)];
      assert multiset(Map(f, s)) == multiset{f(x)} + multiset(Map(f, s'));
    }
  }

  /** A sequence with no repeated element. */
  predicate Distinct<T(==)>(s: seq<T>) {
    forall i, j :: 0 <= i < j < |s| ==> s[i] != s[j]
  }

  /** In a repetition-free sequence every element occurs exactly once. */
  lemma {:induction false} DistinctMultiplicity<T>(s: seq<T>, y: T)
    requires Distinct(s)
    ensures multiset(s)[y] == if y in s then 1 else 0
    decreases |s|
  {
    if |s| > 0 {
      assert s == [s[0]] + s[1..];
      assert Distinct(s[1..]) by {
        forall a, b | 0 <= a < b < |s[1..]|
          ensures s[1..][a] != s[1..][b]
        {
          assert s[1..][a] == s[a + 1] && s[1..][b] == s[b + 1];
        }
      }
      DistinctMultiplicity(s[1..], y);
      forall k | 0 <= k < |s[1..]|
        ensures s[1..][k] != s[0]
      {
        assert s[1..][k] == s[k + 1];
      }
      assert y in s <==> y == s[0] || y in s[1..];
    }
  }

  /** Two repetition-free sequences with the same elements are rearrangements of each other:
      the situation of two iterations over the keys of one Go map. */
  lemma DistinctSameElements<T>(s: seq<T>, t: seq<T>)
    requires Distinct(s) && Distinct(t)
    requires forall x :: x in s <==> x in t
    ensures multiset(s) == multiset(t)
  {
    forall y
      ensures multiset(s)[y] == multiset(t)[y]
    {
      DistinctMultiplicity(s, y);
      DistinctMultiplicity(t, y);
    }
  }

  /** `entries` lists the entries of `m`, each once, in the order a Go iteration over the map
      happens to visit them. */
  ghost predicate EnumeratesMap<K, V>(m: map<K, V>, entries: seq<(K, V)>) {
    Distinct(entries) &&
    (forall e :: e in entries ==> e.0 in m && m[e.0] == e.1) &&
    (forall k :: k in m ==> (k, m[k]) in entries)
  }

  /** Two iterations over one map visit the same entries, rearranged. */
  lemma EnumerationsPermute<K, V>(m: map<K, V>, e1: seq<(K, V)>, e2: seq<(K, V)>)
    requires EnumeratesMap(m, e1) && EnumeratesMap(m, e2)
    ensures multiset(e1) == multiset(e2)
  {
    DistinctSameElements(e1, e2);
  }

  /** A repetition-free sequence has as many elements as the set of its elements. */
  lemma {:induction false} DistinctCardinality<T>(s: seq<T>, elements: set<T>)
    requires Distinct(s)
    requires forall x :: x in s <==> x in elements
    ensures |s| == |elements|
    decreases |s|
  {
    if |s| > 0 {
      var rest := elements - {s[0]};
      assert Distinct(s[1..]) by {
        forall a, b | 0 <= a < b < |s[1..]|
          ensures s[1..][a] != s[1..][b]
        {
          assert s[1..][a] == s[a + 1] && s[1..][b] == s[b + 1];
        }
      }
      forall x
        ensures x in s[1..] <==> x in rest
      {
        if x in s[1..] {
          var k :| 0 <= k < |s[1..]| && s[1..][k] == x;
          assert s[k + 1] == x;
          assert x != s[0];
        }
        if x in rest {
          assert x in s && x != s[0];
          var k :| 0 <= k < |s| && s[k] == x;
          assert s[1..][k - 1] == x;
        }
      }
      DistinctCardinality(s[1..], rest);
    } else {
      assert forall x :: x !in elements;
      assert elements == {};
    }
  }

  /** The parts of a concatenation are in it. */
  lemma InConcat<T>(a: seq<T>, b: seq<T>)
    ensures forall x :: x in a ==> x in a + b
    ensures forall x :: x in b ==> x in a + b
  {
    forall x | x in b ensures x in a + b {
      var i :| 0 <= i < |b| && b[i] == x;
      assert (a + b)[|a| + i] == x;
    }
  }

  /** The parts of a three-way concatenation are in it, the first and last in place. */
  lemma InAppend<T>(a: seq<T>, b: seq<T>, c: seq<T>)
    ensures (a + b + c)[..|a|] == a && (a + b + c)[|a| + |b|..] == c
    ensures (a + b + c)[|a|..|a| + |b|] == b
    ensures forall x :: x in a ==> x in a + b + c
    ensures forall x :: x in b ==> x in a + b + c
  {
    assert (a + b + c)[..|a|] == a;
    assert (a + b + c)[|a| + |b|..] == c;
    assert (a + b + c)[|a|..|a| + |b|] == b;
    forall x | x in b ensures x in a + b + c {
      var i :| 0 <= i < |b| && b[i] == x;
      assert (a + b + c)[|a| + i] == x;
    }
  }
  /** The parts, concatenated in order. */
  function Flatten<T(!new)>(parts: seq<seq<T>>): (r: seq<T>)
    ensures forall x :: x in r <==> exists i :: 0 <= i < |parts| && x in parts[i]
    decreases |parts|
  {
    if |parts| == 0 then []
    else
      var rest := Flatten(parts[1..]);
      InConcat(parts[0], rest);
      assert forall x :: x in parts[0] + rest ==> x in parts[0] || x in rest;
      assert forall i :: 1 <= i < |parts| ==> parts[i] == parts[1..][i - 1];
      parts[0] + rest
  }

  /** Flattening distributes over concatenation: together with `Flatten([p]) == p`, this
      says the result is each part in turn, in order. */
  lemma {:induction false} FlattenAppend<T(!new)>(a: seq<seq<T>>, b: seq<seq<T>>)
    ensures Flatten(a + b) == Flatten(a) + Flatten(b)
    decreases |a|
  {
    if |a| == 0 {
      assert a + b == b;
    } else {
      assert (a + b)[1..] == a[1..] + b;
      FlattenAppend(a[1..], b);
    }
  }

  /** A single part flattens to itself. */
  lemma FlattenOne<T(!new)>(p: seq<T>)
    ensures Flatten([p]) == p
  {
    assert [p][1..] == [];
  }
}

=== FILE: strings.dfy ===
/** The parts of Go's `strings`, `sort` and `strconv` packages the core relies on. */
module Strings {
  import opened Wrappers
  import Seqs

  /** `strings.Split(s, sep)` for a one-character separator: the maximal separator-free pieces,
      in order; the empty string gives one empty piece. */
  function Split(s: string, sep: char): (parts: seq<string>)
    ensures |parts| >= 1
    ensures forall i :: 0 <= i < |parts| ==> sep !in parts[i]
    ensures Join(parts, sep) == s
  {
    if |s| == 0 then [""]
    else
      var rest := Split(s[1..], sep);
      if s[0] == sep then [""] + rest
      else
        assert Join([[s[0]] + rest[0]] + rest[1..], sep) == [s[0]] + Join(rest, sep);
        [[s[0]] + rest[0]] + rest[1..]
  }

  /** `strings.Join(parts, string(sep))`. */
  function Join(parts: seq<string>, sep: char): string
    requires |parts| >= 1
  {
    if |parts| == 1 then parts[0] else parts[0] + [sep] + Join(parts[1..], sep)
  }

  /** Splitting what was joined gives the pieces back, provided no piece holds the separator. */
  lemma {:induction false} SplitJoin(parts: seq<string>, sep: char)
    requires |parts| >= 1
    requires forall i :: 0 <= i < |parts| ==> sep !in parts[i]
    ensures Split(Join(parts, sep), sep) == parts
    decreases |parts|, |parts[0]|
  {
    var p := parts[0];
    if |p| == 0 {
      if |parts| > 1 {
        var j := Join(parts, sep);
        assert j == [sep] + Join(parts[1..], sep);
        assert j[1..] == Join(parts[1..], sep);
        SplitJoin(parts[1..], sep);
        assert parts == [""] + parts[1..];
      }
    } else {
      var parts' := [p[1..]] + parts[1..];
      assert parts'[1..] == parts[1..];
      var j := Join(parts, sep);
      if |parts| == 1 {
        assert j[1..] == Join(parts', sep);
      } else {
        assert j == [p[0]] + (p[1..] + [sep] + Join(parts[1..], sep));
        assert j[1..] == Join(parts', sep);
      }
      assert p[0] != sep by {
        assert p[0] in p;
      }
      SplitJoin(parts', sep);
      assert [p[0]] + p[1..] == p;
    }
  }

  /** `strings.SplitN(s, string(sep), 2)` when it yields two pieces: the text before the first
      separator and everything after it; `None` when `s` has no separator (Go then yields a
      single piece). */
  function Cut(s: string, sep: char): (r: Option<(string, string)>)
    ensures r.Some? <==> sep in s
    ensures r.Some? ==> r.value.0 + [sep] + r.value.1 == s && sep !in r.value.0
  {
    if |s| == 0 then None
    else if s[0] == sep then
      assert s == [] + [sep] + s[1..];
      Some(([], s[1..]))
    else
      assert sep in s <==> sep in s[1..] by {
        assert s == [s[0]] + s[1..];
      }
      match Cut(s[1..], sep)
      case None => None
      case Some((before, after)) =>
        assert [s[0]] + before + [sep] + after == [s[0]] + (before + [sep] + after);
        assert s == [s[0]] + s[1..];
        Some(([s[0]] + before, after))
  }

  /** Cutting a text built around its first separator gives the two sides back. */
  lemma {:induction false} CutAround(before: string, sep: char, after: string)
    requires sep !in before
    ensures Cut(before + [sep] + after, sep) == Some((before, after))
    decreases |before|
  {
    var s := before + [sep] + after;
    if |before| > 0 {
      assert s[1..] == before[1..] + [sep] + after;
      assert before[0] in before;
      CutAround(before[1..], sep, after);
      assert [before[0]] + before[1..] == before;
    } else {
      assert s[1..] == after;
    }
  }

  /** Go's string `<=`: byte-wise lexicographic order of the UTF-8 encodings, which coincides
      with the lexicographic order of code points used here. */
  predicate LexLe(a: string, b: string) {
    |a| == 0 || (|b| > 0 && (a[0] < b[0] || (a[0] == b[0] && LexLe(a[1..], b[1..]))))
  }

  lemma {:induction false} LexLeTotal(a: string, b: string)
    ensures LexLe(a, b) || LexLe(b, a)
    decreases |a|
  {
    if |a| > 0 && |b| > 0 && a[0] == b[0] {
      LexLeTotal(a[1..], b[1..]);
    }
  }

  lemma {:induction false} LexLeAntisymmetric(a: string, b: string)
    requires LexLe(a, b) && LexLe(b, a)
    ensures a == b
    decreases |a|
  {
    if |a| > 0 {
      LexLeAntisymmetric(a[1..], b[1..]);
      assert a == [a[0]] + a[1..] && b == [b[0]] + b[1..];
    }
  }

  lemma {:induction false} LexLeTransitive(a: string, b: string, c: string)
    requires LexLe(a, b) && LexLe(b, c)
    ensures LexLe(a, c)
    decreases |a|
  {
    if |a| > 0 && a[0] == b[0] && b[0] == c[0] {
      LexLeTransitive(a[1..], b[1..], c[1..]);
    }
  }

  /** Every earlier string is `<=` every later one. */
  predicate Sorted(s: seq<string>) {
    forall i, j :: 0 <= i < j < |s| ==> LexLe(s[i], s[j])
  }

  /** A string `<=` every element of a sorted sequence can go in front of it. */
  lemma ConsSorted(h: string, t: seq<string>)
    requires Sorted(t)
    requires forall j :: 0 <= j < |t| ==> LexLe(h, t[j])
    ensures Sorted([h] + t)
  {
    var r := [h] + t;
    forall i, j | 0 <= i < j < |r|
      ensures LexLe(r[i], r[j])
    {
      assert r[j] == t[j - 1];
      if i > 0 {
        assert r[i] == t[i - 1];
      }
    }
  }

  /** The head of a sorted sequence is `<=` everything its tail holds, and `<=` `x`, so it is
      `<=` every element of a rearrangement of the tail with `x` added. */
  lemma HeadBelow(s: seq<string>, x: string, rest: seq<string>)
    requires Sorted(s) && |s| > 0 && LexLe(s[0], x)
    requires multiset(rest) == multiset(s[1..]) + multiset{x}
    ensures forall j :: 0 <= j < |rest| ==> LexLe(s[0], rest[j])
  {
    forall j | 0 <= j < |rest|
      ensures LexLe(s[0], rest[j])
    {
      assert rest[j] in multiset(rest);
      if rest[j] != x {
        assert rest[j] in multiset(s[1..]);
        var k :| 0 <= k < |s[1..]| && s[1..][k] == rest[j];
        assert s[k + 1] == rest[j];
      }
    }
  }

  /** Place `x` into the sorted `s` before the first element it does not exceed. */
  function Insert(x: string, s: seq<string>): (r: seq<string>)
    requires Sorted(s)
    ensures Sorted(r)
    ensures multiset(r) == multiset(s) + multiset{x}
  {
    if |s| == 0 then [x]
    else if LexLe(x, s[0]) then
      assert forall j :: 0 <= j < |s| ==> LexLe(x, s[j]) by {
        forall j | 0 < j < |s| ensures LexLe(x, s[j]) {
          LexLeTransitive(x, s[0], s[j]);
        }
      }
      ConsSorted(x, s);
      [x] + s
    else
      LexLeTotal(x, s[0]);
      SortedTail(s);
      var rest := Insert(x, s[1..]);
      HeadBelow(s, x, rest);
      ConsSorted(s[0], rest);
      assert s == [s[0]] + s[1..];
      [s[0]] + rest
  }

  /** `sort.Strings`: the lines in ascending order. */
  function SortStrings(s: seq<string>): (r: seq<string>)
    ensures Sorted(r)
    ensures multiset(r) == multiset(s)
  {
    if |s| == 0 then []
    else
      assert s == [s[0]] + s[1..];
      Insert(s[0], SortStrings(s[1..]))
  }

  /** The head of a sorted sequence is `<=` each of its elements. */
  lemma HeadIsLeast(a: seq<string>, x: string)
    requires Sorted(a) && x in a
    ensures LexLe(a[0], x)
  {
    var k :| 0 <= k < |a| && a[k] == x;
    if k == 0 {
      LexLeTotal(x, x);
    }
  }

  lemma SortedTail(a: seq<string>)
    requires Sorted(a) && |a| > 0
    ensures Sorted(a[1..])
  {
    forall i, j | 0 <= i < j < |a[1..]|
      ensures LexLe(a[1..][i], a[1..][j])
    {
      assert a[1..][i] == a[i + 1] && a[1..][j] == a[j + 1];
    }
  }

  /** There is only one sorted arrangement of a multiset of strings. */
  lemma {:induction false} SortedUnique(a: seq<string>, b: seq<string>)
    requires Sorted(a) && Sorted(b)
    requires multiset(a) == multiset(b)
    ensures a == b
    decreases |a|
  {
    if |a| == 0 {
      assert |b| == |multiset(b)| == 0;
    } else {
      assert |b| == |multiset(b)| == |multiset(a)| == |a|;
      assert a[0] in multiset(b) && b[0] in multiset(a);
      HeadIsLeast(b, a[0]);
      HeadIsLeast(a, b[0]);
      LexLeAntisymmetric(a[0], b[0]);
      var ta, tb := a[1..], b[1..];
      assert multiset(a) == multiset(ta) + multiset{a[0]} by {
        assert a == [a[0]] + ta;
      }
      assert multiset(b) == multiset(tb) + multiset{a[0]} by {
        assert b == [b[0]] + tb;
      }
      Seqs.Cancel(multiset(ta), multiset(tb), a[0]);
      SortedTail(a);
      SortedTail(b);
      SortedUnique(a[1..], b[1..]);
      assert a == [a[0]] + a[1..] && b == [b[0]] + b[1..];
    }
  }

  /** Sorting depends only on which strings there are, not on the order they arrive in. */
  lemma SortStringsOrderIndependent(s: seq<string>, t: seq<string>)
    requires multiset(s) == multiset(t)
    ensures SortStrings(s) == SortStrings(t)
  {
    SortedUnique(SortStrings(s), SortStrings(t));
  }

  /** The spellings `strconv.ParseBool` accepts for true. */
  const TrueSpellings: set<string> := {"1", "t", "T", "TRUE", "true", "True"}

  /** The spellings `strconv.ParseBool` accepts for false. */
  const FalseSpellings: set<string> := {"0", "f", "F", "FALSE", "false", "False"}

  /** `strconv.ParseBool`: an accepted spelling or a syntax error. */
  function ParseBool(s: string): (r: Option<bool>)
    ensures r == Some(true) <==> s in TrueSpellings
    ensures r == Some(false) <==> s in FalseSpellings
  {
    if s in TrueSpellings then Some(true)
    else if s in FalseSpellings then Some(false)
    else None
  }
}

=== FILE: subnet.dfy ===
/** datasource/subnet/datasource.go: validate the search criteria, build the DescribeSubnets
    filters, and choose one subnet from the matches (the only one, the one with the most free
    addresses, or a random one). */
module SubnetSource {
  import opened Wrappers
  import opened Aws
  import opened Ec2
  import Seqs
  import opened DataSources

  /** The data source's settings; an empty string means "not set". */
  datatype SubnetConfig = SubnetConfig(
    id: string,
    vpcId: string,
    cidrBlock: string,
    ipv6CidrBlock: string,
    availabilityZone: string,
    availabilityZoneId: string,
    defaultForAz: Option<bool>,
    state: string,
    tags: map<string, string>,
    filters: seq<Filter>,
    mostFree: bool,
    random: bool)

  /** At least one criterion to search by. */
  predicate HasSearchCriteria(c: SubnetConfig) {
    c.id != "" || c.vpcId != "" || c.cidrBlock != "" || c.ipv6CidrBlock != "" ||
    c.availabilityZone != "" || c.availabilityZoneId != "" || c.defaultForAz.Some? ||
    c.state != "" || |c.tags| > 0 || |c.filters| > 0
  }

  /** Configure, given the credential configuration's own validation errors. */
  function Configure(c: SubnetConfig, prepare: seq<Error>): (r: Option<Error>)
    ensures r.None? <==> |prepare| == 0 && HasSearchCriteria(c)
    ensures r.Some? ==>
      r.value.Errors? && r.value.all == prepare + (if HasSearchCriteria(c) then [] else [NoSearchCriteria("id, vpc_id, cidr_block, filters, tags, etc.")])
  {
    CheckCriteria(prepare, HasSearchCriteria(c), NoSearchCriteria("id, vpc_id, cidr_block, filters, tags, etc."))
  }

  /** `fmt.Sprintf("%t", b)` */
  function FormatBool(b: bool): (s: string)
    ensures s != ""
  {
    if b then "true" else "false"
  }

  /** The EC2 filter name of the default_for_az criterion. */
  const DefaultForAzName: string := "default-for-az"

  /** The scalar criteria in the order the filters are built, each with its EC2 filter name;
      the empty string stands for "not set". The id is not among them: it is passed as a
      subnet id instead. */
  function ScalarCriteria(c: SubnetConfig): seq<(string, string)> {
    [("vpc-id", c.vpcId),
     ("cidr-block", c.cidrBlock),
     ("ipv6-cidr-block-association.ipv6-cidr-block", c.ipv6CidrBlock),
     ("availability-zone", c.availabilityZone),
     ("availability-zone-id", c.availabilityZoneId),
     (DefaultForAzName, if c.defaultForAz.Some? then FormatBool(c.defaultForAz.value) else ""),
     ("state", c.state)]
  }

  /** The number of set criteria among `criteria`. */
  function SetCriteria(criteria: seq<(string, string)>): nat
    decreases |criteria|
  {
    if |criteria| == 0 then 0
    else (if criteria[0].1 != "" then 1 else 0) + SetCriteria(criteria[1..])
  }

  /** Counting the set criteria of a non-empty prefix: the first criterion, then the rest of it. */
  lemma SetCriteriaPrefix(criteria: seq<(string, string)>, j: nat)
    requires 0 < j <= |criteria|
    ensures SetCriteria(criteria[..j]) == (if criteria[0].1 != "" then 1 else 0) + SetCriteria(criteria[1..][..j - 1])
  {
    assert criteria[..j][1..] == criteria[1..][..j - 1];
  }

  /** One more criterion in front: the filter of every set criterion keeps its place behind
      those of the set criteria before it. */
  lemma FiltersPlacedCons(criteria: seq<(string, string)>, rest: seq<Filter>)
    requires |criteria| > 0
    requires forall j :: 0 <= j < |criteria[1..]| && criteria[1..][j].1 != "" ==>
      SetCriteria(criteria[1..][..j]) < |rest| &&
      rest[SetCriteria(criteria[1..][..j])] == Filter(criteria[1..][j].0, [criteria[1..][j].1])
    ensures var r := if criteria[0].1 != "" then [Filter(criteria[0].0, [criteria[0].1])] + rest else rest;
      forall j :: 0 <= j < |criteria| && criteria[j].1 != "" ==>
        SetCriteria(criteria[..j]) < |r| && r[SetCriteria(criteria[..j])] == Filter(criteria[j].0, [criteria[j].1])
  {
    var r := if criteria[0].1 != "" then [Filter(criteria[0].0, [criteria[0].1])] + rest else rest;
    forall j | 0 <= j < |criteria| && criteria[j].1 != ""
      ensures SetCriteria(criteria[..j]) < |r| && r[SetCriteria(criteria[..j])] == Filter(criteria[j].0, [criteria[j].1])
    {
      if j == 0 {
        assert criteria[..0] == [];
      } else {
        SetCriteriaPrefix(criteria, j);
        assert criteria[j] == criteria[1..][j - 1];
      }
    }
  }

  /** One single-valued filter per set criterion, in order. */
  function ScalarFilters(criteria: seq<(string, string)>): (r: seq<Filter>)
    ensures |r| <= |criteria|
    // one filter per set criterion, each after the filters of the set criteria before it
    ensures |r| == SetCriteria(criteria)
    ensures forall j :: 0 <= j < |criteria| && criteria[j].1 != "" ==>
      SetCriteria(criteria[..j]) < |r| && r[SetCriteria(criteria[..j])] == Filter(criteria[j].0, [criteria[j].1])
    ensures forall p :: p in criteria && p.1 != "" ==> Filter(p.0, [p.1]) in r
    ensures forall f :: f in r ==> |f.values| == 1 && (f.name, f.values[0]) in criteria && f.values[0] != ""
    decreases |criteria|
  {
    if |criteria| == 0 then []
    else
      var p := criteria[0];
      var rest := ScalarFilters(criteria[1..]);
      assert forall q :: q in criteria ==> q == p || q in criteria[1..];
      var r := if p.1 != "" then [Filter(p.0, [p.1])] + rest else rest;
      FiltersPlacedCons(criteria, rest);
      r
  }

  /** buildFilters: the set scalar criteria, then one filter per tag in the map's iteration
      order, then the custom filters unchanged. */
  function BuildFilters(c: SubnetConfig, tagOrder: seq<(string, string)>): (r: seq<Filter>)
    requires Seqs.EnumeratesMap(c.tags, tagOrder)
    ensures |r| == |ScalarFilters(ScalarCriteria(c))| + |c.tags| + |c.filters|
    ensures r[..|ScalarFilters(ScalarCriteria(c))|] == ScalarFilters(ScalarCriteria(c))
    ensures r[|r| - |c.filters|..] == c.filters
    ensures r[|ScalarFilters(ScalarCriteria(c))|..|r| - |c.filters|] == TagFilters(c.tags, tagOrder)
    ensures forall k :: k in c.tags ==> Filter("tag:" + k, [c.tags[k]]) in r
    ensures forall f :: f in ScalarFilters(ScalarCriteria(c)) ==> f in r
  {
    var scalars := ScalarFilters(ScalarCriteria(c));
    var tagged := TagFilters(c.tags, tagOrder);
    TagCount(c.tags, tagOrder);
    Seqs.InAppend(scalars, tagged, c.filters);
    scalars + tagged + c.filters
  }

  /** The vpc id becomes a filter exactly when it is set. */
  lemma VpcFilter(c: SubnetConfig)
    ensures Filter("vpc-id", [c.vpcId]) in ScalarFilters(ScalarCriteria(c)) <==> c.vpcId != ""
  {
    assert ScalarCriteria(c)[0] in ScalarCriteria(c);
  }

  /** A criterion whose name no other criterion has yields a filter with a given non-empty
      value exactly when it holds that value. */
  lemma UniqueCriterion(criteria: seq<(string, string)>, i: nat, value: string)
    requires i < |criteria| && value != ""
    requires forall j :: 0 <= j < |criteria| && j != i ==> criteria[j].0 != criteria[i].0
    ensures Filter(criteria[i].0, [value]) in ScalarFilters(criteria) <==> criteria[i].1 == value
  {
    var f := Filter(criteria[i].0, [value]);
    if f in ScalarFilters(criteria) {
      var j :| 0 <= j < |criteria| && criteria[j] == (f.name, value);
    }
    if criteria[i].1 == value {
      assert criteria[i] in criteria;
    }
  }

  /** Only the default_for_az criterion has its name. */
  lemma DefaultForAzNameUnique(c: SubnetConfig)
    ensures forall j :: 0 <= j < |ScalarCriteria(c)| && j != 5 ==> ScalarCriteria(c)[j].0 != ScalarCriteria(c)[5].0
  {
    var criteria := ScalarCriteria(c);
    // the other criteria's names have other lengths
    assert |criteria[5].0| == 14;
    assert forall j :: 0 <= j < |criteria| && j != 5 ==> |criteria[j].0| != 14;
  }

  /** `default_for_az` becomes a filter exactly when it is set, rendered "true" or "false". */
  lemma DefaultForAzFilter(c: SubnetConfig, b: bool)
    ensures Filter(DefaultForAzName, [FormatBool(b)]) in ScalarFilters(ScalarCriteria(c)) <==> c.defaultForAz == Some(b)
  {
    var criteria := ScalarCriteria(c);
    DefaultForAzNameUnique(c);
    UniqueCriterion(criteria, 5, FormatBool(b));
    // an unset value is empty, and "true" and "false" differ
    if c.defaultForAz.None? {
      assert criteria[5].1 == "";
    } else if c.defaultForAz.value != b {
      assert criteria[5].1 == FormatBool(!b);
      assert |FormatBool(b)| != |FormatBool(!b)|;
    }
  }

  /** An iteration over a map visits as many entries as the map has keys. */
  lemma TagCount(tags: map<string, string>, order: seq<(string, string)>)
    requires Seqs.EnumeratesMap(tags, order)
    ensures |order| == |tags|
  {
    var keys := Seqs.Map((e: (string, string)) => e.0, order);
    assert Seqs.Distinct(keys) by {
      forall i, j | 0 <= i < j < |keys| ensures keys[i] != keys[j] {
        assert order[i] in order && order[j] in order;
        assert order[i] != order[j];
      }
    }
    assert forall k :: k in keys <==> k in tags.Keys by {
      forall k ensures k in keys <==> k in tags.Keys {
        if k in tags.Keys {
          assert (k, tags[k]) in order;
          var i :| 0 <= i < |order| && order[i] == (k, tags[k]);
          assert keys[i] == k;
        }
        if k in keys {
          var i :| 0 <= i < |keys| && keys[i] == k;
          assert order[i] in order;
        }
      }
    }
    Seqs.DistinctCardinality(keys, tags.Keys);
  }

  /** The id never becomes a filter: it only selects the subnet ids of the request. */
  lemma FiltersIgnoreId(c: SubnetConfig, tagOrder: seq<(string, string)>, id: string)
    requires Seqs.EnumeratesMap(c.tags, tagOrder)
    ensures BuildFilters(c.(id := id), tagOrder) == BuildFilters(c, tagOrder)
  {
    assert ScalarCriteria(c.(id := id)) == ScalarCriteria(c);
  }

  /** The request sent: the built filters, and the id (when set) as the only subnet id. */
  function SubnetQuery(c: SubnetConfig, tagOrder: seq<(string, string)>): (q: Query)
    requires Seqs.EnumeratesMap(c.tags, tagOrder)
    ensures q.filters == BuildFilters(c, tagOrder)
    ensures c.id == "" ==> q.ids == []
    ensures c.id != "" ==> q.ids == [c.id]
  {
    Query(BuildFilters(c, tagOrder), if c.id != "" then [c.id] else [])
  }

  /** The fields of a subnet description the data source reads; the SDK's pointers are
      options. */
  datatype Subnet = Subnet(
    subnetId: Option<string>,
    subnetArn: Option<string>,
    vpcId: Option<string>,
    availableIps: Option<int>,
    defaultForAz: Option<bool>,
    state: string,
    tags: seq<Tag>)

  /** The zero subnet, which the most-free selection returns for an empty list. */
  const ZeroSubnet: Subnet := Subnet(None, None, None, None, None, "", [])

  /** The free address count the selection compares, absent counted as zero. */
  function FreeIps(s: Subnet): int {
    s.availableIps.GetOr(0)
  }

  /** selectSubnetWithMostFreeIPs: a subnet with the largest free address count. The source
      sorts with an unstable sort, so among equal counts any may come out; this model takes
      the first. */
  function MostFree(subnets: seq<Subnet>): (r: Subnet)
    ensures |subnets| == 0 ==> r == ZeroSubnet
    ensures |subnets| > 0 ==> r in subnets && forall s :: s in subnets ==> FreeIps(s) <= FreeIps(r)
    decreases |subnets|
  {
    if |subnets| == 0 then ZeroSubnet
    else if |subnets| == 1 then subnets[0]
    else
      var best := MostFree(subnets[1..]);
      assert forall s :: s in subnets ==> s == subnets[0] || s in subnets[1..];
      if FreeIps(subnets[0]) >= FreeIps(best) then subnets[0] else best
  }

  /** selectRandomSubnet, with `pick` standing for the random number drawn: the subnet at
      `pick` modulo the count, so every subnet can be drawn. */
  function RandomSubnet(subnets: seq<Subnet>, pick: nat): (r: Subnet)
    ensures |subnets| == 0 ==> r == ZeroSubnet
    ensures |subnets| > 0 ==> r in subnets
  {
    if |subnets| == 0 then ZeroSubnet else subnets[pick % |subnets|]
  }

  /** Every subnet of the list is drawn by some random number: the draw is a choice among all of
      them. */
  lemma EverySubnetDrawable(subnets: seq<Subnet>, s: Subnet)
    requires s in subnets
    ensures exists pick: nat :: RandomSubnet(subnets, pick) == s
  {
    var i :| 0 <= i < |subnets| && subnets[i] == s;
    assert RandomSubnet(subnets, i) == s;
  }

  /** The selection in Execute: none is an error, one is taken, several need most_free (which
      takes precedence) or random. */
  function Select(subnets: seq<Subnet>, mostFree: bool, random: bool, pick: nat): (r: Result<Subnet, Error>)
    ensures |subnets| == 0 <==> r == Failure(NoSubnetFound)
    ensures |subnets| == 1 ==> r == Success(subnets[0])
    ensures r.Failure? <==> |subnets| == 0 || (|subnets| > 1 && !mostFree && !random)
    ensures |subnets| > 1 && !mostFree && !random ==> r == Failure(MultipleSubnets(|subnets|))
    ensures r.Success? ==> r.value in subnets
    ensures |subnets| > 1 && mostFree ==> r.Success? && forall s :: s in subnets ==> FreeIps(s) <= FreeIps(r.value)
  {
    if |subnets| == 0 then Failure(NoSubnetFound)
    else if |subnets| == 1 then Success(subnets[0])
    else if mostFree then Success(MostFree(subnets))
    else if random then Success(RandomSubnet(subnets, pick))
    else Failure(MultipleSubnets(|subnets|))
  }

  /** The outputs the model keeps; absent values read as Go's zero values. */
  datatype SubnetOutput = SubnetOutput(
    id: string,
    arn: string,
    region: string,
    vpcId: string,
    availableIps: int,
    defaultForAz: bool,
    state: string,
    tags: map<string, string>)

  /** The outputs of the chosen subnet. */
  function Output(s: Subnet, region: string): (o: SubnetOutput)
    ensures o.id == s.subnetId.GetOr("") && o.region == region && o.tags == ExtractTags(s.tags)
  {
    SubnetOutput(s.subnetId.GetOr(""), s.subnetArn.GetOr(""), region, s.vpcId.GetOr(""),
      s.availableIps.GetOr(0), s.defaultForAz.GetOr(false), s.state, ExtractTags(s.tags))
  }

  /** The environment of Execute: loading the credentials, their region, the tag map's
      iteration order, the DescribeSubnets answer and the random draw. */
  datatype SubnetEnv = SubnetEnv(
    awsConfig: Ack,
    region: string,
    tagOrder: seq<(string, string)>,
    describe: Reply<seq<Subnet>>,
    pick: nat)

  /** The result and the request sent, if any. */
  datatype SubnetRun = SubnetRun(result: Result<SubnetOutput, Error>, query: Option<Query>)

  /** Execute. */
  function Execute(c: SubnetConfig, env: SubnetEnv): (r: SubnetRun)
    requires Seqs.EnumeratesMap(c.tags, env.tagOrder)
    ensures env.awsConfig.Nack? ==> r == SubnetRun(Failure(SdkConfig(env.awsConfig.error)), None)
    ensures env.awsConfig.Ack? ==> r.query == Some(SubnetQuery(c, env.tagOrder))
    ensures env.awsConfig.Ack? && env.describe.Refused? ==> r.result == Failure(DescribeFailed(env.describe.error))
    ensures env.awsConfig.Ack? && env.describe.Answer? ==>
      var chosen := Select(env.describe.value, c.mostFree, c.random, env.pick);
      (r.result.Success? <==> chosen.Success?) &&
      (chosen.Failure? ==> r.result.error == chosen.error) &&
      (chosen.Success? ==> r.result.value == Output(chosen.value, env.region))
    ensures r.result.Success? ==> env.describe.Answer? && |env.describe.value| > 0
  {
    if env.awsConfig.Nack? then SubnetRun(Failure(SdkConfig(env.awsConfig.error)), None)
    else
      var query := SubnetQuery(c, env.tagOrder);
      match env.describe
      case Refused(e) => SubnetRun(Failure(DescribeFailed(e)), Some(query))
      case Answer(subnets) =>
        match Select(subnets, c.mostFree, c.random, env.pick)
        case Failure(e) => SubnetRun(Failure(e), Some(query))
        case Success(s) => SubnetRun(Success(Output(s, env.region)), Some(query))
  }
}

=== FILE: wrappers.dfy ===
/** Failure-compatible datatypes shared by every module of the model. */
module Wrappers {

  /** An optional value; stands for the provider SDK's nullable pointer fields. */
  datatype Option<+T> = None | Some(value: T) {

    predicate IsFailure() {
      None?
    }

    function PropagateFailure<U>(): Option<U>
      requires None?
    {
      None
    }

    function Extract(): T
      requires Some?
    {
      value
    }

    /** The value, or `default` when absent (the SDK's `aws.ToString`/`aws.ToInt32` helpers). */
    function GetOr(default: T): T {
      match this
      case Some(v) => v
      case None => default
    }
  }

  /** A value or an error, standing for Go's `(T, error)` return pairs. */
  datatype Result<+T, +E> = Success(value: T) | Failure(error: E) {

    predicate IsFailure() {
      Failure?
    }

    function PropagateFailure<U>(): Result<U, E>
      requires Failure?
    {
      Failure(error)
    }

    function Extract(): T
      requires Success?
    {
      value
    }
  }
}
